=== FILE: README.md ===
# A model of a BitTorrent leecher's core

This project models the deterministic core of a small Node.js BitTorrent
leecher in Dafny and proves properties about that model. The leecher reads a
`.torrent` file and asks UDP trackers for peers. It then connects to the
peers, exchanges handshakes and peer-wire messages with them, requests 16 KiB
blocks, checks each finished piece against its SHA-1 hash and writes the
piece into the torrent's files.

The model covers these parts:

- **Wire messages** (`Messages`, lib/createMessages.js). The handshake and the
  interested, request, have and bitfield messages of BEP 3 ("The BitTorrent
  Protocol Specification"). The connect and announce packets of BEP 15 ("UDP
  Tracker Protocol for BitTorrent").
- **Peer connection** (`Peer`, core/Peer.js). The `listenData` state
  machine: the 68-byte handshake, length-prefixed framing, and dispatch by
  message id. Also the request queue and whether a peer is free.
- **Piece store** (`PieceStore`, `PieceFiles`, core/Pieces.js).
  - Piece and block geometry, and block status.
  - The scheduling pass `runDownload`.
  - Block delivery, hash verification, and the split of a finished piece
    into per-file writes.
- **Peer pool** (`PeerPool`, core/PeerPool.js and core/peers.js). The
  round-robin cursor, the list of connected peers, and the per-peer details
  map.
- **Tracker client** (`Tracker`, core/Tracker.js). The BEP 15 connect and
  announce exchange, including parsing of the compact peer list.
- **Tracker selection** (`Trackers`, lib/utils.js and lib/torrentHelpers.js).
  Picking UDP trackers from `announce` and `announce-list`.
- **Torrent helpers** (`TorrentHelpers`). Piece hashes from the `pieces`
  string, block tiling, peer keys, and the indices a bitfield advertises.
- **Bencoding** (`Bencode`, `BencodeOrder`, `BencodeRoundTrip`,
  utils/parseMetaData.js and lib/encode.js). The metadata parser and the
  encoder, with a decode-after-encode round trip.
- **The older code path**. The `Peer_Protocol` class (`PeerProtocol`,
  core/peer_protocol.js and peer_protocol.js) and its piece table
  (`LegacyPieces`, core/pieces.js).

`Common`, `Bytes` and `Text` hold shared definitions:

- `Common`: bytes, options and powers of two.
- `Bytes`: big-endian integer fields.
- `Text`: hex, decimal text with JavaScript's `parseInt`, ASCII, Latin-1 and
  UTF-8 lengths.

The parser's special cases are part of its definition. `Bencode.Stored` keeps
a `pieces` value as the hex of its bytes between `<hex>` tags. A stray `e`
parses as an empty list.

How side effects are modelled:

- Socket writes become `Wrote` events or returned byte strings.
- Callbacks become events.
- Exceptions Node would throw become a `thrown` outcome.
- File writes become `FileWrite` records.
- Every value the program draws from the outside world is a parameter: the
  clock, random ids, SHA-1 and the client's own bitfield.

## Model

| member | source | states |
|---|---|---|
| Messages.Handshake | lib/createMessages.js:52-65 | The handshake is 68 bytes: length 19, the protocol string, 8 zero reserved bytes, then the decoded info-hash at 28..48 and the first 20 bytes of the peer id at 48..68 (BEP 3 handshake layout) |
| Messages.HandshakeCarriesInfoHash | lib/createMessages.js:58-59 | For a 40-digit lower-case hex info-hash, re-encoding bytes 28..48 as hex, as core/Peer.js:97 does on receipt, gives back the same info-hash |
| Messages.Interested | lib/createMessages.js:67-76 | The interested message is a length prefix of 1 followed by id 2, with no payload |
| Messages.Request | lib/createMessages.js:78-93 | A request is 17 bytes: prefix 13, id 6, then index, begin and length as 32-bit big-endian fields at 5, 9 and 13 |
| Messages.RequestPayloadDecodes | lib/createMessages.js:78-93 | Reading the request's payload at 0, 4 and 8, as handleRequestFromPeer does (core/Peer.js:183-189), recovers index, begin and length |
| Messages.Have | lib/createMessages.js:95-105 | A have message is 9 bytes: prefix 5, id 4 and the piece index at 5 |
| Messages.Bitfield | lib/createMessages.js:106-118 | A bitfield message is the bitfield behind a 5-byte header; its prefix counts the id and the bitfield, so it frames as exactly one message |
| Messages.UdpConnect | lib/createMessages.js:1-9 | The BEP 15 connect request is 16 bytes: the protocol magic 0x41727101980, action 0 and the transaction id |
| Messages.UdpAnnounceFields | lib/createMessages.js:11-50 | Every field of the 98-byte announce request reads back: connection id, action 1, transaction id, info-hash, peer id, downloaded 0, left, uploaded 0, event 0, IP 0, key 79012, num_want -1 and port 6881 |
| Messages.AnnounceHeadFields | lib/createMessages.js:22-31 | The first 56 bytes of the announce hold the connection id, action, transaction id, info-hash and peer id at their BEP 15 offsets |
| Messages.AnnounceTailFields | lib/createMessages.js:32-47 | The last 42 bytes of the announce hold downloaded, left, uploaded, event, IP, key, num_want and port at their BEP 15 offsets |
| Bytes.FromToBE | lib/createMessages.js:86-90 | Reading back an n-byte big-endian field gives the value written, for any value below 256^n |
| Bytes.ToFromBE | core/Tracker.js:85 | Writing back the value read from n big-endian bytes gives the same bytes, so a connection id read from a reply is sent back unchanged |
| Bytes.ToBEInjective | lib/createMessages.js:86-90 | Different values below 256^n have different n-byte encodings |
| Bytes.ReadU32OfU32 | core/Peer.js:115 | `readUInt32BE` of a written 32-bit field is the value written |
| Text.HexDecodeHex | lib/createMessages.js:58 | Decoding the hex text of any bytes gives the bytes back |
| Text.HexHexDecode | core/Peer.js:97 | Hex-encoding the decoding of an even-length lower-case hex string gives the string back |
| Text.HexInjective | core/Peer.js:97-100 | Byte strings with the same hex text are equal, so comparing hex info-hashes compares the hashes |
| Text.ParseIntOfIntToString | utils/parseMetaData.js:48 | `parseInt` of the decimal text of any integer is that integer, so the integer the encoder writes is the integer the parser reads |
| Text.NatToStringInjective | lib/encode.js:9 | Different naturals have different decimal texts |
| Text.AsciiDecodeBytes | utils/parseMetaData.js:5 | Decoding the bytes of an ASCII string gives back the string |
| Text.Utf8LengthAscii | lib/encode.js:14 | An ASCII string's UTF-8 byte length is its number of characters, so the length prefix counts characters |
| Bencode.Parse | utils/parseMetaData.js:1-62 | A start index outside the data yields an empty list at that index; otherwise the returned index lies strictly after the start |
| Bencode.FindByte | utils/parseMetaData.js:43-58 | The first position at or after `from` holding the byte, or none when the scan would run off the end |
| Bencode.SetEntry | utils/parseMetaData.js:21-25 | Assigning a key adds an entry only when the key is new; otherwise the number of entries stays the same |
| BencodeOrder.SetEntryLookup | utils/parseMetaData.js:21-25 | After assigning a key, looking it up gives the new value: a later duplicate key overwrites an earlier one |
| BencodeOrder.SetEntryOther | utils/parseMetaData.js:21-25 | Assigning a key leaves the lookup of every other key as it was |
| Bencode.SortKeys | lib/encode.js:35 | The sorted keys are a permutation of the object's keys |
| BencodeOrder.SortKeysSorted | lib/encode.js:35 | The sorted keys are a permutation of the keys in ascending order, comparing character by character as `Array.prototype.sort` does |
| BencodeOrder.StrictlySortedUnique | lib/encode.js:35 | Two strictly ascending sequences with the same elements are equal, so the sorted key order is determined by the set of keys |
| BencodeOrder.EncodeIgnoresInsertionOrder | lib/encode.js:33-44 | Two dictionaries with distinct keys and the same lookups encode to the same bytes, whatever order their keys were inserted in |
| BencodeRoundTrip.ParseNumAt | utils/parseMetaData.js:43-50 | Parsing the encoding of an integer inside larger data reads back the integer and ends just after its `e` |
| BencodeRoundTrip.ParseStrAt | utils/parseMetaData.js:52-58 | Parsing the encoding of an ASCII string inside larger data reads back the string and ends just after it |
| BencodeRoundTrip.CanonicalDictEncoding | lib/encode.js:33-44 | A dictionary whose keys are already strictly sorted encodes its entries in stored order |
| BencodeRoundTrip.EncodeAscii | lib/encode.js:1-45 | The encoding of a value without buffers and with ASCII strings is ASCII |
| BencodeRoundTrip.DecodeEncode | lib/encode.js:1-45 | Parsing the encoding of any canonical value gives back that value and ends exactly at the end of the encoding; canonical means no buffers, ASCII strings, and strictly sorted dictionary keys other than `pieces` and `__proto__` |
| TorrentHelpers.PiecesFromBitfieldSpec | lib/torrentHelpers.js:150-169 | The indices are strictly ascending, and k is among them exactly when bit 7 - k % 8 of byte k / 8 is set (BEP 3: the high bit of the first byte is piece 0) |
| TorrentHelpers.ByteIndicesMember | lib/torrentHelpers.js:156-165 | The indices taken from one byte are exactly base + j for the bits j, counted from the high bit, that are set |
| TorrentHelpers.BlocksForPieceTiles | lib/torrentHelpers.js:120-144 | A piece at or past the end has no blocks. Otherwise the blocks start at 0 and step by the block size. Each is non-empty and no longer than a block, all but the last are full, and the lengths add up to the piece length, cut at the end of the content |
| TorrentHelpers.BlocksFromSpec | lib/torrentHelpers.js:131-141 | The loop emits blocks exactly when the offset is below the piece's end. The first starts at the offset and each next one a block size later. Each has length min(block size, end - offset), and the last ends at the piece's end |
| TorrentHelpers.ChunksSpec | lib/utils.js:14-32 | The chunks concatenate back to the input; every chunk has the given size except a non-empty last one |
| TorrentHelpers.GetPiecesArr | lib/torrentHelpers.js:50-68 | The result is the hex text of the `pieces` bytes cut into 20-character chunks: the chunks concatenate back to that text and all but the last have 20 characters |
| TorrentHelpers.GetPiecesArrSplitsDigest | lib/utils.js:21 | A single 20-byte digest becomes two 20-character strings, and neither is the hex text of any 20-byte digest |
| TorrentHelpers.PieceHashesIntendedSpec | lib/torrentHelpers.js:57 | Cutting at 40 characters gives one hash per 20-byte digest, and hash k is the hex text of digest k |
| TorrentHelpers.PeerKeyInjective | lib/torrentHelpers.js:146-148 | For hosts without a colon, two peer keys are equal exactly when host and port are equal |
| Trackers.TierHeads | lib/torrentHelpers.js:88-90 | Taking the first tracker of every tier succeeds exactly when no tier is empty, and then yields the tiers' heads in order |
| Trackers.AllTrackers | lib/torrentHelpers.js:75-98 | Throws when `announce-list` is missing or a tier is empty. Otherwise returns the UDP trackers among `announce` and the tier heads, or nothing when there are none |
| Trackers.UdpOnlySpec | lib/utils.js:96-112 | A URL is kept exactly when it was among the candidates and starts with `udp`; nothing is added |
| Trackers.AllTrackersMembers | lib/utils.js:90-113 | A tracker is returned exactly when it is `announce` or a tier head and is a UDP URL |
| Trackers.FirstRelevantTracker | lib/utils.js:64-86 | With `announce` present: it is returned when it is UDP, otherwise nothing, and the list is not read. Without it: the first UDP tier head |
| Trackers.FirstIsHeadOfAll | lib/utils.js:74-85 | Without `announce`, the first relevant tracker is the first tracker the full selection returns |
| Tracker.NewTracker | core/Tracker.js:13-26 | A new tracker client holds connection id 0 and the drawn transaction id, and both fit their 64-bit and 32-bit fields |
| Tracker.ConnectRequest | core/Tracker.js:94-98 | The connect packet is 16 bytes, with action 0 at 8 and the client's current transaction id at 12 |
| Tracker.AnnounceRequest | core/Tracker.js:100-112 | The client moves to the new transaction id and keeps everything else. The announce is sent exactly when the content length fits in 64 bits, and a RangeError is raised otherwise |
| Tracker.PeerListSpec | core/Tracker.js:56-65 | The compact peer list is read whole exactly when its length is a multiple of 6. Then it has one entry per 6 bytes, and entry k is read from the six bytes at i + 6k |
| Tracker.ReceiveSpec | core/Tracker.js:45-92 | A datagram is reported as an announce exactly when the client listens, it has at least 20 bytes and its peer list is not ragged; the report carries the five header fields and every peer. A ragged list raises a RangeError and changes nothing. A connect reply with action 0 and the current transaction id installs bytes 8..16 as connection id and sends the announce. Anything else leaves the client unchanged and sends nothing |
| Tracker.ConnectStepSpec | core/Tracker.js:82-91 | A connect reply is accepted exactly when its action is 0 and its transaction id is the current one; the client then installs bytes 8..16 as connection id and sends the announce |
| Tracker.PeerListEncoded | core/Tracker.js:56-65 | Parsing the compact encoding of any list of IPv4 peers gives back those peers |
| Tracker.AnnounceRoundTrip | core/Tracker.js:49-79 | An announce response laid out as BEP 15 specifies is reported to the listener with its action, transaction id, interval, leechers, seeders and every peer |
| Tracker.ConnectAccepted | core/Tracker.js:82-91 | A well-formed connect response with the current transaction id installs its connection id and triggers the announce |
| Tracker.ConnectStale | core/Tracker.js:87 | A connect response carrying another transaction id is ignored |
| PieceStore.PieceLength | core/Pieces.js:116-123 | Every piece length is positive and at most the nominal piece length |
| PieceStore.LastPieceLength | core/Pieces.js:116-123 | When the piece count is ceil(total / pieceLength), the last piece holds what the full pieces leave of the content |
| PieceStore.PieceLengthsCoverContent | core/Pieces.js:116-123 | All pieces but the last are full, and the piece lengths add up to the total content length |
| PieceStore.InitialBlocksTile | core/Pieces.js:63-94 | A piece is cut into ceil(length / 16384) blocks, all NEEDED. Block k starts at 16384k, each block starts where the previous ends, the first at 0, and the last ends at the piece length |
| PieceStore.InitialBlocksIncrease | core/Pieces.js:75-86 | The blocks of a fresh piece have strictly increasing offsets |
| PieceStore.InitialStoreSpec | core/Pieces.js:39-61 | After construction every piece is NEEDED, with 0 completed blocks and all ceil(length / 16384) of its blocks NEEDED and covering its length. Every buffer is zeros of the piece's length, and the store is valid and counted |
| PieceStore.FindBlock | core/Pieces.js:183-185 | `find` yields the position of the first block that matches, or none exactly when no block matches |
| PieceStore.CheckIsPieceNeeded | core/Pieces.js:215-221 | As written: a piece is reported needed exactly when it exists, and its status is overwritten |
| PieceStore.PieceNeededForPeer | core/Pieces.js:165-177 | As written: the first advertised index that names an existing piece, with the store left as `checkIsPieceNeeded` leaves it |
| PieceStore.PieceNeededIntended | core/Pieces.js:215-221 | Intended: the first advertised index whose piece exists and is NEEDED, or none when there is none; the store is not changed |
| PieceStore.CompletePieceReportedNeeded | core/Pieces.js:220 | A COMPLETE piece advertised first is handed out again, and its status is overwritten |
| PieceStore.GetBlockNeededForPiece | core/Pieces.js:223-237 | The first NEEDED block of an existing piece, or none when the piece does not exist or has no NEEDED block |
| PieceStore.BlockNeededLowestOffset | core/Pieces.js:223-237 | The block chosen has the lowest offset among the NEEDED blocks of the piece |
| PieceStore.MarkBlockRequested | core/Pieces.js:179-190 | Only the first block with that offset and length becomes REQUESTED. Without such a block, or without the piece, the store is unchanged |
| PieceStore.RequestNeededBlock | core/Pieces.js:136-145 | Requesting the block `getBlockNeededForPiece` hands out lowers the number of NEEDED blocks by exactly one. The store stays valid, and no counter and no buffer changes |
| PieceStore.Delivered | core/Pieces.js:200-206 | Delivery marks the block COMPLETE, adds one to the piece's counter, and copies the data into the piece buffer at the block offset; other pieces and buffers are untouched |
| PieceStore.MarkBlockDownloaded | core/Pieces.js:192-213 | Without the piece or a block at that offset nothing happens. Otherwise the block becomes COMPLETE and the counter goes up by one. The piece is verified exactly when the counter reaches the block count, which throws exactly when the piece has no hash |
| PieceStore.DeliveryKeepsCount | core/Pieces.js:204-206 | A delivery keeps every piece's counter at least its number of COMPLETE blocks |
| PieceStore.VerifyPiece | core/Pieces.js:239-266 | As written: on a hash match the piece becomes COMPLETE and is saved; on a mismatch the piece's blocks stay as they were and its buffer becomes zeros; a piece with no hash throws |
| PieceStore.VerifyPieceIntended | core/Pieces.js:260-265 | Intended: on a match the piece becomes COMPLETE. On a mismatch every block of the piece becomes NEEDED again, the counter restarts at 0, the buffer is zeroed and nothing is written. Other pieces are untouched, and a missing hash throws |
| PieceStore.MismatchStrandsPiece | core/Pieces.js:262 | As written, a piece with no NEEDED block whose hash mismatches never has a block handed out again. With the intended reset, its first block is handed out again |
| PieceStore.SavedPieceCoversBuffer | core/Pieces.js:268-297 | For contiguous files, the writes of a saved piece, concatenated, are exactly the piece buffer |
| PieceStore.FreePeers | core/Pieces.js:153-162 | The free peers are exactly the pool's entries whose connection reports free; there are none exactly when no peer is free |
| PieceStore.FreePeersMissingBitfield | core/Pieces.js:132 | Some free peer lacks a bitfield exactly when some peer of the pool is free and lacks one, the case in which the pass throws |
| PieceStore.ServeOne | core/Pieces.js:130-146 | A turn for one peer makes at most one request: for that peer, only when its queue holds fewer than 5 requests, and for a block that was NEEDED |
| PieceStore.ServeOneAccounting | core/Pieces.js:136-145 | Serving one peer keeps the store valid and counted and takes one NEEDED block per request made |
| PieceStore.ServePeers | core/Pieces.js:130-146 | The loop throws exactly when some served peer has no bitfield. It makes at most one request per peer, each to a peer with room in its queue and for a NEEDED block |
| PieceStore.ServePeersAccounting | core/Pieces.js:130-146 | Over the whole loop the number of NEEDED blocks plus the number of requests is conserved |
| PieceStore.RunPass | core/Pieces.js:125-151 | A pass that completes re-arms the next one 50 ms later when no peer is free, else immediately; a pass that throws re-arms nothing. A pass throws exactly when a free peer has no bitfield. Each request goes to a free peer with fewer than 5 outstanding requests and names a NEEDED block |
| PieceStore.RunPassAccounting | core/Pieces.js:125-151 | A pass keeps the store valid and counted, leaves every buffer as it was, and takes exactly one NEEDED block per request |
| PieceFiles.PlaceFilesPrefixSums | core/Pieces.js:103-114 | File k is given index k and starts at the sum of the lengths of the files before it, so the files lie back to back |
| PieceFiles.FilesForPieceExact | core/Pieces.js:299-321 | When file starts ascend, the early-exit scan returns exactly the files that intersect the piece, in order |
| PieceFiles.OverlapSlice | core/Pieces.js:281-291 | The bytes written to a file are the part of the piece buffer inside the file's range, and nothing when the file misses the piece |
| PieceFiles.WriteForSpec | core/Pieces.js:278-295 | The write targets the folder plus the file's path joined by `/`, at the overlap start minus the file start. Its length is the smaller end minus the larger start, and its bytes are the buffer from the overlap start minus the piece start |
| PieceFiles.SavedWritesCoverPiece | core/Pieces.js:268-321 | For files placed back to back and a piece inside the content, the writes concatenate to the whole piece buffer |
| Peer.InitialPeer | core/Peer.js:25-61 | A new connection keeps its info-hash, is not handshaken and has no queued requests |
| Peer.InitialNotFree | core/Peer.js:236-245 | A new connection is not free: the peer still chokes it and no bitfield has arrived |
| Peer.SendInterest | core/Peer.js:220-226 | Sends exactly the interested message and marks the connection interested |
| Peer.HandleBitfield | core/Peer.js:173-181 | Reports the advertised pieces, which are exactly the pieces the bitfield's bits set, in ascending order, then sends interested; the bitfield is recorded and the connection is interested |
| Peer.RemoveMatching | core/Peer.js:196-198 | Keeps exactly the queued requests for other blocks than that index and offset |
| Peer.RequestBlock | core/Peer.js:202-208 | Throws exactly when a field does not fit in 32 bits. Otherwise one queue entry stamped with the clock is added, and the request message for the block is sent |
| Peer.RequestWithinLimit | core/Peer.js:236-245 | A request made while the connection is free leaves at most 5 requests queued |
| Peer.HandleReceivePiece | core/Peer.js:191-200 | A payload under 8 bytes raises a RangeError and changes nothing. Otherwise the matching queued requests are removed, and the block at the index and offset read from the payload is delivered to the store. A saved piece is reported with its file writes |
| Peer.ReceiveClearsRequest | core/Peer.js:191-200 | After a piece message no request for that index and offset is left in the queue |
| Peer.ReceiveKeepsFree | core/Peer.js:191-200 | Receiving a piece never makes a free connection busy |
| Peer.Dispatch | core/Peer.js:138-169 | choke and unchoke set the choke flag; a short request payload raises a RangeError; bitfield and piece go to their handlers; other ids only log |
| Peer.Drain | core/Peer.js:112-170 | The loop keeps the store valid and never grows the buffer; it stops without an exception only when no whole message is buffered or the connection is not handshaken |
| Peer.HandshakeStep | core/Peer.js:89-110 | The connection becomes handshaken exactly when the info-hash at 28..48 matches; then it reports success and sends its bitfield. On a mismatch it only disconnects |
| Peer.FeedHandshakeSpec | core/Peer.js:85-110 | Before the handshake, under 68 bytes are only saved; from 68 on exactly the first 68 are taken as the handshake, and a mismatch disconnects and does nothing else |
| Peer.FramesSpec | core/Peer.js:112-131 | Framing is lossless: the buffer is the encodings of the complete frames followed by a remainder that holds no complete frame (BEP 3 length-prefixed messages) |
| Peer.DrainFrames | core/Peer.js:112-170 | After the handshake the loop is framing followed by dispatch of each frame in arrival order |
| Peer.DrainAppend | core/Peer.js:112-170 | Draining some bytes and then draining the rest plus the new bytes equals draining everything at once, unless the first drain threw |
| Peer.FeedChunking | core/Peer.js:85-171 | Delivering bytes in two `data` events or one gives the same connection, buffer, store, events and outcome, unless the first call threw or rejected the handshake |
| Peer.HandshakeAccepted | core/Peer.js:89-106 | A handshake carrying the connection's info-hash is accepted, reports success and sends the client's bitfield |
| Peer.HandshakeRejected | core/Peer.js:107-109 | A handshake carrying another info-hash only disconnects |
| Peer.BitfieldMessageDispatched | core/Peer.js:159-161 | A framed bitfield message reaches the bitfield handler with its whole payload |
| Peer.UnchokeFrees | core/Peer.js:143-146 | An unchoke on a connection with a bitfield and fewer than 5 queued requests clears the choke, and the connection is free |
| PeerPool.AddPeer | core/PeerPool.js:30-32 | The peer is appended to the known peers and nothing else changes |
| PeerPool.GetPeer | core/PeerPool.js:49-58 | With the cursor inside the list, returns the peer under it and moves the cursor on by one, wrapping to 0. With the cursor past the end, returns nothing and resets it to 0 |
| PeerPool.GetPeersCycle | core/PeerPool.js:49-58 | The k-th of successive calls returns the peer at (cursor + k) mod the list length: the pool is visited round-robin |
| PeerPool.GetPeerEmpty | core/peers.js:33-42 | With no known peers the call returns nothing and the pool is unchanged |
| PeerPool.WithoutAsWritten | core/PeerPool.js:34-39 | As written: keeps exactly the peers that differ from the removed one in both address and port |
| PeerPool.Without | core/PeerPool.js:36 | Intended: keeps exactly the peers other than the removed one |
| PeerPool.RemoveDropsNeighbour | core/PeerPool.js:36 | As written, removing one peer also removes another peer on the same address with a different port |
| PeerPool.WithoutAgrees | core/PeerPool.js:34-39 | Both filters agree when every other peer differs from the removed one in both address and port |
| PeerPool.RemovePeer | core/PeerPool.js:34-39 | As written: only the connected list changes, keeping exactly the peers that differ from the removed one in both address and port |
| PeerPool.RemovePeerIntended | core/PeerPool.js:34-39 | Intended: the connected list keeps exactly the peers other than the removed one; the known peers and the details are untouched |
| PeerPool.AddConnectedPeer | core/PeerPool.js:45-47 | The peer is appended to the connected list and nothing else changes |
| PeerPool.Set | core/PeerPool.js:66 | `Map.set`: the key maps to the new value, every other key keeps its value and keys stay distinct |
| PeerPool.Delete | core/PeerPool.js:71 | `Map.delete`: the key is gone and every other key keeps its value |
| PeerPool.AddToDetails | core/PeerPool.js:60-67 | The peer's key maps to a record of its connection with no bitfield; every other key is unchanged |
| PeerPool.RemoveFromDetails | core/PeerPool.js:69-72 | The peer's key is no longer in the details map |
| PeerPool.AddBitfield | core/PeerPool.js:74-85 | A registered peer's record gets the bitfield; for an unregistered key the pool is unchanged; every other key is unchanged |
| PeerPool.OtherPeerUntouched | core/PeerPool.js:60-85 | For hosts without a colon, registering, removing or adding a bitfield for one peer never changes another peer's record |
| PeerPool.RegisteredThenBitfield | core/PeerPool.js:60-85 | After a peer is registered and its bitfield added, its record holds the connection and that bitfield |
| PeerPool.NewPeerAvailableIffNonEmpty | core/peers.js:49-54 | Under the cursor invariant, a new peer is reported available exactly when the list is non-empty |
| PeerPool.RemoveActivePeer | core/peers.js:24-27 | As written: drops every active peer that shares the address or the port |
| PeerPool.AddActivePeer | core/peers.js:20-22 | The peer is appended to the active list |
| LegacyPieces.NewPieces | core/pieces.js:2-13 | A new table has 16 KiB blocks and no requested entries |
| LegacyPieces.AddBlockToRequested | core/pieces.js:22-28 | The block is appended to the array under its `begin` offset, which is created if missing; other keys are unchanged |
| LegacyPieces.InRequestedIffAdded | core/pieces.js:15-28 | `isPieceInRequested(i)` holds exactly when a block beginning at offset i was added: the table answers index queries with offsets |
| LegacyPieces.AddAllKeepsPrefix | core/pieces.js:22-28 | Adding blocks never drops a recorded block: each array only grows at its end |
| LegacyPieces.GetBlocksForPiece | core/pieces.js:30-56 | The same tiling as the helper: offsets step by the block size from 0, only the last block may be short, and the lengths add up to the piece length cut at the end of the content |
| PeerProtocol.NewProtocolPeer | core/peer_protocol.js:5-37 | A new connection has an empty buffer, is not handshaken, is choked by the peer, is not interested and has no pending blocks |
| PeerProtocol.CreateHandshakeBuffer | core/peer_protocol.js:39-52 | The handshake is 68 bytes with the protocol string, the decoded info-hash at 28..48 and the peer id at 48..68 |
| PeerProtocol.CarriesInfoHash | peer_protocol.js:28-41 | The hex text of bytes 28..48 is the connection's info-hash, which is what the receiving side compares |
| PeerProtocol.InterestAsWritten | core/peer_protocol.js:190-201 | As written: 17 bytes whose prefix reads 4 and whose id is 2, the rest zero |
| PeerProtocol.InterestAsWrittenMisframes | core/peer_protocol.js:190-196 | A BEP 3 reader splits that buffer into an interested message with 3 stray payload bytes, two keep-alives and a trailing stray byte |
| PeerProtocol.SendInterestIntended | core/peer_protocol.js:190-201 | Intended: sends the 5-byte interested message and marks the connection interested |
| PeerProtocol.InterestIntendedFrames | lib/createMessages.js:67-76 | The intended message frames as exactly one interested message with nothing left over |
| PeerProtocol.RequestBlock | core/peer_protocol.js:171-188 | Throws a RangeError exactly when a field does not fit in 32 bits. Otherwise it sends the 17-byte request for the block and records the block in the requested table |
| PeerProtocol.RequestLastBlock | core/peer_protocol.js:164-165 | With blocks pending, the last one is taken off the list and requested. With none, `pop` yields undefined and reading its fields throws a TypeError |
| PeerProtocol.HandleUnchoke | core/peer_protocol.js:123-130 | An unchoke clears the choke flag and requests the last pending block when there is one |
| PeerProtocol.BitfieldCandidates | core/peer_protocol.js:136-160 | As written, with the `continue` that also skips the halving: every index the loop gathers blocks for lies inside the bitfield and is not in the requested table, though it need not be advertised |
| PeerProtocol.SkipRenumbers | core/peer_protocol.js:143-145 | Payload `[0x01]` with a block at offset 7 in the table: the loop gathers index 6, which is not advertised, where the intended candidates are empty |
| PeerProtocol.CandidatesAgreeWhenAligned | core/peer_protocol.js:136-160 | When every key of the requested table is a multiple of 8, the loop as written gathers exactly the intended candidates, in the same order |
| PeerProtocol.PieceBlocksKeepAligned | core/pieces.js:22-55 | Recording the blocks `getBlocksForPiece` returns keeps every key of the table a multiple of 8 when the block size is, as 16 KiB is |
| PeerProtocol.IntendedByteFilters | core/peer_protocol.js:138-158 | Intended: the byte loop that halves on every step gathers the plain loop's indices less the requested ones, in the same order |
| PeerProtocol.LsbIndicesMember | peer_protocol.js:93-104 | From byte i on, the loop that reads `byte % 2` and halves on every step yields k exactly when the bitfield advertises piece k in BEP 3's high-bit-first numbering |
| PeerProtocol.LsbSameSetAsMsb | peer_protocol.js:90-104 | The low-bit-first decoding yields the same set of indices as BEP 3's high-bit-first one; the intended candidates of core/peer_protocol.js are that set minus the requested table |
| PeerProtocol.HandleBitfield | core/peer_protocol.js:162-168 | When the peer does not choke and interest was sent, the last pending block is requested; otherwise interest is sent. The candidate list the loop builds is never used |
| PeerProtocol.Handle | core/peer_protocol.js:98-119 | In core/peer_protocol.js a choke sets the flag, unchoke and bitfield run their handlers and other ids change nothing. In the top-level copy no message changes anything |
| PeerProtocol.HandshakeLoopSpec | core/peer_protocol.js:72-88 | The handshake loop skips 68-byte chunks until one carries the info-hash, marks the connection handshaken at the first match and keeps the bytes after it; with no match only a tail under 68 bytes is left |
| PeerProtocol.HandshakeLoopMatch | peer_protocol.js:56-72 | When the first 68 bytes carry the info-hash, the loop takes exactly those bytes and the connection is handshaken |
| PeerProtocol.MessageLoopWaits | peer_protocol.js:74 | The message loop does nothing before the handshake or while the declared length plus 4 bytes are not all buffered |
| PeerProtocol.Taken | core/peer_protocol.js:91-92 | Each pass of the message loop removes between 4 bytes and the whole buffer |
| PeerProtocol.MessageLoop | core/peer_protocol.js:90-120 | The loop never changes whether the connection is handshaken unless it throws |
| PeerProtocol.IntendedDispatchesInOrder | core/peer_protocol.js:90-96 | Intended: the message at the front is handled with exactly its own payload, and the loop continues on the bytes after it |
| PeerProtocol.AsWrittenLosesSecondMessage | core/peer_protocol.js:90-96 | As written, an unchoke followed by a choke in one read leaves the connection unchoked: the choke is consumed with the unchoke |
| PeerProtocol.AsWrittenTakesBoth | core/peer_protocol.js:91-96 | As written, the first pass takes all 10 bytes of the two messages |
| PeerProtocol.IntendedHandlesBothMessages | core/peer_protocol.js:90-96 | Intended, the same bytes handle the unchoke and then the choke, leaving the connection choked |

## Left out

- Sockets and datagrams are not modelled: `initializeSocket`, `peerHandshake`, `TCPHandshake`, `disconnect`, `initializeUdpServer`, `sendPacket` and udp_protocol.js. Writes appear as `Wrote` events or returned packets, and closing a socket appears as a `Disconnected` event.
- SHA-1 is a parameter (`sha1`) of piece verification. `generateInfoHash` is left out, and the info-hash is an input.
- `readTorrentData` and the third-party `bencode.decode` it calls are left out. Torrent metadata enters as already decoded fields.
- Timers are left out. The `setTimeout` that re-arms `runDownload` is the pass's returned `rearm` delay, absent when the pass throws. `requestAnnounceWithTimeout` and `getDNS` are not modelled.
- Randomness is a parameter: peer ids from `generateRandomString`, transaction ids from `resetTransactionId`, and the order `shuffle` gives.
- `Date.now()` in `requestBlock` is the `now` parameter.
- Logging (`console.log`) is left out.
- The filesystem is left out. Each `FileWrite` record that `savePieceToFile` produces stands for one `saveBufferToFile(path, data, offset)` call (core/Pieces.js:295).
- `saveBufferToFile` is imported by core/Pieces.js:2 from lib/fileHelpers.js, which exports only `createFolder` and `createFile`. So Node would fail to load core/Pieces.js. The call's meaning, writing `data` into the file at `path` from byte `offset`, is taken from its name and call site.
- core/TorrentClient.js and index.js wire the parts together with network and file I/O and are not part of this model.
- `sendBitfield` (core/Peer.js:228-234) calls `Pieces.createBitfield`, which core/Pieces.js does not define, so Node would throw a TypeError there. The model sends `Env.ownBitfield` instead.
- `constructPeerKey` is imported by core/PeerPool.js:7 from lib/utils.js, which does not export it. The model's `TorrentHelpers.PeerKey` uses the definition at lib/torrentHelpers.js:146-148.
- `DOWNLOAD_FOLDER` is imported by core/Pieces.js, but constants/consts.js does not define it. It is the store's `downloadFolder` field.
- `MAX_CONNECTED_PEERS` and the peer-rotation comments of core/peers.js describe behaviour that no code implements.
- `handleRequestFromPeer` (core/Peer.js:183-189) only logs the values it reads. It is modelled only as the RangeError a payload under 12 bytes raises.
- `announceHavePiece` (core/Peer.js:210-214) is a socket write of `Messages.Have` and is modelled by that message alone. Nothing in the core calls it.
- `getRequestedQueueLength`, `getNumberOfconnectedPeers`, `getNumberOfActivePeers` and `getPeerLength` return a length. They are the sequence lengths `|queue|`, `|connected|` and `|peerArr|`.
- Bencode.Parse: inputs on which the JavaScript parser loops forever yield the outcome `Diverges`, and the model makes no promise about them. These are a list or dictionary without its closing `e`, and an integer or string without its `e` or `:`. Inputs on which the parser goes on with a NaN or negative length yield `Unmodelled`, and so do a non-string or `__proto__` dictionary key and a non-string `pieces` value.
- Text.ParseInt: JavaScript numbers are doubles, and the model treats them as exact integers. Rounding above 2^53 is not modelled. Neither is the exponent form (`1e+21`) that `String(n)` gives for |n| >= 10^21.
- Bencode.Dict: a decoded object lists integer-like keys first, in numeric order, and then the other keys in insertion order. The model keeps insertion order for all keys.
- BencodeRoundTrip.DecodeEncode: the round trip is stated only for canonical values. Buffers are left out because the parser reads them back as strings. Non-ASCII strings are left out because the parser decodes byte by byte. The keys `pieces` and `__proto__` are left out because the parser treats them specially.
- Messages.Request: it requires index, begin and length below 2^32. Node's `writeUInt32BE` throws a RangeError otherwise. `Peer.RequestBlock` and `PeerProtocol.RequestBlock` model that throw.
- Messages.Have: it requires the index below 2^32. Node would throw a RangeError otherwise.
- Messages.Bitfield: it requires the bitfield length plus 1 below 2^32. Node would throw a RangeError otherwise. `Peer.HandshakeStep` models that throw.
- Messages.UdpConnect: it requires the transaction id below 2^32. The ids come from `resetTransactionId`, which stays below that.
- Messages.UdpAnnounceFields: like `Messages.UdpAnnounce`, it requires the connection id, the transaction id and the content length to fit their fields. `Tracker.AnnounceRequest` models the RangeError for a content length of 2^64 or more.
- Bencode.Less: it compares strings by Unicode scalar value. JavaScript's default sort compares UTF-16 code units, and the two orders differ only for characters outside the Basic Multilingual Plane.
- The UTF-8 decoding of tracker URLs (`bufferToEncoding`) is left out. URLs enter as strings.

## Findings

| source | as written | input that shows it | evidently intended | confidence | as-written member | corrected member |
|---|---|---|---|---|---|---|
| core/Pieces.js:220 | `piece.status = Status.NEEDED ? true : false` assigns to the status instead of comparing it | Piece 0 is COMPLETE, piece 1 is NEEDED, and a peer advertises both. Piece 0 is handed out again and its status is overwritten | report whether the piece's status equals NEEDED, and leave it unchanged | high; not executed | PieceStore.PieceNeededForPeer, PieceStore.CompletePieceReportedNeeded | PieceStore.PieceNeededIntended |
| core/Pieces.js:262 | `block.status === Status.NEEDED` inside `forEach` compares and discards the result | Every block of a piece is delivered and the hash mismatches. No block is NEEDED afterwards, so the piece is never requested again | set every block back to NEEDED; restarting the counter at 0 is inferred from markBlockDownloaded | high; not executed | PieceStore.VerifyPiece, PieceStore.MismatchStrandsPiece | PieceStore.VerifyPieceIntended |
| lib/torrentHelpers.js:57 | the hex text of `pieces` is cut every 20 characters | Any 20-byte SHA-1 digest: its 40 hex digits become two hashes, neither of which matches a piece | cut every 40 characters, one hex hash per 20-byte digest; lib/utils.js:21 has the same cut | high; not executed | TorrentHelpers.GetPiecesArr, TorrentHelpers.GetPiecesArrSplitsDigest | TorrentHelpers.PieceHashesIntendedSpec |
| core/PeerPool.js:36 | the filter keeps peers that differ in address AND port | Peers 1.2.3.4:1 and 1.2.3.4:2 are connected. Removing the first also removes the second | keep peers that differ in address OR port; core/peers.js:25 has the same filter | high; not executed | PeerPool.WithoutAsWritten, PeerPool.RemoveDropsNeighbour | PeerPool.Without, PeerPool.RemovePeerIntended |
| core/peer_protocol.js:91-92 | every pass takes 68 bytes, whatever the message's length | An unchoke and a choke arrive together (`00 00 00 01 01 00 00 00 01 00`). Both are taken at once, the choke is lost and the connection stays unchoked | take the declared length plus 4 bytes; peer_protocol.js:75-76 has the same cut | high; not executed | PeerProtocol.AsWrittenLosesSecondMessage | PeerProtocol.IntendedHandlesBothMessages |
| core/peer_protocol.js:143-145 | `continue` on a requested index also skips `byte = Math.floor(byte / 2)`, so the same bit is read again under the next lower index | Payload `[0x01]` (piece 7 only) with a block at offset 7 in the requested table. Index 7 is skipped and blocks are gathered for piece 6, which the peer does not have | skip the index but still shift the byte; the two agree whenever every requested key is a multiple of 8, which block offsets of 16 KiB are | high; not executed | PeerProtocol.BitfieldCandidates, PeerProtocol.SkipRenumbers | PeerProtocol.LsbSameSetAsMsb, PeerProtocol.CandidatesAgreeWhenAligned |
| core/peer_protocol.js:191-194 | interested is 17 bytes with a length prefix of 4 | Any call. A BEP 3 peer reads an interested message with 3 payload bytes, then two keep-alives and a stray byte | the 5-byte message `00 00 00 01 02` that lib/createMessages.js:67-76 builds | high; not executed | PeerProtocol.InterestAsWritten, PeerProtocol.InterestAsWrittenMisframes | PeerProtocol.SendInterestIntended, PeerProtocol.InterestIntendedFrames |

=== FILE: bencode.dfy ===
/** Bencoding (section "bencoding" of BEP 3) as the client implements it:
    the recursive decoder `parseMetadata` of utils/parseMetaData.js and the
    encoder `encode` of lib/encode.js. Values are the JavaScript values the
    two exchange: numbers, strings, Buffers, arrays and plain objects. */
module Bencode {
  import opened Common
  import opened Text

  datatype Entry = Entry(key: string, value: Value)

  /** A plain object is kept as its own properties in insertion order.
      JavaScript lists integer-like keys ("0", "17") first, in ascending
      numeric order; the model does not, which only matters for the order
      in which a decoded object's properties are listed: the encoder sorts
      the keys before writing them. */
  datatype Value =
    | Num(n: JsNum)
    | Str(s: string)
    | Buf(b: seq<Byte>)
    | List(items: seq<Value>)
    | Dict(entries: seq<Entry>)

  /** `{ value, index }`, or an outcome the model does not follow: the
      source loops forever (`Diverges`), or it goes on with a NaN or
      negative index, gives a property a key that is not a plain string or
      is `__proto__`, or meets a `pieces` value that is not a string, whose
      hex rendering the model does not follow (`Unmodelled`). */
  datatype Parsed = Parsed(value: Value, index: nat) | Diverges | Unmodelled

  // ------------------------------------------------------------- objects

  function KeysOf(entries: seq<Entry>): (r: seq<string>)
    ensures |r| == |entries| && forall k :: 0 <= k < |entries| ==> r[k] == entries[k].key
  {
    seq(|entries|, k requires 0 <= k < |entries| => entries[k].key)
  }

  predicate DistinctKeys(entries: seq<Entry>)
  {
    forall i, j :: 0 <= i < j < |entries| ==> entries[i].key != entries[j].key
  }

  /** `obj[key] = val`: an existing property keeps its place and takes the
      new value; a new one goes last (integer-like keys aside, see `Value`). */
  function SetEntry(entries: seq<Entry>, key: string, v: Value): (r: seq<Entry>)
    ensures |r| == if key in KeysOf(entries) then |entries| else |entries| + 1
    decreases |entries|
  {
    if |entries| == 0 then [Entry(key, v)]
    else if entries[0].key == key then [Entry(key, v)] + entries[1..]
    else
      var rest := SetEntry(entries[1..], key, v);
      assert key in KeysOf(entries) <==> key in KeysOf(entries[1..]);
      [entries[0]] + rest
  }

  /** The position of `key` among the properties. */
  function IndexOf(entries: seq<Entry>, key: string): (r: nat)
    requires key in KeysOf(entries)
    ensures r < |entries| && entries[r].key == key
    ensures forall j :: 0 <= j < r ==> entries[j].key != key
  {
    if entries[0].key == key then 0
    else
      assert key in KeysOf(entries[1..]);
      1 + IndexOf(entries[1..], key)
  }

  /** `obj[key]` for a key that is present. */
  function Lookup(entries: seq<Entry>, key: string): Value
    requires key in KeysOf(entries)
  {
    entries[IndexOf(entries, key)].value
  }

  // ------------------------------------------------------------- decoder

  /** `data.toString('ascii', i, i + 1)` for an index inside the buffer:
      the byte with its high bit cleared. */
  function CharAt(data: seq<Byte>, i: nat): char
    requires i < |data|
  {
    (data[i] % 0x80) as char
  }

  /** The scan `while (data[j] !== b) j += 1` from `from`: the first such
      position, or None when there is none and the scan runs forever. */
  function FindByte(data: seq<Byte>, from: nat, b: Byte): (r: Option<nat>)
    ensures r.Some? ==> from <= r.value < |data| && data[r.value] == b
    ensures r.Some? ==> forall k :: from <= k < r.value ==> data[k] != b
    ensures r.None? ==> forall k :: from <= k < |data| ==> data[k] != b
    decreases |data| - from
  {
    if from >= |data| then None
    else if data[from] == b then Some(from)
    else FindByte(data, from + 1, b)
  }

  const PIECES_KEY: string := "pieces"
  /** Assigning to this key sets the object's prototype instead of adding
      a property. */
  const PROTO_KEY: string := "__proto__"

  /** `parseMetadata(data, i)`. */
  function Parse(data: seq<Byte>, i: nat): (r: Parsed)
    ensures i >= |data| ==> r == Parsed(List([]), i)
    ensures i < |data| && r.Parsed? ==> r.index > i
    decreases |data| - i, 0
  {
    if i >= |data| then Parsed(List([]), i)
    else
      var c := CharAt(data, i);
      if c == 'e' then Parsed(List([]), i + 1)
      else if c == 'd' then ParseDict(data, i + 1, [])
      else if c == 'l' then ParseList(data, i + 1, [])
      else if c == 'i' then
        match FindByte(data, i, 0x65)
        case None => Diverges
        case Some(j) =>
          assert j != i;
          Parsed(Num(ParseInt(AsciiDecode(data[i + 1..j]))), j + 1)
      else
        match FindByte(data, i, 0x3A)
        case None => Diverges
        case Some(j) =>
          match ParseInt(AsciiDecode(data[i..j]))
          case NaN => Unmodelled
          case Int(length) =>
            if length < 0 then Unmodelled
            else Parsed(Str(AsciiDecode(data[j + 1..Min(j + 1 + length, |data|)])), j + 1 + length)
  }

  /** The loop of the `l` branch from `i`, with `acc` the items so far. At
      or past the end the test never sees an `e` and parsing there does not
      advance, so the loop runs forever. */
  function ParseList(data: seq<Byte>, i: nat, acc: seq<Value>): (r: Parsed)
    ensures r.Parsed? ==> r.index > i
    decreases |data| - i, 1
  {
    if i >= |data| then Diverges
    else if CharAt(data, i) == 'e' then Parsed(List(acc), i + 1)
    else
      match Parse(data, i)
      case Parsed(item, k) => ParseList(data, k, acc + [item])
      case Diverges => Diverges
      case Unmodelled => Unmodelled
  }

  /** The value stored for a key: `pieces` is kept as its bytes in hex
      between `<hex>` tags. */
  function Stored(key: string, val: Value): Option<Value>
  {
    if key == PIECES_KEY then
      if val.Str? then Some(Str("<hex>" + Hex(Latin1Bytes(val.s)) + "</hex>")) else None
    else Some(val)
  }

  /** The loop of the `d` branch from `i`, with `acc` the object so far. */
  function ParseDict(data: seq<Byte>, i: nat, acc: seq<Entry>): (r: Parsed)
    ensures r.Parsed? ==> r.index > i
    decreases |data| - i, 1
  {
    if i >= |data| then Diverges
    else if CharAt(data, i) == 'e' then Parsed(Dict(acc), i + 1)
    else
      match Parse(data, i)
      case Diverges => Diverges
      case Unmodelled => Unmodelled
      case Parsed(key, k) =>
        if !key.Str? || key.s == PROTO_KEY then Unmodelled
        else if k >= |data| then Diverges
        else
          match Parse(data, k)
          case Diverges => Diverges
          case Unmodelled => Unmodelled
          case Parsed(val, m) =>
            match Stored(key.s, val)
            case None => Unmodelled
            case Some(stored) => ParseDict(data, m, SetEntry(acc, key.s, stored))
  }

  // ------------------------------------------------------------- encoder

  /** JavaScript's default string order: lexicographic by character. */
  predicate Less(a: string, b: string)
  {
    if |a| == 0 then |b| > 0
    else if |b| == 0 then false
    else if a[0] != b[0] then a[0] < b[0]
    else Less(a[1..], b[1..])
  }

  predicate Sorted(s: seq<string>)
  {
    forall i, j :: 0 <= i < j < |s| ==> !Less(s[j], s[i])
  }

  predicate StrictlySorted(s: seq<string>)
  {
    forall i, j :: 0 <= i < j < |s| ==> Less(s[i], s[j])
  }

  function Insert(x: string, s: seq<string>): (r: seq<string>)
    ensures multiset(r) == multiset(s) + multiset{x}
    ensures |r| == |s| + 1
  {
    if |s| == 0 || !Less(s[0], x) then [x] + s
    else
      assert s == [s[0]] + s[1..];
      [s[0]] + Insert(x, s[1..])
  }

  /** `keys.sort()`, as an insertion sort. */
  function SortKeys(s: seq<string>): (r: seq<string>)
    ensures multiset(r) == multiset(s)
  {
    if |s| == 0 then []
    else
      assert s == [s[0]] + s[1..];
      Insert(s[0], SortKeys(s[1..]))
  }

  /** A string: its UTF-8 byte length, a colon, the string. */
  function EncodeString(s: string): string
  {
    NatToString(Utf8Length(s)) + ":" + s
  }

  /** `encode(data)`. */
  function Encode(v: Value): string
  {
    match v
    case Num(Int(n)) => "i" + IntToString(n) + "e"
    case Num(NaN) => "iNaNe"
    case Str(s) => EncodeString(s)
    case Buf(b) => NatToString(|b|) + ":" + Latin1String(b)
    case List(items) => "l" + EncodeItems(items) + "e"
    case Dict(entries) =>
      var keys := SortKeys(KeysOf(entries));
      assert forall k :: 0 <= k < |keys| ==> keys[k] in multiset(KeysOf(entries));
      "d" + EncodeProperties(keys, entries) + "e"
  }

  /** The loop over an array's elements. */
  function EncodeItems(items: seq<Value>): string
  {
    if |items| == 0 then "" else Encode(items[0]) + EncodeItems(items[1..])
  }

  /** The loop over an object's sorted keys: key, then value. */
  function EncodeProperties(keys: seq<string>, entries: seq<Entry>): string
    requires forall k :: 0 <= k < |keys| ==> keys[k] in KeysOf(entries)
    decreases entries, |keys|
  {
    if |keys| == 0 then ""
    else EncodeString(keys[0]) + Encode(entries[IndexOf(entries, keys[0])].value)
         + EncodeProperties(keys[1..], entries)
  }
}

=== FILE: bencode_order.dfy ===
/** Properties of the object handling in the bencode model: how the
    decoder's `obj[key] = val` treats repeated keys, and why the encoder's
    output depends only on an object's key/value pairs and not on the order
    the keys were inserted in. */
module BencodeOrder {
  import opened Common
  import opened Bencode

  // ---------------------------------------------------------- SetEntry

  lemma {:induction false} KeysOfCons(e: Entry, rest: seq<Entry>)
    ensures KeysOf([e] + rest) == [e.key] + KeysOf(rest)
  {
  }

  /** After `obj[key] = val` the keys keep their order, a new key going
      last. */
  lemma {:induction false} SetEntryKeys(entries: seq<Entry>, key: string, v: Value)
    ensures KeysOf(SetEntry(entries, key, v))
      == if key in KeysOf(entries) then KeysOf(entries) else KeysOf(entries) + [key]
    decreases |entries|
  {
    if |entries| == 0 {
      assert KeysOf(SetEntry(entries, key, v)) == [key];
    } else if entries[0].key == key {
      assert KeysOf(entries)[0] == key;
      assert KeysOf(SetEntry(entries, key, v)) == KeysOf(entries);
    } else {
      var rest := entries[1..];
      SetEntryKeys(rest, key, v);
      assert entries == [entries[0]] + rest;
      KeysOfCons(entries[0], rest);
      KeysOfCons(entries[0], SetEntry(rest, key, v));
    }
  }

  /** Where `obj[key] = val` puts the new value: at the key's old place,
      or last. */
  lemma {:induction false} SetEntryHit(entries: seq<Entry>, key: string, v: Value)
    ensures var p := if key in KeysOf(entries) then IndexOf(entries, key) else |entries|;
      p < |SetEntry(entries, key, v)| && SetEntry(entries, key, v)[p] == Entry(key, v)
    decreases |entries|
  {
    if |entries| > 0 && entries[0].key != key {
      var rest := entries[1..];
      SetEntryHit(rest, key, v);
      assert key in KeysOf(entries) <==> key in KeysOf(rest);
      assert SetEntry(entries, key, v)[1..] == SetEntry(rest, key, v);
    }
  }

  /** After `obj[key] = val`, `obj[key]` is `val`. */
  lemma {:induction false} SetEntryLookup(entries: seq<Entry>, key: string, v: Value)
    ensures key in KeysOf(SetEntry(entries, key, v))
    ensures Lookup(SetEntry(entries, key, v), key) == v
  {
    var r := SetEntry(entries, key, v);
    var p := if key in KeysOf(entries) then IndexOf(entries, key) else |entries|;
    SetEntryHit(entries, key, v);
    forall j | 0 <= j < p
      ensures r[j].key != key
    {
      SetEntryAt(entries, key, v, j);
    }
    IndexOfAt(r, key, p);
  }

  /** `obj[key] = val` never makes a key appear twice. */
  lemma {:induction false} SetEntryDistinct(entries: seq<Entry>, key: string, v: Value)
    requires DistinctKeys(entries)
    ensures DistinctKeys(SetEntry(entries, key, v))
  {
    var r := SetEntry(entries, key, v);
    SetEntryKeys(entries, key, v);
    forall i, j | 0 <= i < j < |r|
      ensures r[i].key != r[j].key
    {
      assert r[i].key == KeysOf(r)[i] && r[j].key == KeysOf(r)[j];
      if j == |entries| {
        assert key !in KeysOf(entries);
        assert KeysOf(r)[i] == KeysOf(entries)[i];
      } else {
        assert KeysOf(r)[i] == entries[i].key && KeysOf(r)[j] == entries[j].key;
      }
    }
  }

  /** The first property with `key` is the one `obj[key]` reads. */
  lemma {:induction false} IndexOfAt(entries: seq<Entry>, key: string, p: nat)
    requires p < |entries| && entries[p].key == key
    requires forall j :: 0 <= j < p ==> entries[j].key != key
    ensures key in KeysOf(entries) && IndexOf(entries, key) == p
  {
    assert KeysOf(entries)[p] == key;
  }

  /** Properties with another key keep their place and value. */
  lemma {:induction false} SetEntryAt(entries: seq<Entry>, key: string, v: Value, k: nat)
    requires k < |entries| && entries[k].key != key
    ensures k < |SetEntry(entries, key, v)| && SetEntry(entries, key, v)[k] == entries[k]
    decreases k
  {
    if k > 0 && entries[0].key != key {
      SetEntryAt(entries[1..], key, v, k - 1);
    }
  }

  /** `obj[key] = val` leaves the value of every other key unchanged. */
  lemma {:induction false} SetEntryOther(entries: seq<Entry>, key: string, v: Value, other: string)
    requires other != key
    ensures other in KeysOf(SetEntry(entries, key, v)) <==> other in KeysOf(entries)
    ensures other in KeysOf(entries) ==> Lookup(SetEntry(entries, key, v), other) == Lookup(entries, other)
  {
    SetEntryKeys(entries, key, v);
    var r := SetEntry(entries, key, v);
    if other in KeysOf(entries) {
      var p := IndexOf(entries, other);
      SetEntryAt(entries, key, v, p);
      forall j | 0 <= j < p
        ensures r[j].key != other
      {
        assert r[j].key == KeysOf(r)[j] == KeysOf(entries)[j];
      }
      IndexOfAt(r, other, p);
    }
  }

  // ---------------------------------------------------------- string order

  lemma {:induction false} LessIrreflexive(a: string)
    ensures !Less(a, a)
    decreases |a|
  {
    if |a| > 0 {
      LessIrreflexive(a[1..]);
    }
  }

  lemma {:induction false} LessAsymmetric(a: string, b: string)
    requires Less(a, b)
    ensures !Less(b, a)
    decreases |a|
  {
    if |a| > 0 && |b| > 0 && a[0] == b[0] {
      LessAsymmetric(a[1..], b[1..]);
    }
  }

  lemma {:induction false} LessTransitive(a: string, b: string, c: string)
    requires Less(a, b) && Less(b, c)
    ensures Less(a, c)
    decreases |a|
  {
    if |a| > 0 && |b| > 0 && |c| > 0 && a[0] == b[0] && b[0] == c[0] {
      LessTransitive(a[1..], b[1..], c[1..]);
    }
  }

  /** The order is total: distinct strings are comparable. */
  lemma {:induction false} LessTotal(a: string, b: string)
    requires a != b
    ensures Less(a, b) || Less(b, a)
    decreases |a|
  {
    if |a| > 0 && |b| > 0 && a[0] == b[0] {
      assert a == [a[0]] + a[1..] && b == [b[0]] + b[1..];
      LessTotal(a[1..], b[1..]);
    }
  }

  // ---------------------------------------------------------- sorting

  lemma {:induction false} InsertSorted(x: string, s: seq<string>)
    requires Sorted(s)
    ensures Sorted(Insert(x, s))
    decreases |s|
  {
    var r := Insert(x, s);
    if |s| == 0 || !Less(s[0], x) {
      forall i, j | 0 <= i < j < |r|
        ensures !Less(r[j], r[i])
      {
        if i == 0 && j > 1 {
          assert r[j] == s[j - 1];
          if Less(r[j], x) {
            assert !Less(s[j - 1], s[0]);
            if s[j - 1] == s[0] {
            } else {
              LessTotal(s[j - 1], s[0]);
              LessTransitive(s[0], s[j - 1], x);
            }
          }
        }
      }
    } else {
      var rest := Insert(x, s[1..]);
      assert Sorted(s[1..]);
      InsertSorted(x, s[1..]);
      assert r == [s[0]] + rest;
      forall j | 0 <= j < |rest|
        ensures !Less(rest[j], s[0])
      {
        assert rest[j] in multiset(rest);
        assert rest[j] in multiset(s[1..]) + multiset{x};
        if rest[j] == x {
          LessAsymmetric(s[0], x);
        } else {
          assert rest[j] in s[1..];
          var k :| 0 <= k < |s[1..]| && s[1..][k] == rest[j];
          assert s[k + 1] == rest[j];
        }
      }
      forall i, j | 0 <= i < j < |r|
        ensures !Less(r[j], r[i])
      {
        if i == 0 {
          assert r[j] == rest[j - 1];
        } else {
          assert r[i] == rest[i - 1] && r[j] == rest[j - 1];
        }
      }
    }
  }

  /** `keys.sort()` yields a sorted permutation of the keys. */
  lemma {:induction false} SortKeysSorted(s: seq<string>)
    ensures Sorted(SortKeys(s)) && multiset(SortKeys(s)) == multiset(s)
    decreases |s|
  {
    if |s| > 0 {
      SortKeysSorted(s[1..]);
      InsertSorted(s[0], SortKeys(s[1..]));
    }
  }

  predicate Distinct(s: seq<string>)
  {
    forall i, j :: 0 <= i < j < |s| ==> s[i] != s[j]
  }

  lemma {:induction false} DistinctCount(s: seq<string>, x: string)
    requires Distinct(s)
    ensures multiset(s)[x] <= 1
    decreases |s|
  {
    if |s| > 0 {
      assert s == [s[0]] + s[1..];
      assert Distinct(s[1..]) by {
        forall i, j | 0 <= i < j < |s[1..]|
          ensures s[1..][i] != s[1..][j]
        {
          assert s[1..][i] == s[i + 1] && s[1..][j] == s[j + 1];
        }
      }
      DistinctCount(s[1..], x);
      forall k | 0 <= k < |s[1..]|
        ensures s[1..][k] != s[0]
      {
        assert s[1..][k] == s[k + 1];
      }
    }
  }

  lemma {:induction false} TwoPlaces(r: seq<string>, i: nat, j: nat)
    requires i < j < |r|
    ensures multiset(r)[r[i]] >= if r[i] == r[j] then 2 else 1
  {
    assert r == r[..i] + [r[i]] + r[i + 1..j] + [r[j]] + r[j + 1..];
  }

  /** A permutation of a sequence without repeats has none either. */
  lemma {:induction false} PermutationDistinct(r: seq<string>, s: seq<string>)
    requires multiset(r) == multiset(s) && Distinct(s)
    ensures Distinct(r)
  {
    forall i, j | 0 <= i < j < |r|
      ensures r[i] != r[j]
    {
      TwoPlaces(r, i, j);
      DistinctCount(s, r[i]);
    }
  }

  lemma {:induction false} SortedDistinctStrictly(s: seq<string>)
    requires Sorted(s) && Distinct(s)
    ensures StrictlySorted(s)
  {
    forall i, j | 0 <= i < j < |s|
      ensures Less(s[i], s[j])
    {
      LessTotal(s[i], s[j]);
    }
  }

  lemma {:induction false} LessAntisymmetric(a: string, b: string)
    ensures !(Less(a, b) && Less(b, a))
  {
    if Less(a, b) {
      LessAsymmetric(a, b);
    }
  }

  lemma {:induction false} HeadIsLeast(a: seq<string>, x: string)
    requires StrictlySorted(a) && x in a
    ensures x == a[0] || Less(a[0], x)
  {
    var j :| 0 <= j < |a| && a[j] == x;
    assert j > 0 ==> Less(a[0], a[j]);
  }

  /** A strictly sorted sequence is determined by its elements. */
  lemma {:induction false} StrictlySortedUnique(a: seq<string>, b: seq<string>)
    requires StrictlySorted(a) && StrictlySorted(b)
    requires forall x :: x in a <==> x in b
    ensures a == b
    decreases |a|
  {
    assert |b| > 0 ==> b[0] in b;
    if |a| > 0 {
      assert a[0] in a;
      assert b[0] in b;
      HeadIsLeast(a, b[0]);
      HeadIsLeast(b, a[0]);
      LessAntisymmetric(a[0], b[0]);
      forall x
        ensures x in a[1..] <==> x in b[1..]
      {
        if x in a[1..] {
          var k :| 0 <= k < |a[1..]| && a[1..][k] == x;
          assert a[k + 1] == x;
          assert Less(a[0], x);
          LessIrreflexive(x);
          assert x in b && x != b[0];
          var m :| 0 <= m < |b| && b[m] == x;
          assert b[1..][m - 1] == x;
        }
        if x in b[1..] {
          var k :| 0 <= k < |b[1..]| && b[1..][k] == x;
          assert b[k + 1] == x;
          assert Less(b[0], x);
          LessIrreflexive(x);
          assert x in a && x != a[0];
          var m :| 0 <= m < |a| && a[m] == x;
          assert a[1..][m - 1] == x;
        }
      }
      assert StrictlySorted(a[1..]) by {
        forall i, j | 0 <= i < j < |a[1..]|
          ensures Less(a[1..][i], a[1..][j])
        {
          assert a[1..][i] == a[i + 1] && a[1..][j] == a[j + 1];
        }
      }
      assert StrictlySorted(b[1..]) by {
        forall i, j | 0 <= i < j < |b[1..]|
          ensures Less(b[1..][i], b[1..][j])
        {
          assert b[1..][i] == b[i + 1] && b[1..][j] == b[j + 1];
        }
      }
      StrictlySortedUnique(a[1..], b[1..]);
      assert a == [a[0]] + a[1..] && b == [b[0]] + b[1..];
    }
  }

  /** Keys already in order are left as they are by the sort. */
  lemma {:induction false} SortKeysOfSorted(s: seq<string>)
    requires StrictlySorted(s)
    ensures SortKeys(s) == s
  {
    SortKeysSorted(s);
    var r := SortKeys(s);
    assert Distinct(s) by {
      forall i, j | 0 <= i < j < |s|
        ensures s[i] != s[j]
      {
        LessIrreflexive(s[i]);
      }
    }
    PermutationDistinct(r, s);
    SortedDistinctStrictly(r);
    forall x
      ensures x in r <==> x in s
    {
      assert x in r <==> x in multiset(r);
      assert x in s <==> x in multiset(s);
    }
    StrictlySortedUnique(r, s);
  }

  // ---------------------------------------------------------- encoding

  lemma {:induction false} PropertiesSameLookups(keys: seq<string>, e1: seq<Entry>, e2: seq<Entry>)
    requires forall k :: 0 <= k < |keys| ==> keys[k] in KeysOf(e1) && keys[k] in KeysOf(e2)
    requires forall k :: 0 <= k < |keys| ==> Lookup(e1, keys[k]) == Lookup(e2, keys[k])
    ensures EncodeProperties(keys, e1) == EncodeProperties(keys, e2)
    decreases |keys|
  {
    if |keys| > 0 {
      PropertiesSameLookups(keys[1..], e1, e2);
    }
  }

  lemma {:induction false} DistinctKeysOf(entries: seq<Entry>)
    requires DistinctKeys(entries)
    ensures Distinct(KeysOf(entries))
  {
  }

  /** The sorted keys of an object with distinct keys are strictly
      ascending and hold exactly its keys. */
  lemma {:induction false} SortedKeysOf(entries: seq<Entry>)
    requires DistinctKeys(entries)
    ensures var r := SortKeys(KeysOf(entries));
      StrictlySorted(r) && forall x :: x in r <==> x in KeysOf(entries)
  {
    var s := KeysOf(entries);
    SortKeysSorted(s);
    var r := SortKeys(s);
    DistinctKeysOf(entries);
    PermutationDistinct(r, s);
    SortedDistinctStrictly(r);
    forall x
      ensures x in r <==> x in s
    {
      assert x in r <==> x in multiset(r);
      assert x in s <==> x in multiset(s);
    }
  }

  /** `encode` of an object depends only on its key/value pairs: two
      objects with the same keys mapped to the same values encode the
      same, whatever order their keys were inserted in. */
  lemma {:induction false} EncodeIgnoresInsertionOrder(e1: seq<Entry>, e2: seq<Entry>)
    requires DistinctKeys(e1) && DistinctKeys(e2)
    requires forall x :: x in KeysOf(e1) <==> x in KeysOf(e2)
    requires forall x :: x in KeysOf(e1) ==> Lookup(e1, x) == Lookup(e2, x)
    ensures Encode(Dict(e1)) == Encode(Dict(e2))
  {
    SortedKeysOf(e1);
    SortedKeysOf(e2);
    var k1 := SortKeys(KeysOf(e1));
    var k2 := SortKeys(KeysOf(e2));
    StrictlySortedUnique(k1, k2);
    PropertiesSameLookups(k1, e1, e2);
  }
}

=== FILE: bencode_roundtrip.dfy ===
/** The decoder reads back what the encoder writes: for every value the
    encoder can produce without loss, `parseMetadata(encode(v), 0)` yields
    `v` and the index just past its text. */
module BencodeRoundTrip {
  import opened Common
  import opened Text
  import opened Bencode
  import opened BencodeOrder

  /** A key that decodes to itself: ASCII text, neither `pieces` (stored
      as hex) nor `__proto__` (taken as the prototype). */
  predicate CanonicalKey(key: string)
  {
    IsAscii(key) && key != PIECES_KEY && key != PROTO_KEY
  }

  /** The values that survive a round trip: no Buffers (they decode as
      strings), ASCII strings (the decoder reads ASCII), and objects whose
      keys are canonical and already in the encoder's sorted order. */
  predicate Canonical(v: Value)
    decreases v
  {
    match v
    case Num(_) => true
    case Str(s) => IsAscii(s)
    case Buf(_) => false
    case List(items) => CanonicalItems(items)
    case Dict(es) => StrictlySorted(KeysOf(es)) && CanonicalEntries(es)
  }

  predicate CanonicalItems(items: seq<Value>)
    decreases items
  {
    |items| == 0 || (Canonical(items[0]) && CanonicalItems(items[1..]))
  }

  predicate CanonicalEntries(es: seq<Entry>)
    decreases es
  {
    |es| == 0 || (CanonicalKey(es[0].key) && Canonical(es[0].value) && CanonicalEntries(es[1..]))
  }

  /** None of the keys of `es` is in `acc` or repeats an earlier one. */
  predicate FreshKeys(acc: seq<Entry>, es: seq<Entry>)
    decreases |es|
  {
    |es| == 0 || (es[0].key !in KeysOf(acc) && FreshKeys(acc + [es[0]], es[1..]))
  }

  // ------------------------------------------------------------ text in data

  /** `data` holds the ASCII text `s` from index `i`. Stated one
      character at a time, so that the solver unfolds it only on demand. */
  predicate At(data: seq<Byte>, i: nat, s: string)
    decreases |s|
  {
    && i + |s| <= |data|
    && (|s| == 0 || (s[0] as int < 0x80 && data[i] == s[0] as int && At(data, i + 1, s[1..])))
  }

  lemma {:induction false} AtIndex(data: seq<Byte>, i: nat, s: string, k: nat)
    requires At(data, i, s) && k < |s|
    ensures s[k] as int < 0x80 && data[i + k] == s[k] as int
    decreases k
  {
    if k > 0 {
      AtIndex(data, i + 1, s[1..], k - 1);
    }
  }

  lemma {:induction false} AtPointwise(data: seq<Byte>, i: nat, s: string)
    requires At(data, i, s)
    ensures i + |s| <= |data|
    ensures forall k :: 0 <= k < |s| ==> s[k] as int < 0x80 && data[i + k] == s[k] as int
  {
    forall k | 0 <= k < |s|
      ensures s[k] as int < 0x80 && data[i + k] == s[k] as int
    {
      AtIndex(data, i, s, k);
    }
  }

  lemma {:induction false} AtFromPointwise(data: seq<Byte>, i: nat, s: string)
    requires i + |s| <= |data|
    requires forall k :: 0 <= k < |s| ==> s[k] as int < 0x80 && data[i + k] == s[k] as int
    ensures At(data, i, s)
    decreases |s|
  {
    if |s| > 0 {
      assert data[i + 0] == s[0] as int;
      forall k | 0 <= k < |s[1..]|
        ensures s[1..][k] as int < 0x80 && data[i + 1 + k] == s[1..][k] as int
      {
        assert s[1..][k] == s[k + 1];
        assert data[i + (k + 1)] == s[k + 1] as int;
      }
      AtFromPointwise(data, i + 1, s[1..]);
    }
  }

  lemma {:induction false} AtSplit(data: seq<Byte>, i: nat, s: string, t: string)
    requires At(data, i, s + t)
    ensures At(data, i, s) && At(data, i + |s|, t)
  {
    AtPointwise(data, i, s + t);
    forall k | 0 <= k < |s|
      ensures s[k] as int < 0x80 && data[i + k] == s[k] as int
    {
      assert (s + t)[k] == s[k];
    }
    forall k | 0 <= k < |t|
      ensures t[k] as int < 0x80 && data[i + |s| + k] == t[k] as int
    {
      assert (s + t)[|s| + k] == t[k];
      assert data[i + (|s| + k)] == (s + t)[|s| + k] as int;
    }
    AtFromPointwise(data, i, s);
    AtFromPointwise(data, i + |s|, t);
  }

  lemma {:induction false} AtChar(data: seq<Byte>, i: nat, s: string)
    requires At(data, i, s) && |s| > 0
    ensures i < |data| && CharAt(data, i) == s[0]
  {
  }

  lemma {:induction false} AtDecode(data: seq<Byte>, i: nat, s: string)
    requires At(data, i, s)
    ensures AsciiDecode(data[i..i + |s|]) == s
  {
    AtPointwise(data, i, s);
    var d := AsciiDecode(data[i..i + |s|]);
    forall k | 0 <= k < |s|
      ensures d[k] == s[k]
    {
      assert data[i..i + |s|][k] == data[i + k];
    }
  }

  /** The scan for byte `b` stops at its first occurrence in the text. */
  lemma {:induction false} FindByteAt(data: seq<Byte>, i: nat, s: string, k: nat, b: Byte)
    requires At(data, i, s) && k < |s| && s[k] as int == b
    requires forall j :: 0 <= j < k ==> s[j] as int != b
    ensures FindByte(data, i, b) == Some(i + k)
  {
    AtPointwise(data, i, s);
    assert data[i + k] == b;
    forall j | i <= j < i + k
      ensures data[j] != b
    {
      assert data[i + (j - i)] == s[j - i] as int;
    }
  }

  // ------------------------------------------------------------ scalars

  lemma {:induction false} IntToStringChars(n: int)
    ensures forall k :: 0 <= k < |IntToString(n)| ==>
      IsDecimalDigit(IntToString(n)[k]) || IntToString(n)[k] == '-'
  {
    var m: nat := if n < 0 then -n else n;
    NatToStringDigits(m);
    if n < 0 {
      assert forall k :: 1 <= k < |IntToString(n)| ==> IntToString(n)[k] == NatToString(m)[k - 1];
    }
  }

  lemma {:induction false} ParseIntNaN()
    ensures ParseInt("NaN") == NaN
  {
    assert TrimStart("NaN") == "NaN";
    assert DigitPrefix("NaN", 10) == [];
  }

  // One lemma per branch of the decoder, each unfolding it once.

  lemma {:induction false} ParseNumCase(data: seq<Byte>, i: nat, j: nat, n: JsNum)
    requires i < |data| && CharAt(data, i) == 'i' && FindByte(data, i, 0x65) == Some(j)
    requires ParseInt(AsciiDecode(data[i + 1..j])) == n
    ensures Parse(data, i) == Parsed(Num(n), j + 1)
  {
  }

  lemma {:induction false} ParseStrCase(data: seq<Byte>, i: nat, j: nat, length: nat, s: string)
    requires i < |data| && IsDecimalDigit(CharAt(data, i))
    requires FindByte(data, i, 0x3A) == Some(j) && j + 1 + length <= |data|
    requires ParseInt(AsciiDecode(data[i..j])) == Int(length)
    requires AsciiDecode(data[j + 1..j + 1 + length]) == s
    ensures Parse(data, i) == Parsed(Str(s), j + 1 + length)
  {
  }

  lemma {:induction false} ListItemCase(data: seq<Byte>, i: nat, acc: seq<Value>, v: Value, k: nat)
    requires i < |data| && CharAt(data, i) != 'e' && Parse(data, i) == Parsed(v, k)
    ensures ParseList(data, i, acc) == ParseList(data, k, acc + [v])
  {
  }

  lemma {:induction false} DictEntryCase(data: seq<Byte>, i: nat, acc: seq<Entry>, key: string, k: nat, v: Value, m: nat)
    requires i < |data| && CharAt(data, i) != 'e' && Parse(data, i) == Parsed(Str(key), k)
    requires key != PROTO_KEY && key != PIECES_KEY && k < |data| && Parse(data, k) == Parsed(v, m)
    ensures ParseDict(data, i, acc) == ParseDict(data, m, SetEntry(acc, key, v))
  {
  }

  /** Text `d` followed by a separator that does not occur in `d`: the
      scan for the separator stops right after `d`. */
  lemma {:induction false} DelimitedAt(data: seq<Byte>, i: nat, d: string, sep: char, rest: string, j: nat)
    requires sep as int < 0x80 && At(data, i, d + ([sep] + rest))
    requires forall k :: 0 <= k < |d| ==> d[k] != sep
    requires j == i + |d|
    ensures j + 1 + |rest| <= |data|
    ensures FindByte(data, i, sep as int) == Some(j)
    ensures AsciiDecode(data[i..j]) == d
    ensures AsciiDecode(data[j + 1..j + 1 + |rest|]) == rest
  {
    var t := d + ([sep] + rest);
    AtSplit(data, i, d, [sep] + rest);
    AtSplit(data, j, [sep], rest);
    AtDecodeTo(data, i, d, j);
    AtDecodeTo(data, j + 1, rest, j + 1 + |rest|);
    forall k | 0 <= k < |d|
      ensures t[k] as int != sep as int
    {
      assert t[k] == d[k];
    }
    assert t[|d|] == sep;
    FindByteAt(data, i, t, |d|, sep as int);
  }

  lemma {:induction false} AtDecodeTo(data: seq<Byte>, i: nat, s: string, hi: nat)
    requires At(data, i, s) && hi == i + |s|
    ensures hi <= |data| && AsciiDecode(data[i..hi]) == s
  {
    AtDecode(data, i, s);
  }

  lemma {:induction false} FindByteSkip(data: seq<Byte>, i: nat, b: Byte)
    requires i < |data| && data[i] != b
    ensures FindByte(data, i, b) == FindByte(data, i + 1, b)
  {
  }

  lemma {:induction false} DecodedParseInt(data: seq<Byte>, lo: nat, hi: nat, d: string, n: JsNum)
    requires lo <= hi <= |data| && AsciiDecode(data[lo..hi]) == d && ParseInt(d) == n
    ensures ParseInt(AsciiDecode(data[lo..hi])) == n
  {
  }

  /** The text between `i` and `e` in a number's encoding. */
  function NumDigits(n: JsNum): string
  {
    if n.Int? then IntToString(n.n) else "NaN"
  }

  lemma {:induction false} NumDigitsFacts(n: JsNum)
    ensures Encode(Num(n)) == "i" + (NumDigits(n) + ("e" + ""))
    ensures forall k :: 0 <= k < |NumDigits(n)| ==> NumDigits(n)[k] != 'e'
    ensures ParseInt(NumDigits(n)) == n
  {
    EncodeNumText(n);
    if n.Int? {
      IntDigitsFacts(n.n);
    } else {
      ParseIntNaN();
    }
  }

  lemma {:induction false} EncodeNumText(n: JsNum)
    ensures Encode(Num(n)) == "i" + (NumDigits(n) + ("e" + ""))
  {
    var d := NumDigits(n);
    assert "e" + "" == "e";
    assert Encode(Num(n)) == "i" + d + "e";
    assert "i" + d + "e" == "i" + (d + "e");
  }

  lemma {:induction false} IntDigitsFacts(x: int)
    ensures forall k :: 0 <= k < |IntToString(x)| ==> IntToString(x)[k] != 'e'
    ensures ParseInt(IntToString(x)) == Int(x)
  {
    IntToStringChars(x);
    ParseIntOfIntToString(x);
  }

  /** The number branch's view of a number's text, `d` being its digits
      and `j` the index of its `e`. */
  lemma {:induction false} NumTextFacts(data: seq<Byte>, i: nat, n: JsNum, d: string, j: nat)
    requires d == NumDigits(n) && j == i + 1 + |d|
    requires At(data, i, Encode(Num(n)))
    ensures i + |Encode(Num(n))| == j + 1
    ensures i < |data| && CharAt(data, i) == 'i' && FindByte(data, i, 0x65) == Some(j)
    ensures j <= |data| && ParseInt(AsciiDecode(data[i + 1..j])) == n
  {
    NumDigitsFacts(n);
    AtSplit(data, i, "i", d + ("e" + ""));
    AtChar(data, i, "i");
    DelimitedAt(data, i + 1, d, 'e', "", j);
    FindByteSkip(data, i, 0x65);
    DecodedParseInt(data, i + 1, j, d, n);
  }

  /** A number's text `i<decimal>e` (or `iNaNe`) reads back as the number. */
  lemma {:induction false} ParseNumAt(data: seq<Byte>, i: nat, n: JsNum)
    requires At(data, i, Encode(Num(n)))
    ensures Parse(data, i) == Parsed(Num(n), i + |Encode(Num(n))|)
  {
    var j := NumEnd(data, i, n);
    ParseNumCase(data, i, j, n);
  }

  /** Where the closing `e` of a number's text lies. */
  lemma {:induction false} NumEnd(data: seq<Byte>, i: nat, n: JsNum) returns (j: nat)
    requires At(data, i, Encode(Num(n)))
    ensures i + |Encode(Num(n))| == j + 1
    ensures i < |data| && CharAt(data, i) == 'i' && FindByte(data, i, 0x65) == Some(j)
    ensures j <= |data| && ParseInt(AsciiDecode(data[i + 1..j])) == n
  {
    var d := NumDigits(n);
    j := i + 1 + |d|;
    NumTextFacts(data, i, n, d, j);
  }

  lemma {:induction false} EncodeStringFacts(s: string)
    requires IsAscii(s)
    ensures EncodeString(s) == NatToString(|s|) + ([':'] + s)
    ensures forall k :: 0 <= k < |NatToString(|s|)| ==> IsDecimalDigit(NatToString(|s|)[k])
    ensures ParseInt(NatToString(|s|)) == Int(|s|)
  {
    Utf8LengthAscii(s);
    NatToStringDigits(|s|);
    ParseIntOfIntToString(|s|);
  }

  /** The string branch's view of a string's text, `d` being its length
      in decimal and `j` the index of its colon. */
  lemma {:induction false} StrTextFacts(data: seq<Byte>, i: nat, s: string, d: string, j: nat)
    requires IsAscii(s) && d == NatToString(|s|) && j == i + |d|
    requires At(data, i, EncodeString(s))
    ensures i + |EncodeString(s)| == j + 1 + |s|
    ensures i < |data| && IsDecimalDigit(CharAt(data, i))
    ensures FindByte(data, i, 0x3A) == Some(j) && j + 1 + |s| <= |data|
    ensures ParseInt(AsciiDecode(data[i..j])) == Int(|s|)
    ensures AsciiDecode(data[j + 1..j + 1 + |s|]) == s
  {
    EncodeStringFacts(s);
    AtChar(data, i, EncodeString(s));
    assert EncodeString(s)[0] == d[0];
    DelimitedAt(data, i, d, ':', s, j);
    DecodedParseInt(data, i, j, d, Int(|s|));
  }

  /** A string's text `<length>:<chars>` reads back as the string. */
  lemma {:induction false} ParseStrAt(data: seq<Byte>, i: nat, s: string)
    requires IsAscii(s) && At(data, i, EncodeString(s))
    ensures Parse(data, i) == Parsed(Str(s), i + |EncodeString(s)|)
  {
    var j := StrColon(data, i, s);
    ParseStrCase(data, i, j, |s|, s);
  }

  /** Where the colon of a string's text lies. */
  lemma {:induction false} StrColon(data: seq<Byte>, i: nat, s: string) returns (j: nat)
    requires IsAscii(s) && At(data, i, EncodeString(s))
    ensures i + |EncodeString(s)| == j + 1 + |s|
    ensures i < |data| && IsDecimalDigit(CharAt(data, i))
    ensures FindByte(data, i, 0x3A) == Some(j) && j + 1 + |s| <= |data|
    ensures ParseInt(AsciiDecode(data[i..j])) == Int(|s|)
    ensures AsciiDecode(data[j + 1..j + 1 + |s|]) == s
  {
    var d := NatToString(|s|);
    j := i + |d|;
    StrTextFacts(data, i, s, d, j);
  }

  // ------------------------------------------------------------ structure

  /** Every encoding starts with a character other than `e`, so no value's
      text is taken for the end of a list or object. */
  lemma {:induction false} EncodeNotEnd(v: Value)
    ensures |Encode(v)| > 0 && Encode(v)[0] != 'e'
  {
    match v {
      case Num(n) =>
      case Str(s) =>
        NatToStringDigits(Utf8Length(s));
        assert Encode(v)[0] == NatToString(Utf8Length(s))[0];
      case Buf(b) =>
        NatToStringDigits(|b|);
        assert Encode(v)[0] == NatToString(|b|)[0];
      case List(_) =>
      case Dict(_) =>
    }
  }

  /** The properties of an object, in the order given. */
  function EncodeEntries(es: seq<Entry>): string
  {
    if |es| == 0 then "" else EncodeString(es[0].key) + Encode(es[0].value) + EncodeEntries(es[1..])
  }

  /** Visiting the keys in their own order writes the properties in order. */
  lemma {:induction false} PropertiesInOrder(es: seq<Entry>, k: nat)
    requires DistinctKeys(es) && k <= |es|
    ensures EncodeProperties(KeysOf(es)[k..], es) == EncodeEntries(es[k..])
    decreases |es| - k
  {
    if k < |es| {
      PropertiesInOrder(es, k + 1);
      IndexOfAt(es, es[k].key, k);
      assert KeysOf(es)[k..][1..] == KeysOf(es)[k + 1..];
      assert es[k..][1..] == es[k + 1..];
    }
  }

  /** An object whose keys are in ascending order is written property by
      property, in that order. */
  lemma {:induction false} CanonicalDictEncoding(es: seq<Entry>)
    requires StrictlySorted(KeysOf(es))
    ensures DistinctKeys(es)
    ensures Encode(Dict(es)) == "d" + EncodeEntries(es) + "e"
  {
    SortKeysOfSorted(KeysOf(es));
    forall i, j | 0 <= i < j < |es|
      ensures es[i].key != es[j].key
    {
      LessIrreflexive(es[i].key);
      assert Less(KeysOf(es)[i], KeysOf(es)[j]);
    }
    PropertiesInOrder(es, 0);
    assert KeysOf(es)[0..] == KeysOf(es) && es[0..] == es;
  }

  /** A new key is appended by `obj[key] = val`. */
  lemma {:induction false} SetEntryNew(entries: seq<Entry>, key: string, v: Value)
    requires key !in KeysOf(entries)
    ensures SetEntry(entries, key, v) == entries + [Entry(key, v)]
    decreases |entries|
  {
    if |entries| > 0 {
      assert KeysOf(entries)[0] == entries[0].key;
      forall j | 0 <= j < |entries[1..]|
        ensures KeysOf(entries[1..])[j] != key
      {
        assert KeysOf(entries)[j + 1] != key;
      }
      SetEntryNew(entries[1..], key, v);
      assert entries == [entries[0]] + entries[1..];
    }
  }

  // ------------------------------------------------------------ round trip

  /** The opening `l` of a list hands over to the list loop. */
  lemma {:induction false} ListOpen(data: seq<Byte>, i: nat, items: seq<Value>)
    requires At(data, i, Encode(List(items)))
    ensures At(data, i + 1, EncodeItems(items) + "e")
    ensures Parse(data, i) == ParseList(data, i + 1, [])
    ensures |Encode(List(items))| == |EncodeItems(items)| + 2
  {
    var body := EncodeItems(items);
    assert Encode(List(items)) == "l" + (body + "e");
    AtChar(data, i, Encode(List(items)));
    AtSplit(data, i, "l", body + "e");
  }

  /** The opening `d` of an object with keys in order hands over to the
      object loop. */
  lemma {:induction false} DictOpen(data: seq<Byte>, i: nat, es: seq<Entry>)
    requires StrictlySorted(KeysOf(es)) && At(data, i, Encode(Dict(es)))
    ensures FreshKeys([], es)
    ensures At(data, i + 1, EncodeEntries(es) + "e")
    ensures Parse(data, i) == ParseDict(data, i + 1, [])
    ensures |Encode(Dict(es))| == |EncodeEntries(es)| + 2
  {
    CanonicalDictEncoding(es);
    SortedFreshKeys(es, 0);
    assert es[..0] == [] && es[0..] == es;
    var body := EncodeEntries(es);
    assert Encode(Dict(es)) == "d" + (body + "e");
    AtChar(data, i, Encode(Dict(es)));
    AtSplit(data, i, "d", body + "e");
  }

  lemma {:induction false} ListEndCase(data: seq<Byte>, i: nat, acc: seq<Value>)
    requires i < |data| && CharAt(data, i) == 'e'
    ensures ParseList(data, i, acc) == Parsed(List(acc), i + 1)
  {
  }

  lemma {:induction false} DictEndCase(data: seq<Byte>, i: nat, acc: seq<Entry>)
    requires i < |data| && CharAt(data, i) == 'e'
    ensures ParseDict(data, i, acc) == Parsed(Dict(acc), i + 1)
  {
  }

  /** Where the texts of a non-empty list's items lie. */
  lemma {:induction false} ItemsLayout(data: seq<Byte>, i: nat, items: seq<Value>)
    requires |items| > 0 && At(data, i, EncodeItems(items) + "e")
    ensures i < |data| && CharAt(data, i) != 'e'
    ensures |EncodeItems(items)| == |Encode(items[0])| + |EncodeItems(items[1..])|
    ensures At(data, i, Encode(items[0]))
    ensures At(data, i + |Encode(items[0])|, EncodeItems(items[1..]) + "e")
  {
    var head := Encode(items[0]);
    var tail := EncodeItems(items[1..]);
    assert EncodeItems(items) + "e" == head + (tail + "e");
    AtSplit(data, i, head, tail + "e");
    EncodeNotEnd(items[0]);
    AtChar(data, i, head);
  }

  /** Where the texts of a non-empty object's first key and value lie. */
  lemma {:induction false} EntriesLayout(data: seq<Byte>, i: nat, keyText: string, valText: string, tail: string, m: nat)
    requires At(data, i, keyText + (valText + (tail + "e")))
    requires |keyText| > 0 && keyText[0] != 'e' && |valText| > 0 && valText[0] != 'e'
    requires m == i + |keyText| + |valText|
    ensures i < |data| && CharAt(data, i) != 'e'
    ensures i + |keyText| < |data|
    ensures At(data, i, keyText)
    ensures At(data, i + |keyText|, valText)
    ensures At(data, m, tail + "e")
  {
    AtSplit3(data, i, keyText, valText, tail + "e");
    AtChar(data, i, keyText);
    AtChar(data, i + |keyText|, valText);
  }

  lemma {:induction false} EncodeEntriesCons(es: seq<Entry>, keyText: string, valText: string, tail: string)
    requires |es| > 0
    requires keyText == EncodeString(es[0].key) && valText == Encode(es[0].value)
    requires tail == EncodeEntries(es[1..])
    ensures EncodeEntries(es) + "e" == keyText + (valText + (tail + "e"))
    ensures |EncodeEntries(es)| == |keyText| + |valText| + |tail|
  {
    assert EncodeEntries(es) == keyText + valText + tail;
    ConcatAssoc(keyText, valText, tail);
  }

  lemma {:induction false} ConcatAssoc(a: string, b: string, c: string)
    ensures a + b + c + "e" == a + (b + (c + "e"))
  {
  }

  lemma {:induction false} EncodeStringNotEnd(s: string, text: string)
    requires text == EncodeString(s)
    ensures |text| > 0 && text[0] != 'e'
  {
    NatToStringDigits(Utf8Length(s));
    assert text[0] == NatToString(Utf8Length(s))[0];
  }

  lemma {:induction false} AtSplit3(data: seq<Byte>, i: nat, a: string, b: string, c: string)
    requires At(data, i, a + (b + c))
    ensures At(data, i, a) && At(data, i + |a|, b) && At(data, i + |a| + |b|, c)
  {
    AtSplit(data, i, a, b + c);
    AtSplit(data, i + |a|, b, c);
  }

  /** What the conditions on the remaining properties say of the first. */
  lemma {:induction false} EntriesHead(es: seq<Entry>, acc: seq<Entry>)
    requires |es| > 0 && CanonicalEntries(es) && FreshKeys(acc, es)
    ensures CanonicalKey(es[0].key) && Canonical(es[0].value) && es[0].key !in KeysOf(acc)
    ensures CanonicalEntries(es[1..]) && FreshKeys(acc + [es[0]], es[1..])
  {
  }

  /** Keys in strictly ascending order are fresh at every point of the
      loop. */
  lemma {:induction false} SortedFreshKeys(es: seq<Entry>, k: nat)
    requires StrictlySorted(KeysOf(es)) && k <= |es|
    ensures FreshKeys(es[..k], es[k..])
    decreases |es| - k
  {
    if k < |es| {
      forall j | 0 <= j < k
        ensures KeysOf(es[..k])[j] != es[k].key
      {
        assert KeysOf(es)[j] == KeysOf(es[..k])[j];
        LessIrreflexive(es[k].key);
        assert Less(KeysOf(es)[j], KeysOf(es)[k]);
      }
      SortedFreshKeys(es, k + 1);
      assert es[..k] + [es[k]] == es[..k + 1];
      assert es[k..][1..] == es[k + 1..];
    }
  }

  /** One turn of the object loop: a new canonical key, then a value that
      parses. */
  lemma {:induction false} DictStep(data: seq<Byte>, i: nat, acc: seq<Entry>, e: Entry, k: nat, m: nat)
    requires CanonicalKey(e.key) && e.key !in KeysOf(acc)
    requires k == i + |EncodeString(e.key)|
    requires i < |data| && CharAt(data, i) != 'e' && At(data, i, EncodeString(e.key))
    requires k < |data| && Parse(data, k) == Parsed(e.value, m)
    ensures ParseDict(data, i, acc) == ParseDict(data, m, acc + [e])
  {
    ParseStrAt(data, i, e.key);
    SetEntryNew(acc, e.key, e.value);
    DictEntryCase(data, i, acc, e.key, k, e.value, m);
  }

  /** The closing `e` of a list or object. */
  lemma {:induction false} EndLayout(data: seq<Byte>, i: nat, body: string)
    requires |body| == 0 && At(data, i, body + "e")
    ensures i < |data| && CharAt(data, i) == 'e'
  {
    assert body + "e" == "e";
    AtChar(data, i, "e");
  }

  lemma {:induction false} ParseAt(data: seq<Byte>, i: nat, v: Value)
    requires Canonical(v) && At(data, i, Encode(v))
    ensures Parse(data, i) == Parsed(v, i + |Encode(v)|)
    decreases v
  {
    match v {
      case Num(n) =>
        ParseNumAt(data, i, n);
      case Str(s) =>
        ParseStrAt(data, i, s);
      case List(items) =>
        ListOpen(data, i, items);
        ParseItemsAt(data, i + 1, items, []);
        assert [] + items == items;
      case Dict(es) =>
        DictOpen(data, i, es);
        ParseEntriesAt(data, i + 1, es, []);
        assert [] + es == es;
    }
  }

  /** One turn of the list loop, on the first of the remaining items. */
  lemma {:induction false} ItemsStep(data: seq<Byte>, i: nat, items: seq<Value>, acc: seq<Value>) returns (k: nat)
    requires |items| > 0 && CanonicalItems(items)
    requires At(data, i, EncodeItems(items) + "e")
    ensures ParseList(data, i, acc) == ParseList(data, k, acc + [items[0]])
    ensures i + |EncodeItems(items)| == k + |EncodeItems(items[1..])|
    ensures CanonicalItems(items[1..])
    ensures At(data, k, EncodeItems(items[1..]) + "e")
    ensures acc + [items[0]] + items[1..] == acc + items
    decreases items, 0
  {
    k := i + |Encode(items[0])|;
    ItemsLayout(data, i, items);
    ParseAt(data, i, items[0]);
    ListItemCase(data, i, acc, items[0], k);
    ConsAssoc(acc, items);
  }

  lemma {:induction false} ParseItemsAt(data: seq<Byte>, i: nat, items: seq<Value>, acc: seq<Value>)
    requires CanonicalItems(items)
    requires At(data, i, EncodeItems(items) + "e")
    ensures ParseList(data, i, acc) == Parsed(List(acc + items), i + |EncodeItems(items)| + 1)
    decreases items, 1
  {
    if |items| == 0 {
      ItemsEnd(data, i, items, acc);
    } else {
      var k := ItemsStep(data, i, items, acc);
      ParseItemsAt(data, k, items[1..], acc + [items[0]]);
    }
  }

  lemma {:induction false} ItemsEnd(data: seq<Byte>, i: nat, items: seq<Value>, acc: seq<Value>)
    requires |items| == 0 && At(data, i, EncodeItems(items) + "e")
    ensures ParseList(data, i, acc) == Parsed(List(acc + items), i + |EncodeItems(items)| + 1)
  {
    EndLayout(data, i, EncodeItems(items));
    ListEndCase(data, i, acc);
    assert acc + items == acc;
  }

  /** One turn of the object loop, on the first of the remaining
      properties. */
  lemma {:induction false} EntriesStep(data: seq<Byte>, i: nat, es: seq<Entry>, acc: seq<Entry>) returns (m: nat)
    requires |es| > 0 && CanonicalEntries(es) && FreshKeys(acc, es)
    requires At(data, i, EncodeEntries(es) + "e")
    ensures ParseDict(data, i, acc) == ParseDict(data, m, acc + [es[0]])
    ensures i + |EncodeEntries(es)| == m + |EncodeEntries(es[1..])|
    ensures CanonicalEntries(es[1..]) && FreshKeys(acc + [es[0]], es[1..])
    ensures At(data, m, EncodeEntries(es[1..]) + "e")
    decreases es, 0
  {
    var k;
    k, m := EntriesSplit(data, i, es);
    EntriesHead(es, acc);
    ParseAt(data, k, es[0].value);
    DictStep(data, i, acc, es[0], k, m);
  }

  /** Where the first property's key and value texts lie. */
  lemma {:induction false} EntriesSplit(data: seq<Byte>, i: nat, es: seq<Entry>) returns (k: nat, m: nat)
    requires |es| > 0 && At(data, i, EncodeEntries(es) + "e")
    ensures k == i + |EncodeString(es[0].key)| && m == k + |Encode(es[0].value)|
    ensures i < |data| && CharAt(data, i) != 'e' && k < |data|
    ensures At(data, i, EncodeString(es[0].key)) && At(data, k, Encode(es[0].value))
    ensures i + |EncodeEntries(es)| == m + |EncodeEntries(es[1..])|
    ensures At(data, m, EncodeEntries(es[1..]) + "e")
  {
    var keyText := EncodeString(es[0].key);
    var valText := Encode(es[0].value);
    k := i + |keyText|;
    m := k + |valText|;
    EncodeEntriesCons(es, keyText, valText, EncodeEntries(es[1..]));
    EncodeStringNotEnd(es[0].key, keyText);
    EncodeNotEnd(es[0].value);
    EntriesLayout(data, i, keyText, valText, EncodeEntries(es[1..]), m);
  }

  lemma {:induction false} ConsAssoc<T>(acc: seq<T>, s: seq<T>)
    requires |s| > 0
    ensures acc + [s[0]] + s[1..] == acc + s
  {
    assert [s[0]] + s[1..] == s;
  }

  /** The object read so far already holds `acc` and none of the keys
      still to come. */
  lemma {:induction false} ParseEntriesAt(data: seq<Byte>, i: nat, es: seq<Entry>, acc: seq<Entry>)
    requires CanonicalEntries(es) && FreshKeys(acc, es)
    requires At(data, i, EncodeEntries(es) + "e")
    ensures ParseDict(data, i, acc) == Parsed(Dict(acc + es), i + |EncodeEntries(es)| + 1)
    decreases es, 1
  {
    if |es| == 0 {
      EntriesEnd(data, i, es, acc);
    } else {
      var m := EntriesStep(data, i, es, acc);
      ParseEntriesAt(data, m, es[1..], acc + [es[0]]);
      ConsAssoc(acc, es);
    }
  }

  lemma {:induction false} EntriesEnd(data: seq<Byte>, i: nat, es: seq<Entry>, acc: seq<Entry>)
    requires |es| == 0 && At(data, i, EncodeEntries(es) + "e")
    ensures ParseDict(data, i, acc) == Parsed(Dict(acc + es), i + |EncodeEntries(es)| + 1)
  {
    EndLayout(data, i, EncodeEntries(es));
    DictEndCase(data, i, acc);
    assert acc + es == acc;
  }

  // ------------------------------------------------------------ ASCII

  lemma {:induction false} AsciiConcat(a: string, b: string)
    requires IsAscii(a) && IsAscii(b)
    ensures IsAscii(a + b)
  {
    AsciiBytesConcat(a, b);
  }

  lemma {:induction false} NatToStringAscii(n: nat)
    ensures IsAscii(NatToString(n))
  {
    NatToStringDigits(n);
  }

  lemma {:induction false} EncodeAscii(v: Value)
    requires Canonical(v)
    ensures IsAscii(Encode(v))
    decreases v
  {
    match v {
      case Num(Int(n)) =>
        IntToStringChars(n);
        AsciiConcat("i", IntToString(n));
        AsciiConcat("i" + IntToString(n), "e");
      case Num(NaN) =>
      case Str(s) =>
        EncodeStringAscii(s);
      case Buf(_) =>
      case List(items) =>
        EncodeItemsAscii(items);
        AsciiConcat("l", EncodeItems(items));
        AsciiConcat("l" + EncodeItems(items), "e");
      case Dict(es) =>
        CanonicalDictEncoding(es);
        EncodeEntriesAscii(es);
        AsciiConcat("d", EncodeEntries(es));
        AsciiConcat("d" + EncodeEntries(es), "e");
    }
  }

  lemma {:induction false} EncodeStringAscii(s: string)
    requires IsAscii(s)
    ensures IsAscii(EncodeString(s))
  {
    NatToStringAscii(Utf8Length(s));
    AsciiConcat(NatToString(Utf8Length(s)), ":");
    AsciiConcat(NatToString(Utf8Length(s)) + ":", s);
  }

  lemma {:induction false} EncodeItemsAscii(items: seq<Value>)
    requires CanonicalItems(items)
    ensures IsAscii(EncodeItems(items))
    decreases items
  {
    if |items| > 0 {
      EncodeAscii(items[0]);
      EncodeItemsAscii(items[1..]);
      AsciiConcat(Encode(items[0]), EncodeItems(items[1..]));
    }
  }

  lemma {:induction false} EncodeEntriesAscii(es: seq<Entry>)
    requires CanonicalEntries(es)
    ensures IsAscii(EncodeEntries(es))
    decreases es
  {
    if |es| > 0 {
      EncodeStringAscii(es[0].key);
      EncodeAscii(es[0].value);
      EncodeEntriesAscii(es[1..]);
      AsciiConcat(EncodeString(es[0].key), Encode(es[0].value));
      AsciiConcat(EncodeString(es[0].key) + Encode(es[0].value), EncodeEntries(es[1..]));
    }
  }

  /** `parseMetadata(Buffer.from(encode(v)), 0)` gives back `v`, with the
      index at the end of the text, for every value that is canonical. */
  lemma {:induction false} DecodeEncode(v: Value)
    requires Canonical(v)
    ensures IsAscii(Encode(v))
    ensures Parse(AsciiBytes(Encode(v)), 0) == Parsed(v, |Encode(v)|)
  {
    EncodeAscii(v);
    AsciiAt(Encode(v));
    ParseAt(AsciiBytes(Encode(v)), 0, v);
  }

  /** The bytes of an ASCII text hold that text. */
  lemma {:induction false} AsciiAt(s: string)
    requires IsAscii(s)
    ensures At(AsciiBytes(s), 0, s)
  {
    AtFromPointwise(AsciiBytes(s), 0, s);
  }
}

=== FILE: bytes.dfy ===
/** Buffer primitives of Node.js used by the client: big-endian unsigned
    fields (`writeUInt32BE`, `readUInt32BE`, `writeBigUInt64BE`, ...),
    `Buffer.alloc`, `buf.copy(target, at)` and `buf.subarray(start, end)`. */
module Bytes {
  import opened Common

  /** `Buffer.alloc(n)`: n zero bytes. */
  function Zeros(n: nat): (r: seq<Byte>)
    ensures |r| == n
    ensures forall k :: 0 <= k < n ==> r[k] == 0
  {
    seq(n, _ => 0)
  }

  /** The `w`-byte big-endian representation of `n`. */
  function ToBE(n: nat, w: nat): (r: seq<Byte>)
    requires n < Pow256(w)
    ensures |r| == w
  {
    if w == 0 then [] else ToBE(n / 0x100, w - 1) + [n % 0x100]
  }

  /** The unsigned value of a big-endian byte string. */
  function FromBE(s: seq<Byte>): (n: nat)
    ensures n < Pow256(|s|)
  {
    if |s| == 0 then 0 else FromBE(s[..|s| - 1]) * 0x100 + s[|s| - 1]
  }

  lemma {:induction false} FromToBE(n: nat, w: nat)
    requires n < Pow256(w)
    ensures FromBE(ToBE(n, w)) == n
  {
    if w > 0 {
      var r := ToBE(n, w);
      assert r[..w - 1] == ToBE(n / 0x100, w - 1);
      FromToBE(n / 0x100, w - 1);
    }
  }

  lemma {:induction false} ToFromBE(s: seq<Byte>)
    ensures ToBE(FromBE(s), |s|) == s
  {
    if |s| > 0 {
      var init, last := s[..|s| - 1], s[|s| - 1];
      ToFromBE(init);
      assert s == init + [last];
      var n := FromBE(s);
      assert n == FromBE(init) * 0x100 + last;
      LastByte(FromBE(init), last);
      assert ToBE(n, |s|) == ToBE(n / 0x100, |s| - 1) + [n % 0x100];
    }
  }

  /** Appending a byte to a big-endian value and taking it off again. */
  lemma {:induction false} LastByte(a: nat, b: Byte)
    ensures (a * 0x100 + b) / 0x100 == a && (a * 0x100 + b) % 0x100 == b
  {
  }

  /** Zero bytes read as zero, whatever the width. */
  lemma {:induction false} FromBEZeros(n: nat)
    ensures FromBE(Zeros(n)) == 0
  {
    if n > 0 {
      assert Zeros(n)[..n - 1] == Zeros(n - 1);
      FromBEZeros(n - 1);
    }
  }

  /** The encoding of 1 as a 32-bit field. */
  lemma {:induction false} U32One()
    ensures U32(1) == [0, 0, 0, 1]
  {
    Pow256Values();
    ToBEZero(3);
    assert ToBE(1, 4) == ToBE(0, 3) + [1];
  }

  /** Zero is all zero bytes, whatever the width. */
  lemma {:induction false} ToBEZero(w: nat)
    ensures ToBE(0, w) == Zeros(w)
  {
    if w > 0 {
      ToBEZero(w - 1);
      assert Zeros(w) == Zeros(w - 1) + [0];
    }
  }

  /** Distinct values in range have distinct encodings. */
  lemma {:induction false} ToBEInjective(a: nat, b: nat, w: nat)
    requires a < Pow256(w) && b < Pow256(w)
    requires ToBE(a, w) == ToBE(b, w)
    ensures a == b
  {
    FromToBE(a, w);
    FromToBE(b, w);
  }

  function U16(n: nat): (r: seq<Byte>)
    requires n < 0x1_0000
    ensures |r| == 2
  {
    Pow256Values();
    ToBE(n, 2)
  }

  /** `writeUInt32BE(n)`; the source throws a RangeError outside [0, 2^32). */
  function U32(n: nat): (r: seq<Byte>)
    requires n < U32_LIMIT
    ensures |r| == 4
  {
    Pow256Values();
    ToBE(n, 4)
  }

  /** `writeBigUInt64BE(n)`. */
  function U64(n: nat): (r: seq<Byte>)
    requires n < U64_LIMIT
    ensures |r| == 8
  {
    Pow256Values();
    ToBE(n, 8)
  }

  /** `buf.readUIntBE(off, w)` for an in-bounds field. */
  function ReadBE(buf: seq<Byte>, off: nat, w: nat): (n: nat)
    requires off + w <= |buf|
    ensures n < Pow256(w)
  {
    FromBE(buf[off..off + w])
  }

  function ReadU32(buf: seq<Byte>, off: nat): (n: nat)
    requires off + 4 <= |buf|
    ensures n < U32_LIMIT
  {
    Pow256Values();
    ReadBE(buf, off, 4)
  }

  lemma {:induction false} ReadU32OfU32(n: nat)
    requires n < U32_LIMIT
    ensures ReadU32(U32(n), 0) == n
  {
    Pow256Values();
    assert U32(n)[0..4] == U32(n);
    FromToBE(n, 4);
  }

  /** A field reads back as the value whose encoding it holds. */
  lemma {:induction false} ReadU32Field(buf: seq<Byte>, off: nat, n: nat)
    requires n < U32_LIMIT
    requires off + 4 <= |buf| && buf[off..off + 4] == U32(n)
    ensures ReadU32(buf, off) == n
  {
    ReadU32OfU32(n);
    assert U32(n)[0..4] == U32(n);
  }

  lemma {:induction false} ReadBEField(buf: seq<Byte>, off: nat, w: nat, n: nat)
    requires n < Pow256(w)
    requires off + w <= |buf| && buf[off..off + w] == ToBE(n, w)
    ensures ReadBE(buf, off, w) == n
  {
    FromToBE(n, w);
  }

  /** Reading a field back from the place it was written. */
  lemma {:induction false} ReadU32At(pre: seq<Byte>, n: nat, post: seq<Byte>)
    requires n < U32_LIMIT
    ensures ReadU32(pre + U32(n) + post, |pre|) == n
  {
    var buf := pre + U32(n) + post;
    assert buf[|pre|..|pre| + 4] == U32(n);
    ReadU32OfU32(n);
    assert U32(n)[0..4] == U32(n);
  }

  /** A field at the front of a buffer reads back as its value. */
  lemma {:induction false} ReadBEHead(n: nat, w: nat, rest: seq<Byte>)
    requires n < Pow256(w)
    ensures ReadBE(ToBE(n, w) + rest, 0, w) == n
  {
    assert (ToBE(n, w) + rest)[0..w] == ToBE(n, w);
    FromToBE(n, w);
  }

  /** Reading past a prefix reads the remainder. */
  lemma {:induction false} ReadBESkip(pre: seq<Byte>, rest: seq<Byte>, off: nat, w: nat)
    requires off + w <= |rest|
    ensures ReadBE(pre + rest, |pre| + off, w) == ReadBE(rest, off, w)
  {
    assert (pre + rest)[|pre| + off..|pre| + off + w] == rest[off..off + w];
  }

  /** Appending to a buffer leaves its fields readable as before. */
  lemma {:induction false} ReadBEPrefix(pre: seq<Byte>, rest: seq<Byte>, off: nat, w: nat)
    requires off + w <= |pre|
    ensures ReadBE(pre + rest, off, w) == ReadBE(pre, off, w)
  {
    assert (pre + rest)[off..off + w] == pre[off..off + w];
  }

  /** A slice inside the prefix of a concatenation. */
  lemma {:induction false} SlicePrefix(pre: seq<Byte>, rest: seq<Byte>, i: nat, j: nat)
    requires i <= j <= |pre|
    ensures (pre + rest)[i..j] == pre[i..j]
  {
  }

  /** `src.copy(dst, at)`: copies as many bytes of `src` as fit in `dst`
      from position `at`, leaving the rest of `dst` unchanged. */
  function CopyInto(dst: seq<Byte>, at: nat, src: seq<Byte>): (r: seq<Byte>)
    requires at <= |dst|
    ensures |r| == |dst|
    ensures r[..at] == dst[..at]
    ensures forall k :: 0 <= k < Min(|src|, |dst| - at) ==> r[at + k] == src[k]
    ensures forall k :: at + Min(|src|, |dst| - at) <= k < |dst| ==> r[k] == dst[k]
  {
    var n := Min(|src|, |dst| - at);
    dst[..at] + src[..n] + dst[at + n..]
  }

  /** Clamp of a `subarray` bound into [0, len]. */
  function Clamp(x: int, len: nat): (r: nat)
    ensures r <= len
  {
    if x < 0 then 0 else if x > len then len else x
  }

  /** `buf.subarray(start, end)`: bounds clamped to the buffer, and empty
      when the end does not exceed the start. */
  function Subarray(buf: seq<Byte>, start: int, end: int): (r: seq<Byte>)
    ensures 0 <= start <= end <= |buf| ==> r == buf[start..end]
    ensures end <= start ==> r == []
  {
    var s := Clamp(start, |buf|);
    var e := Clamp(end, |buf|);
    if e <= s then [] else buf[s..e]
  }
}

=== FILE: common.dfy ===
/** Shared vocabulary of the model: bytes, optional values, JavaScript
    outcomes (a returned value or a thrown exception) and the constants of
    constants/consts.js. */
module Common {

  /** One octet of a Node.js Buffer. */
  type Byte = b: int | 0 <= b < 0x100

  /** A SHA-1 digest: exactly twenty bytes. */
  type Digest = s: seq<Byte> | |s| == 20 witness seq(20, _ => 0)

  /** `null`/`undefined` in the source. */
  datatype Option<T> = None | Some(value: T)

  /** The result of a JavaScript call: a returned value, or an exception
      (`TypeError`, `RangeError`, ...) that aborts the caller. */
  datatype Result<T> = Ok(value: T) | Threw(reason: string)

  /** What Node.js throws for a field written or read outside its range
      or outside the buffer. */
  const RANGE_ERROR: string := "RangeError [ERR_OUT_OF_RANGE]"

  /** Block size used to tile pieces: 16 KiB. */
  const BLOCK_SIZE: nat := 16 * 1024

  /** Cap on a peer's outstanding block requests. */
  const MAX_PEER_REQUESTS: nat := 5

  /** Declared in the constants, never used by any timeout logic. */
  const PEER_BLOCK_TIMEOUT: nat := 20 * 1000

  const SERVER_PORT: nat := 6969

  function Min(a: int, b: int): int { if a <= b then a else b }

  function Max(a: int, b: int): int { if a >= b then a else b }

  /** 2^k. */
  function Pow2(k: nat): (r: nat)
    ensures r >= 1
  {
    if k == 0 then 1 else 2 * Pow2(k - 1)
  }

  /** 256^w, the number of values a `w`-byte unsigned field can hold. */
  function Pow256(w: nat): (r: nat)
    ensures r >= 1
  {
    if w == 0 then 1 else 0x100 * Pow256(w - 1)
  }

  const U32_LIMIT: nat := 0x1_0000_0000
  const U64_LIMIT: nat := 0x1_0000_0000_0000_0000

  lemma {:induction false} Pow256Values()
    ensures Pow256(2) == 0x1_0000
    ensures Pow256(4) == U32_LIMIT
    ensures Pow256(8) == U64_LIMIT
  {
    assert Pow256(1) == 0x100;
    assert Pow256(2) == 0x1_0000;
    assert Pow256(3) == 0x100_0000;
    assert Pow256(4) == U32_LIMIT;
    assert Pow256(6) == 0x1_0000_0000_0000;
  }
}

=== FILE: legacy_pieces.dfy ===
/** The earlier piece bookkeeping of core/pieces.js, used by
    core/peer_protocol.js: block tiling of a piece and a `requested` table.
    The table is keyed by the block's `begin` offset, not by its piece
    index, yet is queried with piece indices; the model keeps that keying. */
module LegacyPieces {
  import opened Common
  import opened TorrentHelpers

  /** A `Pieces` object of core/pieces.js. `downloaded` is never written and
      is left out. */
  datatype Pieces = Pieces(
    blockSize: nat,
    totalFileLength: nat,
    pieceLength: nat,
    totalPieces: nat,
    requested: map<nat, seq<BlockSpec>>)

  /** The constructor: 16 KiB blocks and an empty table. */
  function NewPieces(totalPieces: nat, pieceLength: nat, totalFileLength: nat): (r: Pieces)
    ensures r.blockSize == BLOCK_SIZE && r.requested == map[]
    ensures r.pieceLength == pieceLength && r.totalFileLength == totalFileLength
  {
    Pieces(16 * 1024, totalFileLength, pieceLength, totalPieces, map[])
  }

  /** `isPieceInRequested(index)`: the key holds an array, and every array
      stored there is truthy. */
  predicate IsPieceInRequested(p: Pieces, index: nat)
  {
    index in p.requested
  }

  /** `addBlockToRequested(block)`: appends the block to the array under its
      `begin` offset, creating the array first. */
  function AddBlockToRequested(p: Pieces, block: BlockSpec): (r: Pieces)
    ensures r.requested.Keys == p.requested.Keys + {block.offset}
    ensures r.requested[block.offset]
      == (if block.offset in p.requested then p.requested[block.offset] else []) + [block]
    ensures forall key :: key in p.requested && key != block.offset ==> r.requested[key] == p.requested[key]
    ensures r.(requested := p.requested) == p
  {
    var prior := if block.offset in p.requested then p.requested[block.offset] else [];
    p.(requested := p.requested[block.offset := prior + [block]])
  }

  /** The table after adding `blocks` one after another. */
  function AddAll(p: Pieces, blocks: seq<BlockSpec>): (r: Pieces)
    decreases |blocks|
  {
    if |blocks| == 0 then p else AddAll(AddBlockToRequested(p, blocks[0]), blocks[1..])
  }

  /** From a fresh table, `isPieceInRequested(i)` holds exactly when some
      added block began at offset `i`: the query sees offsets, not indices. */
  lemma {:induction false} InRequestedIffAdded(p: Pieces, blocks: seq<BlockSpec>, i: nat)
    ensures IsPieceInRequested(AddAll(p, blocks), i) <==>
      IsPieceInRequested(p, i) || exists k :: 0 <= k < |blocks| && blocks[k].offset == i
    decreases |blocks|
  {
    if |blocks| > 0 {
      var q := AddBlockToRequested(p, blocks[0]);
      InRequestedIffAdded(q, blocks[1..], i);
      if exists k :: 0 <= k < |blocks| && blocks[k].offset == i {
        var k :| 0 <= k < |blocks| && blocks[k].offset == i;
        if k > 0 {
          assert blocks[1..][k - 1].offset == i;
        }
      }
      if exists k :: 0 <= k < |blocks[1..]| && blocks[1..][k].offset == i {
        var k :| 0 <= k < |blocks[1..]| && blocks[1..][k].offset == i;
        assert blocks[k + 1].offset == i;
      }
    }
  }

  /** Adding blocks never drops a block already recorded: each array only
      grows at its end. */
  lemma {:induction false} AddAllKeepsPrefix(p: Pieces, blocks: seq<BlockSpec>, key: nat)
    requires key in p.requested
    ensures key in AddAll(p, blocks).requested
    ensures |p.requested[key]| <= |AddAll(p, blocks).requested[key]|
    ensures AddAll(p, blocks).requested[key][..|p.requested[key]|] == p.requested[key]
    decreases |blocks|
  {
    if |blocks| > 0 {
      var q := AddBlockToRequested(p, blocks[0]);
      AddAllKeepsPrefix(q, blocks[1..], key);
      var a := p.requested[key];
      var b := q.requested[key];
      var c := AddAll(q, blocks[1..]).requested[key];
      assert b[..|a|] == a;
      assert c[..|b|] == b;
      assert c[..|a|] == b[..|a|];
    }
  }

  /** `getBlocksForPiece(index)`: the same tiling as the helper of
      lib/torrentHelpers.js with this object's block size. Offsets step by
      the block size from 0, only the last block may be shorter, and the
      lengths add up to the piece length, cut back at the end of the
      content; a piece starting at or past the end has no blocks. */
  function GetBlocksForPiece(p: Pieces, index: nat): (r: seq<BlockSpec>)
    requires p.blockSize > 0
    ensures var pieceStart := index * p.pieceLength;
      && (pieceStart >= p.totalFileLength ==> r == [])
      && (pieceStart + p.pieceLength <= p.totalFileLength ==> SumLengths(r) == p.pieceLength)
      && (pieceStart < p.totalFileLength < pieceStart + p.pieceLength ==>
            SumLengths(r) == p.totalFileLength - pieceStart)
      && (forall k :: 0 <= k < |r| ==>
           && r[k].index == index && r[k].offset == k * p.blockSize
           && 0 < r[k].length <= p.blockSize
           && (k < |r| - 1 ==> r[k].length == p.blockSize))
  {
    BlocksForPieceTiles(index, p.pieceLength, p.totalFileLength, p.blockSize);
    BlocksForPiece(index, p.pieceLength, p.totalFileLength, p.blockSize)
  }
}

=== FILE: messages.dfy ===
/** The message builders of lib/createMessages.js: the peer-wire handshake,
    interested, request, have and bitfield messages (section "peer protocol"
    of BEP 3), and the UDP tracker connect and announce packets (sections
    "Connect" and "Announce" of BEP 15). Each builder is a pure function of
    its arguments; its contract is stated through the field readers of
    module Bytes, so every layout promise is a promise about decoding. */
module Messages {
  import opened Common
  import opened Bytes
  import opened Text

  /** The 19 ASCII bytes of "BitTorrent protocol". */
  function ProtocolBytes(): (r: seq<Byte>)
    ensures |r| == 19
  {
    AsciiBytes("BitTorrent protocol")
  }

  /** `createHandshakeBuffer(infoHash, peerId)`: 68 zero bytes, then 19 at
      0, the protocol string at 1, eight zero bytes at 20, the hex-decoded
      info-hash copied at 28 and the peer id copied at 48. Each copy is
      clipped to the end of the buffer, so an over-long info-hash spills into
      the peer-id field before the peer id overwrites it. */
  function Handshake(infoHash: string, peerId: seq<Byte>): (r: seq<Byte>)
    ensures |r| == 68
    ensures r[0] == 19 && r[1..20] == ProtocolBytes() && r[20..28] == Zeros(8)
    ensures |HexDecode(infoHash)| == 20 ==> r[28..48] == HexDecode(infoHash)
    ensures |peerId| >= 20 ==> r[48..68] == peerId[..20]
  {
    var base := [19] + ProtocolBytes() + Zeros(48);
    var withHash := CopyInto(base, 28, HexDecode(infoHash));
    var r := CopyInto(withHash, 48, peerId);
    assert r[..28] == base[..28];
    assert base[..28] == [19] + ProtocolBytes() + Zeros(8);
    r
  }

  /** A handshake built from a 40-digit lower-case info-hash carries that
      info-hash back in hex at bytes 28..48, which is what a receiving
      connection compares against (core/Peer.js:97-100). */
  lemma {:induction false} HandshakeCarriesInfoHash(infoHash: string, peerId: seq<Byte>)
    requires IsLowerHex(infoHash) && |infoHash| == 40
    ensures Hex(Handshake(infoHash, peerId)[28..48]) == infoHash
  {
    HexHexDecode(infoHash);
  }

  /** `createInterestBuffer()`. */
  function Interested(): (r: seq<Byte>)
    ensures r == [0, 0, 0, 1, 2]
  {
    U32(1) + [2]
  }

  /** `createRequestBlockBuffer(block)`: prefix 13, id 6, then index, offset
      and length. The source throws a RangeError for values outside 32 bits. */
  function Request(index: nat, offset: nat, length: nat): (r: seq<Byte>)
    requires index < U32_LIMIT && offset < U32_LIMIT && length < U32_LIMIT
    ensures |r| == 17
    ensures ReadU32(r, 0) == 13 && r[4] == 6
    ensures ReadU32(r, 5) == index && ReadU32(r, 9) == offset && ReadU32(r, 13) == length
  {
    var r := U32(13) + [6] + U32(index) + U32(offset) + U32(length);
    ReadU32Field(r, 0, 13);
    ReadU32Field(r, 5, index);
    ReadU32Field(r, 9, offset);
    ReadU32Field(r, 13, length);
    r
  }

  /** The request payload (the bytes after the id) read at offsets 0, 4 and
      8, as the receiving side does in core/Peer.js:184-186, yields the
      encoded index, offset and length. */
  lemma {:induction false} RequestPayloadDecodes(index: nat, offset: nat, length: nat)
    requires index < U32_LIMIT && offset < U32_LIMIT && length < U32_LIMIT
    ensures var payload := Request(index, offset, length)[5..];
      |payload| == 12 && ReadU32(payload, 0) == index
      && ReadU32(payload, 4) == offset && ReadU32(payload, 8) == length
  {
    var r := Request(index, offset, length);
    var payload := r[5..];
    assert payload[0..4] == r[5..9];
    assert payload[4..8] == r[9..13];
    assert payload[8..12] == r[13..17];
  }

  /** `createAnnounceHaveBuffer(pieceIndex)`. */
  function Have(pieceIndex: nat): (r: seq<Byte>)
    requires pieceIndex < U32_LIMIT
    ensures |r| == 9
    ensures ReadU32(r, 0) == 5 && r[4] == 4 && ReadU32(r, 5) == pieceIndex
  {
    var r := U32(5) + [4] + U32(pieceIndex);
    ReadU32Field(r, 0, 5);
    ReadU32Field(r, 5, pieceIndex);
    r
  }

  /** `createBitfieldMessage(bitfield)`: prefix 1+N, id 5, the N bytes. */
  function Bitfield(bitfield: seq<Byte>): (r: seq<Byte>)
    requires 1 + |bitfield| < U32_LIMIT
    ensures |r| == 5 + |bitfield|
    ensures ReadU32(r, 0) == |r| - 4 && r[4] == 5 && r[5..] == bitfield
  {
    var r := U32(1 + |bitfield|) + [5] + bitfield;
    ReadU32Field(r, 0, 1 + |bitfield|);
    r
  }

  /** The magic protocol id of a UDP tracker connect request. */
  const UDP_PROTOCOL_ID: nat := 0x417_2710_1980

  /** `createUdpConnectPacket(transactionId)`. */
  function UdpConnect(transactionId: nat): (r: seq<Byte>)
    requires transactionId < U32_LIMIT
    ensures |r| == 16
    ensures ReadBE(r, 0, 8) == UDP_PROTOCOL_ID
    ensures ReadU32(r, 8) == 0 && ReadU32(r, 12) == transactionId
  {
    Pow256Values();
    var r := U64(UDP_PROTOCOL_ID) + U32(0) + U32(transactionId);
    ReadBEField(r, 0, 8, UDP_PROTOCOL_ID);
    ReadU32Field(r, 8, 0);
    ReadU32Field(r, 12, transactionId);
    r
  }

  /** Key field sent in every announce. */
  const ANNOUNCE_KEY: nat := 79012
  /** Port advertised in every announce. */
  const ANNOUNCE_PORT: nat := 6881
  /** `writeInt32BE(-1)`: the two's complement of -1 as an unsigned field. */
  const NUM_WANT_DEFAULT: nat := 0xFFFF_FFFF

  /** The tail of an announce packet from byte 56: downloaded 0, left,
      uploaded 0, event 0, ip 0, key, num_want -1, port. */
  function AnnounceTail(left: nat): (r: seq<Byte>)
    requires left < U64_LIMIT
    ensures |r| == 42
  {
    U64(0) + (U64(left) + (U64(0) + (U32(0) + (U32(0) + (U32(ANNOUNCE_KEY)
      + (U32(NUM_WANT_DEFAULT) + U16(ANNOUNCE_PORT)))))))
  }

  /** Where the eight fields of the announce tail sit. */
  lemma {:induction false} TailLayout(a: seq<Byte>, b: seq<Byte>, c: seq<Byte>, d: seq<Byte>,
                   e: seq<Byte>, f: seq<Byte>, g: seq<Byte>, h: seq<Byte>)
    requires |a| == |b| == |c| == 8 && |d| == |e| == |f| == |g| == 4 && |h| == 2
    ensures var t := a + (b + (c + (d + (e + (f + (g + h))))));
      t[0..8] == a && t[8..16] == b && t[16..24] == c && t[24..28] == d
      && t[28..32] == e && t[32..36] == f && t[36..40] == g && t[40..42] == h
  {
  }

  /** Each field of the announce tail reads back at its offset. */
  lemma {:induction false} AnnounceTailFields(left: nat)
    requires left < U64_LIMIT
    ensures var t := AnnounceTail(left);
      ReadBE(t, 0, 8) == 0 && ReadBE(t, 8, 8) == left && ReadBE(t, 16, 8) == 0
      && ReadBE(t, 24, 4) == 0 && ReadBE(t, 28, 4) == 0 && ReadBE(t, 32, 4) == ANNOUNCE_KEY
      && ReadBE(t, 36, 4) == NUM_WANT_DEFAULT && ReadBE(t, 40, 2) == ANNOUNCE_PORT
  {
    Pow256Values();
    var t := AnnounceTail(left);
    TailLayout(U64(0), U64(left), U64(0), U32(0), U32(0), U32(ANNOUNCE_KEY),
               U32(NUM_WANT_DEFAULT), U16(ANNOUNCE_PORT));
    ReadBEField(t, 0, 8, 0);
    ReadBEField(t, 8, 8, left);
    ReadBEField(t, 16, 8, 0);
    ReadBEField(t, 24, 4, 0);
    ReadBEField(t, 28, 4, 0);
    ReadBEField(t, 32, 4, ANNOUNCE_KEY);
    ReadBEField(t, 36, 4, NUM_WANT_DEFAULT);
    ReadBEField(t, 40, 2, ANNOUNCE_PORT);
  }

  /** The first 56 bytes of an announce request: connection id, action 1
      (announce), transaction id, then the info-hash copied at 16 and the peer
      id copied at 36, each clipped to the 98-byte buffer. */
  function AnnounceHead(infoHash: string, peerId: seq<Byte>, connectionId: nat,
                        transactionId: nat): (r: seq<Byte>)
    requires connectionId < U64_LIMIT && transactionId < U32_LIMIT
    ensures |r| == 56
  {
    var head := U64(connectionId) + U32(1) + U32(transactionId);
    var withHash := CopyInto(head + Zeros(82), 16, HexDecode(infoHash));
    var withPeer := CopyInto(withHash, 36, peerId);
    withPeer[..56]
  }

  lemma {:induction false} AnnounceHeadFields(infoHash: string, peerId: seq<Byte>, connectionId: nat,
                           transactionId: nat)
    requires connectionId < U64_LIMIT && transactionId < U32_LIMIT
    ensures var r := AnnounceHead(infoHash, peerId, connectionId, transactionId);
      ReadBE(r, 0, 8) == connectionId && ReadBE(r, 8, 4) == 1
      && ReadBE(r, 12, 4) == transactionId
      && (|HexDecode(infoHash)| == 20 ==> r[16..36] == HexDecode(infoHash))
      && (|peerId| == 20 ==> r[36..56] == peerId)
  {
    Pow256Values();
    var head := U64(connectionId) + U32(1) + U32(transactionId);
    var r := AnnounceHead(infoHash, peerId, connectionId, transactionId);
    assert r[..16] == head;
    assert r[0..8] == head[0..8] == U64(connectionId);
    assert r[8..12] == head[8..12] == U32(1);
    assert r[12..16] == head[12..16] == U32(transactionId);
    ReadBEField(r, 0, 8, connectionId);
    ReadBEField(r, 8, 4, 1);
    ReadBEField(r, 12, 4, transactionId);
  }

  /** `createUdpAnnounceRequest(infoHash, peerId, connectionId,
      transactionId, totalFileLength)`: a 98-byte buffer written field by
      field; the fixed tail from byte 56 is written over whatever the clipped
      copies of the info-hash and peer id left there. */
  function UdpAnnounce(infoHash: string, peerId: seq<Byte>, connectionId: nat,
                       transactionId: nat, left: nat): (r: seq<Byte>)
    requires connectionId < U64_LIMIT && transactionId < U32_LIMIT && left < U64_LIMIT
    ensures |r| == 98
  {
    AnnounceHead(infoHash, peerId, connectionId, transactionId) + AnnounceTail(left)
  }

  /** Every field of the announce request reads back as written. */
  lemma {:induction false} UdpAnnounceFields(infoHash: string, peerId: seq<Byte>, connectionId: nat,
                          transactionId: nat, left: nat)
    requires connectionId < U64_LIMIT && transactionId < U32_LIMIT && left < U64_LIMIT
    ensures var r := UdpAnnounce(infoHash, peerId, connectionId, transactionId, left);
      ReadBE(r, 0, 8) == connectionId
      && ReadU32(r, 8) == 1 && ReadU32(r, 12) == transactionId
      && (|HexDecode(infoHash)| == 20 ==> r[16..36] == HexDecode(infoHash))
      && (|peerId| == 20 ==> r[36..56] == peerId)
      && ReadBE(r, 56, 8) == 0 && ReadBE(r, 64, 8) == left && ReadBE(r, 72, 8) == 0
      && ReadU32(r, 80) == 0 && ReadU32(r, 84) == 0 && ReadU32(r, 88) == ANNOUNCE_KEY
      && ReadU32(r, 92) == NUM_WANT_DEFAULT && ReadBE(r, 96, 2) == ANNOUNCE_PORT
  {
    AnnouncePrefixFields(infoHash, peerId, connectionId, transactionId, AnnounceTail(left));
    AnnounceSuffixFields(AnnounceHead(infoHash, peerId, connectionId, transactionId), left);
  }

  /** The head's fields keep their offsets whatever follows them. */
  lemma {:induction false} AnnouncePrefixFields(infoHash: string, peerId: seq<Byte>, connectionId: nat,
                                                transactionId: nat, tail: seq<Byte>)
    requires connectionId < U64_LIMIT && transactionId < U32_LIMIT
    ensures var r := AnnounceHead(infoHash, peerId, connectionId, transactionId) + tail;
      ReadBE(r, 0, 8) == connectionId
      && ReadU32(r, 8) == 1 && ReadU32(r, 12) == transactionId
      && (|HexDecode(infoHash)| == 20 ==> r[16..36] == HexDecode(infoHash))
      && (|peerId| == 20 ==> r[36..56] == peerId)
  {
    var pre := AnnounceHead(infoHash, peerId, connectionId, transactionId);
    AnnounceHeadFields(infoHash, peerId, connectionId, transactionId);
    ReadBEPrefix(pre, tail, 0, 8);
    ReadBEPrefix(pre, tail, 8, 4);
    ReadBEPrefix(pre, tail, 12, 4);
    SlicePrefix(pre, tail, 16, 36);
    SlicePrefix(pre, tail, 36, 56);
  }

  /** The tail's fields sit 56 bytes further on behind a 56-byte head. */
  lemma {:induction false} AnnounceSuffixFields(pre: seq<Byte>, left: nat)
    requires |pre| == 56 && left < U64_LIMIT
    ensures var r := pre + AnnounceTail(left);
      ReadBE(r, 56, 8) == 0 && ReadBE(r, 64, 8) == left && ReadBE(r, 72, 8) == 0
      && ReadU32(r, 80) == 0 && ReadU32(r, 84) == 0 && ReadU32(r, 88) == ANNOUNCE_KEY
      && ReadU32(r, 92) == NUM_WANT_DEFAULT && ReadBE(r, 96, 2) == ANNOUNCE_PORT
  {
    var tail := AnnounceTail(left);
    AnnounceTailFields(left);
    ReadBESkip(pre, tail, 0, 8);
    ReadBESkip(pre, tail, 8, 8);
    ReadBESkip(pre, tail, 16, 8);
    ReadBESkip(pre, tail, 24, 4);
    ReadBESkip(pre, tail, 28, 4);
    ReadBESkip(pre, tail, 32, 4);
    ReadBESkip(pre, tail, 36, 4);
    ReadBESkip(pre, tail, 40, 2);
  }
}

=== FILE: peer.dfy ===
/** One peer connection of core/Peer.js: the accumulate-then-frame loop
    `listenData`, the handlers it dispatches to, `requestBlock`,
    `sendInterest` and `isPeerFree`. Socket writes and the callbacks into
    the pool are returned as events. A piece message goes straight to the
    shared piece store, as the source calls `markBlockDownloaded`
    synchronously, so an exception thrown there ends the loop. */
module Peer {
  import opened Common
  import opened Bytes
  import opened Text
  import Messages
  import TorrentHelpers
  import PieceFiles
  import opened PieceStore

  /** A `requestedQueue` entry: the block handed to `requestBlock` and the
      time of the request. */
  datatype Queued = Queued(block: Block, requested: int)

  /** The fields of a `Peer` that the protocol logic reads and writes. */
  datatype PeerState = PeerState(
    infoHash: string,
    handshaken: bool,
    peerChoking: bool,
    amChoking: bool,
    peerInterested: bool,
    amInterested: bool,
    bitfieldReceived: bool,
    queue: seq<Queued>)

  /** What the connection does outside its own fields. */
  datatype Event =
    | Connected                                   // connectSuccessCallback()
    | Disconnected                                // disconnect()
    | Wrote(bytes: seq<Byte>)                     // socket.write(buf)
    | AddBitfield(pieces: seq<nat>)               // handleAddBitfieldCallback(pieces)
    | Saved(writes: seq<PieceFiles.FileWrite>)    // a verified piece saved to its files

  /** What the connection reads of the rest of the client: the SHA-1 used by
      `verifyPiece`, and the bytes `globalPieces.createBitfield()` returns
      (core/Pieces.js has no such method; the bytes are a parameter). */
  datatype Env = Env(sha1: seq<Byte> -> Digest, ownBitfield: seq<Byte>)

  /** The fields the constructor sets. */
  function InitialPeer(infoHash: string): (r: PeerState)
    ensures r.infoHash == infoHash && !r.handshaken && r.queue == []
  {
    PeerState(infoHash, false, true, true, false, false, false, [])
  }

  /** `isPeerFree()`. */
  predicate IsPeerFree(p: PeerState)
  {
    !p.peerChoking && p.bitfieldReceived && |p.queue| < MAX_PEER_REQUESTS
  }

  /** A new connection is not free: it is choked and has no bitfield. */
  lemma {:induction false} InitialNotFree(infoHash: string)
    ensures !IsPeerFree(InitialPeer(infoHash))
    ensures InitialPeer(infoHash).peerChoking && !InitialPeer(infoHash).bitfieldReceived
  {
  }

  // ---------------------------------------------------------- handlers

  /** The result of a handler that does not touch the piece store. */
  datatype Handled = Handled(peer: PeerState, events: seq<Event>, thrown: Option<string>)

  /** `sendInterest()`: writes the interested message and records it. */
  function SendInterest(p: PeerState): (r: Handled)
    ensures r.events == [Wrote([0, 0, 0, 1, 2])] && r.thrown.None?
    ensures r.peer.amInterested && r.peer == p.(amInterested := true)
  {
    Handled(p.(amInterested := true), [Wrote(Messages.Interested())], None)
  }

  /** `handleBitfield(payload)`: reports the advertised pieces to the pool,
      records that a bitfield arrived and sends interest. */
  function HandleBitfield(p: PeerState, payload: seq<Byte>): (r: Handled)
    ensures r.thrown.None? && |r.events| == 2 && r.events[1] == Wrote([0, 0, 0, 1, 2])
    ensures r.events[0].AddBitfield?
    ensures forall k: nat :: k in r.events[0].pieces <==> TorrentHelpers.Advertised(payload, k)
    ensures TorrentHelpers.StrictlyAscending(r.events[0].pieces)
    ensures r.peer == p.(bitfieldReceived := true, amInterested := true)
  {
    TorrentHelpers.PiecesFromBitfieldSpec(payload);
    var interest := SendInterest(p.(bitfieldReceived := true));
    Handled(interest.peer, [AddBitfield(TorrentHelpers.PiecesFromBitfield(payload))] + interest.events, None)
  }

  predicate SameBlock(e: Queued, index: nat, offset: nat)
  {
    e.block.index == index && e.block.offset == offset
  }

  /** The filter of `handleReceivePiece`: the entries that do not name the
      delivered (index, offset), in order. */
  function RemoveMatching(queue: seq<Queued>, index: nat, offset: nat): (r: seq<Queued>)
    ensures forall e :: e in r <==> e in queue && !SameBlock(e, index, offset)
    ensures |r| <= |queue|
    decreases |queue|
  {
    if |queue| == 0 then []
    else (if SameBlock(queue[0], index, offset) then [] else [queue[0]])
         + RemoveMatching(queue[1..], index, offset)
  }

  /** A queue with no matching entry passes the filter unchanged. */
  lemma {:induction false} RemoveMatchingNone(queue: seq<Queued>, index: nat, offset: nat)
    requires forall k :: 0 <= k < |queue| ==> !SameBlock(queue[k], index, offset)
    ensures RemoveMatching(queue, index, offset) == queue
    decreases |queue|
  {
    if |queue| > 0 {
      RemoveMatchingNone(queue[1..], index, offset);
    }
  }

  /** `requestBlock(block)`: writes the request message and appends one
      queue entry. Building the message throws for a field outside 32
      bits, before anything is written or queued. */
  function RequestBlock(p: PeerState, block: Block, now: int): (r: Handled)
    ensures r.thrown.None? <==>
      block.index < U32_LIMIT && 0 <= block.offset < U32_LIMIT && 0 <= block.length < U32_LIMIT
    ensures r.thrown.Some? ==> r.peer == p && r.events == []
    ensures r.thrown.None? ==>
      && r.peer == p.(queue := p.queue + [Queued(block, now)])
      && |r.events| == 1 && r.events[0].Wrote?
      && var msg := r.events[0].bytes;
         |msg| == 17 && ReadU32(msg, 0) == 13 && msg[4] == 6 && ReadU32(msg, 5) == block.index
         && ReadU32(msg, 9) == block.offset && ReadU32(msg, 13) == block.length
  {
    if block.index < U32_LIMIT && 0 <= block.offset < U32_LIMIT && 0 <= block.length < U32_LIMIT then
      Handled(p.(queue := p.queue + [Queued(block, now)]),
              [Wrote(Messages.Request(block.index, block.offset, block.length))], None)
    else Handled(p, [], Some(RANGE_ERROR))
  }

  /** A free peer asked for one block never holds more than
      MAX_PEER_REQUESTS outstanding requests. */
  lemma {:induction false} RequestWithinLimit(p: PeerState, block: Block, now: int)
    requires IsPeerFree(p)
    ensures |RequestBlock(p, block, now).peer.queue| <= MAX_PEER_REQUESTS
  {
  }

  /** The result of a handler that may reach the piece store. */
  datatype Dispatched = Dispatched(peer: PeerState, store: Store, events: seq<Event>, thrown: Option<string>)

  /** `handleReceivePiece(payload)`: index at 0, offset at 4, the data after;
      every queue entry for (index, offset) is dropped and the block goes to
      `markBlockDownloaded`. A payload shorter than 8 bytes throws. */
  function HandleReceivePiece(p: PeerState, s: Store, env: Env, payload: seq<Byte>): (r: Dispatched)
    requires Valid(s)
    ensures Valid(r.store)
    ensures |payload| < 8 ==> r == Dispatched(p, s, [], Some(RANGE_ERROR))
    ensures |payload| >= 8 ==>
      var index := ReadU32(payload, 0);
      var offset := ReadU32(payload, 4);
      var step := MarkBlockDownloaded(s, env.sha1, index, offset, payload[8..]);
      && r.peer == p.(queue := RemoveMatching(p.queue, index, offset))
      && r.store == step.store && r.thrown == step.thrown
      && r.events == (if step.writes == [] then [] else [Saved(step.writes)])
  {
    if |payload| < 8 then Dispatched(p, s, [], Some(RANGE_ERROR))
    else
      var index := ReadU32(payload, 0);
      var offset := ReadU32(payload, 4);
      var step := MarkBlockDownloaded(s, env.sha1, index, offset, payload[8..]);
      Dispatched(p.(queue := RemoveMatching(p.queue, index, offset)), step.store,
                 if step.writes == [] then [] else [Saved(step.writes)], step.thrown)
  }

  /** Receiving the block a request asked for clears that request. */
  lemma {:induction false} ReceiveClearsRequest(p: PeerState, s: Store, env: Env, block: Block, now: int,
                                                data: seq<Byte>)
    requires Valid(s) && block.index < U32_LIMIT && 0 <= block.offset < U32_LIMIT && 0 <= block.length < U32_LIMIT
    ensures var asked := RequestBlock(p, block, now).peer;
      var r := HandleReceivePiece(asked, s, env, U32(block.index) + U32(block.offset) + data);
      && Queued(block, now) in asked.queue
      && Queued(block, now) !in r.peer.queue
      && |r.peer.queue| < |asked.queue|
  {
    var asked := RequestBlock(p, block, now).peer;
    var payload := U32(block.index) + U32(block.offset) + data;
    ReadU32At([], block.index, U32(block.offset) + data);
    assert payload == [] + U32(block.index) + (U32(block.offset) + data);
    ReadU32At(U32(block.index), block.offset, data);
    var q := RemoveMatching(asked.queue, block.index, block.offset);
    assert Queued(block, now) == asked.queue[|asked.queue| - 1];
    RemoveMatchingShrinks(asked.queue, block.index, block.offset, |asked.queue| - 1);
  }

  /** Dropping a matching entry makes the queue strictly shorter. */
  lemma {:induction false} RemoveMatchingShrinks(queue: seq<Queued>, index: nat, offset: nat, k: nat)
    requires k < |queue| && SameBlock(queue[k], index, offset)
    ensures |RemoveMatching(queue, index, offset)| < |queue|
    decreases |queue|
  {
    if k > 0 {
      RemoveMatchingShrinks(queue[1..], index, offset, k - 1);
    }
  }

  /** Receiving a piece keeps a free peer free: it only shortens the queue. */
  lemma {:induction false} ReceiveKeepsFree(p: PeerState, s: Store, env: Env, payload: seq<Byte>)
    requires Valid(s) && IsPeerFree(p)
    ensures IsPeerFree(HandleReceivePiece(p, s, env, payload).peer)
  {
  }

  /** The `switch` on the message id. */
  function Dispatch(p: PeerState, s: Store, env: Env, id: Byte, payload: seq<Byte>): (r: Dispatched)
    requires Valid(s)
    ensures Valid(r.store)
    ensures r.peer.handshaken == p.handshaken && r.peer.infoHash == p.infoHash
    ensures id == 0 ==> r == Dispatched(p.(peerChoking := true), s, [], None)
    ensures id == 1 ==> r == Dispatched(p.(peerChoking := false), s, [], None)
    ensures id == 5 ==> r.store == s && r.thrown.None? && r.peer == p.(bitfieldReceived := true, amInterested := true)
    ensures id == 6 ==> r == Dispatched(p, s, [], if |payload| < 12 then Some(RANGE_ERROR) else None)
    ensures id == 7 ==> r == HandleReceivePiece(p, s, env, payload)
    ensures id !in {0, 1, 5, 6, 7} ==> r == Dispatched(p, s, [], None)
  {
    if id == 0 then Dispatched(p.(peerChoking := true), s, [], None)
    else if id == 1 then Dispatched(p.(peerChoking := false), s, [], None)
    else if id == 5 then
      var h := HandleBitfield(p, payload);
      Dispatched(h.peer, s, h.events, h.thrown)
    else if id == 6 then
      // handleRequestFromPeer reads three fields and only logs them
      Dispatched(p, s, [], if |payload| < 12 then Some(RANGE_ERROR) else None)
    else if id == 7 then HandleReceivePiece(p, s, env, payload)
    else Dispatched(p, s, [], None)
  }

  // ------------------------------------------------------------ framing

  /** The outcome of a `listenData` call: the connection's fields, the
      saved buffer, the piece store, what was done outside, and the
      exception that ended the call, if any. */
  datatype Fed = Fed(peer: PeerState, buffer: seq<Byte>, store: Store, events: seq<Event>,
                     thrown: Option<string>)

  /** The `while` loop of `listenData` over the saved buffer. */
  function Drain(p: PeerState, s: Store, env: Env, buf: seq<Byte>): (r: Fed)
    requires Valid(s)
    ensures Valid(r.store) && r.peer.handshaken == p.handshaken && r.peer.infoHash == p.infoHash
    ensures |r.buffer| <= |buf|
    ensures r.thrown.None? ==> |r.buffer| < 4 || !p.handshaken || |r.buffer| < ReadU32(r.buffer, 0) + 4
    decreases |buf|
  {
    if |buf| < 4 || !p.handshaken then Fed(p, buf, s, [], None)
    else
      var length := ReadU32(buf, 0);
      if length == 0 then Drain(p, s, env, buf[4..])
      else if |buf| < length + 4 then Fed(p, buf, s, [], None)
      else
        var d := Dispatch(p, s, env, buf[4], buf[5..length + 4]);
        if d.thrown.Some? then Fed(d.peer, buf[length + 4..], d.store, d.events, d.thrown)
        else
          var rest := Drain(d.peer, d.store, env, buf[length + 4..]);
          Fed(rest.peer, rest.buffer, rest.store, d.events + rest.events, rest.thrown)
  }

  /** The handshake branch of `listenData` on the first 68 buffered bytes:
      the info-hash at 28..48, in hex, must equal the connection's. On a
      match the connection is marked handshaken, reports success and sends
      its own bitfield; otherwise it disconnects. */
  function HandshakeStep(p: PeerState, chunk: seq<Byte>, own: seq<Byte>): (r: Handled)
    requires |chunk| == 68
    ensures r.peer.handshaken <==> p.handshaken || Hex(chunk[28..48]) == p.infoHash
    ensures r.peer.infoHash == p.infoHash
    ensures Hex(chunk[28..48]) != p.infoHash ==> r == Handled(p, [Disconnected], None)
    ensures Hex(chunk[28..48]) == p.infoHash ==>
      && r.peer == p.(handshaken := true) && |r.events| >= 1 && r.events[0] == Connected
      && (r.thrown.None? <==> 1 + |own| < U32_LIMIT)
      && (r.thrown.None? ==> r.events == [Connected, Wrote(Messages.Bitfield(own))])
  {
    if Hex(chunk[28..48]) == p.infoHash then
      var q := p.(handshaken := true);
      if 1 + |own| < U32_LIMIT then Handled(q, [Connected, Wrote(Messages.Bitfield(own))], None)
      else Handled(q, [Connected], Some(RANGE_ERROR))
    else Handled(p, [Disconnected], None)
  }

  /** Events done before a loop run, put in front of its own. */
  function Prepend(events: seq<Event>, f: Fed): Fed
  {
    f.(events := events + f.events)
  }

  /** The rest of `listenData` after the handshake branch ran on the first
      68 bytes, with `rest` the bytes after them. */
  function AfterHandshake(h: Handled, s: Store, env: Env, rest: seq<Byte>): (r: Fed)
    requires Valid(s)
    ensures Valid(r.store) && r.peer.infoHash == h.peer.infoHash
  {
    if h.thrown.Some? then Fed(h.peer, rest, s, h.events, h.thrown)
    else Prepend(h.events, Drain(h.peer, s, env, rest))
  }

  /** `listenData(data)`: append the data to the saved buffer; if not yet
      handshaken and 68 bytes are there, handle the handshake; then frame
      and dispatch messages while the handshake is done. */
  function Feed(p: PeerState, s: Store, env: Env, buf: seq<Byte>, data: seq<Byte>): (r: Fed)
    requires Valid(s)
    ensures Valid(r.store) && r.peer.infoHash == p.infoHash
  {
    Listen(p, s, env, buf + data)
  }

  /** `listenData` once the data is appended: `all` is the saved buffer. */
  function Listen(p: PeerState, s: Store, env: Env, all: seq<Byte>): (r: Fed)
    requires Valid(s)
    ensures Valid(r.store) && r.peer.infoHash == p.infoHash
  {
    if |all| >= 4 && !p.handshaken && |all| >= 68 then
      AfterHandshake(HandshakeStep(p, all[..68], env.ownBitfield), s, env, all[68..])
    else Drain(p, s, env, all)
  }

  /** Before the handshake, fewer than 68 bytes are only saved. From 68 on,
      exactly the first 68 are taken as the handshake: the connection is
      handshaken afterwards exactly when their info-hash matches, its first
      events are the handshake's, and on a mismatch it disconnects and
      nothing else happens. */
  lemma {:induction false} FeedHandshakeSpec(p: PeerState, s: Store, env: Env, buf: seq<Byte>, data: seq<Byte>)
    requires Valid(s) && !p.handshaken
    ensures var r := Feed(p, s, env, buf, data);
      && (|buf + data| < 68 ==> r == Fed(p, buf + data, s, [], None))
      && (|buf + data| >= 68 ==>
            var h := HandshakeStep(p, (buf + data)[..68], env.ownBitfield);
            && r.peer.handshaken == (Hex((buf + data)[28..48]) == p.infoHash)
            && |r.events| >= |h.events| && r.events[..|h.events|] == h.events
            && (!h.peer.handshaken ==> r == Fed(p, (buf + data)[68..], s, [Disconnected], None)))
  {
    var all := buf + data;
    assert Feed(p, s, env, buf, data) == Listen(p, s, env, all);
    if |all| >= 68 {
      var h := HandshakeStep(p, all[..68], env.ownBitfield);
      assert all[..68][28..48] == all[28..48];
      if h.thrown.None? {
        var d := Drain(h.peer, s, env, all[68..]);
        assert Listen(p, s, env, all) == Prepend(h.events, d);
        assert (h.events + d.events)[..|h.events|] == h.events;
      }
    }
  }

  // ------------------------------------------- reference framing

  /** A frame of the peer wire: a keep-alive (length prefix 0) or a message
      with its id and payload. */
  datatype Frame = KeepAlive | Message(id: Byte, payload: seq<Byte>)

  predicate Fits(frames: seq<Frame>)
  {
    forall k :: 0 <= k < |frames| ==> frames[k].Message? ==> 1 + |frames[k].payload| < U32_LIMIT
  }

  /** The wire form of a frame: its 4-byte big-endian length, then the id
      and payload. */
  function EncodeFrame(f: Frame): (r: seq<Byte>)
    requires f.Message? ==> 1 + |f.payload| < U32_LIMIT
    ensures |r| >= 4
  {
    match f
    case KeepAlive => U32(0)
    case Message(id, payload) => U32(1 + |payload|) + [id] + payload
  }

  function EncodeFrames(frames: seq<Frame>): (r: seq<Byte>)
    requires Fits(frames)
  {
    if |frames| == 0 then [] else EncodeFrame(frames[0]) + EncodeFrames(frames[1..])
  }

  /** Bytes that do not yet hold a whole frame. */
  predicate Incomplete(rest: seq<Byte>)
  {
    |rest| < 4 || (ReadU32(rest, 0) != 0 && |rest| < ReadU32(rest, 0) + 4)
  }

  datatype Framed = Framed(frames: seq<Frame>, rest: seq<Byte>)

  /** The complete frames at the front of a buffer, in order, and the
      incomplete remainder. */
  function Frames(buf: seq<Byte>): (r: Framed)
    decreases |buf|
  {
    if |buf| < 4 then Framed([], buf)
    else
      var length := ReadU32(buf, 0);
      if length == 0 then
        var tail := Frames(buf[4..]);
        Framed([KeepAlive] + tail.frames, tail.rest)
      else if |buf| < length + 4 then Framed([], buf)
      else
        var tail := Frames(buf[length + 4..]);
        Framed([Message(buf[4], buf[5..length + 4])] + tail.frames, tail.rest)
  }

  /** A 4-byte prefix is the encoding of the length it reads as. */
  lemma {:induction false} PrefixEncodes(buf: seq<Byte>)
    requires |buf| >= 4
    ensures ReadU32(buf, 0) < U32_LIMIT && U32(ReadU32(buf, 0)) == buf[..4]
  {
    Pow256Values();
    ToFromBE(buf[0..4]);
    assert buf[0..4] == buf[..4];
  }

  /** Framing splits a buffer without loss: the frames, encoded again and
      followed by the remainder, are the buffer, and the remainder holds no
      whole frame. */
  lemma {:induction false} FramesSpec(buf: seq<Byte>)
    ensures Fits(Frames(buf).frames)
    ensures EncodeFrames(Frames(buf).frames) + Frames(buf).rest == buf
    ensures Incomplete(Frames(buf).rest)
    decreases |buf|
  {
    if |buf| >= 4 {
      var length := ReadU32(buf, 0);
      if length == 0 {
        FramesSpec(buf[4..]);
        FramesKeepAliveStep(buf);
      } else if |buf| >= length + 4 {
        FramesSpec(buf[length + 4..]);
        FramesMessageStep(buf);
      }
    }
  }

  lemma {:induction false} FramesKeepAliveStep(buf: seq<Byte>)
    requires |buf| >= 4 && ReadU32(buf, 0) == 0
    requires Fits(Frames(buf[4..]).frames)
    requires EncodeFrames(Frames(buf[4..]).frames) + Frames(buf[4..]).rest == buf[4..]
    ensures Frames(buf) == Framed([KeepAlive] + Frames(buf[4..]).frames, Frames(buf[4..]).rest)
    ensures Fits(Frames(buf).frames)
    ensures EncodeFrames(Frames(buf).frames) + Frames(buf).rest == buf
  {
    var tail := Frames(buf[4..]);
    assert Frames(buf) == Framed([KeepAlive] + tail.frames, tail.rest);
    EncodeCons(KeepAlive, tail.frames);
    PrefixEncodes(buf);
    Rejoin(U32(0), EncodeFrames(tail.frames), tail.rest, buf, 4);
  }

  lemma {:induction false} FramesMessageStep(buf: seq<Byte>)
    requires |buf| >= 4 && ReadU32(buf, 0) != 0 && |buf| >= ReadU32(buf, 0) + 4
    requires Fits(Frames(buf[ReadU32(buf, 0) + 4..]).frames)
    requires EncodeFrames(Frames(buf[ReadU32(buf, 0) + 4..]).frames) + Frames(buf[ReadU32(buf, 0) + 4..]).rest
             == buf[ReadU32(buf, 0) + 4..]
    ensures Frames(buf).rest == Frames(buf[ReadU32(buf, 0) + 4..]).rest
    ensures Fits(Frames(buf).frames)
    ensures EncodeFrames(Frames(buf).frames) + Frames(buf).rest == buf
  {
    var length := ReadU32(buf, 0);
    var tail := Frames(buf[length + 4..]);
    var head := Message(buf[4], buf[5..length + 4]);
    assert Frames(buf) == Framed([head] + tail.frames, tail.rest);
    EncodeCons(head, tail.frames);
    PrefixEncodes(buf);
    MessageBytes(buf, length);
    Rejoin(EncodeFrame(head), EncodeFrames(tail.frames), tail.rest, buf, length + 4);
  }

  lemma {:induction false} EncodeCons(f: Frame, fs: seq<Frame>)
    requires f.Message? ==> 1 + |f.payload| < U32_LIMIT
    requires Fits(fs)
    ensures Fits([f] + fs)
    ensures EncodeFrames([f] + fs) == EncodeFrame(f) + EncodeFrames(fs)
  {
    assert ([f] + fs)[1..] == fs;
  }

  /** A buffer is its first k bytes followed by the rest. */
  lemma {:induction false} Rejoin(x: seq<Byte>, e: seq<Byte>, rest: seq<Byte>, buf: seq<Byte>, k: nat)
    requires k <= |buf| && x == buf[..k] && e + rest == buf[k..]
    ensures (x + e) + rest == buf
  {
    assert (x + e) + rest == x + (e + rest);
  }

  /** A whole message is its length prefix, id and payload. */
  lemma {:induction false} MessageBytes(buf: seq<Byte>, length: nat)
    requires 1 <= length && length + 4 <= |buf| && length < U32_LIMIT && U32(length) == buf[..4]
    ensures EncodeFrame(Message(buf[4], buf[5..length + 4])) == buf[..length + 4]
  {
    assert buf[..length + 4] == buf[..4] + [buf[4]] + buf[5..length + 4];
  }

  /** A whole message at the front of a buffer comes out as the first
      frame, whatever follows it. */
  lemma {:induction false} FramesHead(msg: seq<Byte>, rest: seq<Byte>)
    requires |msg| >= 5 && ReadU32(msg, 0) == |msg| - 4
    ensures Frames(msg + rest) == Framed([Message(msg[4], msg[5..])] + Frames(rest).frames, Frames(rest).rest)
  {
    var buf := msg + rest;
    ReadBEPrefix(msg, rest, 0, 4);
    assert buf[|msg|..] == rest;
    assert buf[5..|msg|] == msg[5..];
  }

  /** The loop dispatches the buffer's frames in order: it is the frames'
      dispatch one after another, leaving the incomplete remainder (or,
      when a handler throws, the bytes after that frame). */
  function DispatchAll(p: PeerState, s: Store, env: Env, frames: seq<Frame>, rest: seq<Byte>): (r: Fed)
    requires Valid(s) && Fits(frames)
    ensures Valid(r.store)
    decreases |frames|
  {
    if |frames| == 0 then Fed(p, rest, s, [], None)
    else match frames[0]
      case KeepAlive => DispatchAll(p, s, env, frames[1..], rest)
      case Message(id, payload) =>
        var d := Dispatch(p, s, env, id, payload);
        if d.thrown.Some? then Fed(d.peer, EncodeFrames(frames[1..]) + rest, d.store, d.events, d.thrown)
        else
          var r := DispatchAll(d.peer, d.store, env, frames[1..], rest);
          Fed(r.peer, r.buffer, r.store, d.events + r.events, r.thrown)
  }

  /** Once handshaken, the loop of `listenData` is framing followed by
      dispatch of each frame in arrival order. */
  lemma {:induction false} DrainFrames(p: PeerState, s: Store, env: Env, buf: seq<Byte>)
    requires Valid(s) && p.handshaken
    ensures Fits(Frames(buf).frames)
    ensures Drain(p, s, env, buf) == DispatchAll(p, s, env, Frames(buf).frames, Frames(buf).rest)
    decreases |buf|
  {
    FramesSpec(buf);
    if |buf| >= 4 {
      var length := ReadU32(buf, 0);
      if length == 0 {
        DrainFrames(p, s, env, buf[4..]);
        assert Frames(buf).frames[1..] == Frames(buf[4..]).frames;
      } else if |buf| >= length + 4 {
        var tail := buf[length + 4..];
        FramesSpec(tail);
        assert Frames(buf).frames[1..] == Frames(tail).frames;
        var d := Dispatch(p, s, env, buf[4], buf[5..length + 4]);
        if d.thrown.None? {
          DrainFrames(d.peer, d.store, env, tail);
        }
      }
    }
  }

  // ---------------------------------------------- chunking independence

  /** Draining `buf`, appending `more` to what is left and draining again
      is draining `buf + more` at once, when the first drain did not throw. */
  predicate AppendsCleanly(p: PeerState, s: Store, env: Env, buf: seq<Byte>, more: seq<Byte>)
    requires Valid(s)
  {
    var r1 := Drain(p, s, env, buf);
    r1.thrown.None? ==>
      var r2 := Drain(r1.peer, r1.store, env, r1.buffer + more);
      Drain(p, s, env, buf + more) == Fed(r2.peer, r2.buffer, r2.store, r1.events + r2.events, r2.thrown)
  }

  /** Once handshaken, the loop does not depend on how the bytes were
      split: draining, appending more bytes and draining again is draining
      the whole at once. */
  lemma {:induction false} DrainAppend(p: PeerState, s: Store, env: Env, buf: seq<Byte>, more: seq<Byte>)
    requires Valid(s)
    ensures AppendsCleanly(p, s, env, buf, more)
    decreases |buf|
  {
    if |buf| < 4 || !p.handshaken {
      DrainAppendIdle(p, s, env, buf, more);
    } else {
      var length := ReadU32(buf, 0);
      if length == 0 {
        DrainAppend(p, s, env, buf[4..], more);
        DrainAppendKeepAlive(p, s, env, buf, more);
      } else if |buf| < length + 4 {
        DrainAppendWaiting(p, s, env, buf, more);
      } else {
        var d := Dispatch(p, s, env, buf[4], buf[5..length + 4]);
        if d.thrown.None? {
          DrainAppend(d.peer, d.store, env, buf[length + 4..], more);
          DrainAppendMessage(p, s, env, buf, more);
        }
      }
    }
  }

  /** `[] + x == x`, kept apart from the loop. */
  lemma {:induction false} NoEventsFirst(x: seq<Event>)
    ensures [] + x == x
  {
  }

  /** Nothing to do on `buf`: draining it leaves it whole. */
  lemma {:induction false} DrainAppendIdle(p: PeerState, s: Store, env: Env, buf: seq<Byte>, more: seq<Byte>)
    requires Valid(s) && (|buf| < 4 || !p.handshaken)
    ensures AppendsCleanly(p, s, env, buf, more)
  {
    assert Drain(p, s, env, buf) == Fed(p, buf, s, [], None);
    NoEventsFirst(Drain(p, s, env, buf + more).events);
  }

  /** An incomplete frame at the front of `buf`: the loop waits. */
  lemma {:induction false} DrainAppendWaiting(p: PeerState, s: Store, env: Env, buf: seq<Byte>, more: seq<Byte>)
    requires Valid(s) && |buf| >= 4 && p.handshaken
    requires ReadU32(buf, 0) != 0 && |buf| < ReadU32(buf, 0) + 4
    ensures AppendsCleanly(p, s, env, buf, more)
  {
    assert Drain(p, s, env, buf) == Fed(p, buf, s, [], None);
    NoEventsFirst(Drain(p, s, env, buf + more).events);
  }

  /** A keep-alive at the front of `buf`, given the property after it. */
  lemma {:induction false} DrainAppendKeepAlive(p: PeerState, s: Store, env: Env, buf: seq<Byte>, more: seq<Byte>)
    requires Valid(s) && |buf| >= 4 && p.handshaken && ReadU32(buf, 0) == 0
    requires AppendsCleanly(p, s, env, buf[4..], more)
    ensures AppendsCleanly(p, s, env, buf, more)
  {
    ReadBEPrefix(buf, more, 0, 4);
    SplitAfter(buf, more, 4);
    assert Drain(p, s, env, buf) == Drain(p, s, env, buf[4..]);
    assert Drain(p, s, env, buf + more) == Drain(p, s, env, buf[4..] + more);
  }

  /** One whole frame at the front of `buf` that does not throw: the loop
      dispatches it and goes on with the bytes after it. */
  lemma {:induction false} DrainFrame(p: PeerState, s: Store, env: Env, buf: seq<Byte>,
                                      length: nat, id: Byte, payload: seq<Byte>, tail: seq<Byte>)
    requires Valid(s) && |buf| >= 4 && p.handshaken
    requires ReadU32(buf, 0) == length != 0 && |buf| >= length + 4
    requires buf[4] == id && buf[5..length + 4] == payload && buf[length + 4..] == tail
    requires Dispatch(p, s, env, id, payload).thrown.None?
    ensures var d := Dispatch(p, s, env, id, payload);
      Drain(p, s, env, buf) == Prepend(d.events, Drain(d.peer, d.store, env, tail))
  {
  }

  /** A whole message at the front of `buf` that does not throw, given the
      property for the state it leaves and the bytes after it. */
  lemma {:induction false} DrainAppendMessage(p: PeerState, s: Store, env: Env, buf: seq<Byte>, more: seq<Byte>)
    requires Valid(s) && |buf| >= 4 && p.handshaken
    requires ReadU32(buf, 0) != 0 && |buf| >= ReadU32(buf, 0) + 4
    requires var length := ReadU32(buf, 0);
      var d := Dispatch(p, s, env, buf[4], buf[5..length + 4]);
      d.thrown.None? && AppendsCleanly(d.peer, d.store, env, buf[length + 4..], more)
    ensures AppendsCleanly(p, s, env, buf, more)
  {
    var length := ReadU32(buf, 0);
    var id, payload, tail := buf[4], buf[5..length + 4], buf[length + 4..];
    var d := Dispatch(p, s, env, id, payload);
    ReadBEPrefix(buf, more, 0, 4);
    SplitAfter(buf, more, length + 4);
    assert (buf + more)[4] == id;
    assert (buf + more)[5..length + 4] == payload;
    DrainFrame(p, s, env, buf, length, id, payload, tail);
    DrainFrame(p, s, env, buf + more, length, id, payload, tail + more);
    var mid := Drain(d.peer, d.store, env, tail);
    if mid.thrown.None? {
      var r2 := Drain(mid.peer, mid.store, env, mid.buffer + more);
      EventsAssoc(d.events, mid.events, r2.events);
    }
  }

  /** The same bytes in two calls of `listenData` or in one give the same
      connection, buffer, store, events and outcome, unless the first call
      ended with an exception or a rejected handshake (a rejected handshake
      leaves the connection unhandshaken, so the next call tries the next
      68 bytes). */
  lemma {:induction false} FeedChunking(p: PeerState, s: Store, env: Env, buf: seq<Byte>, a: seq<Byte>,
                                        b: seq<Byte>)
    requires Valid(s)
    requires Feed(p, s, env, buf, a).thrown.None?
    requires Feed(p, s, env, buf, a).peer.handshaken || |buf + a| < 68
    ensures var r1 := Feed(p, s, env, buf, a);
      var r2 := Feed(r1.peer, r1.store, env, r1.buffer, b);
      Feed(p, s, env, buf, a + b) == Fed(r2.peer, r2.buffer, r2.store, r1.events + r2.events, r2.thrown)
  {
    var all := buf + a;
    var r1 := Listen(p, s, env, all);
    assert Feed(p, s, env, buf, a) == r1;
    AppendAssoc(buf, a, b);
    assert Feed(p, s, env, buf, a + b) == Listen(p, s, env, all + b);
    assert Feed(r1.peer, r1.store, env, r1.buffer, b) == Listen(r1.peer, r1.store, env, r1.buffer + b);
    if p.handshaken {
      DrainAppend(p, s, env, all, b);
    } else if |all| < 68 {
      assert r1 == Fed(p, all, s, [], None);
      EventsAssoc([], [], Listen(p, s, env, all + b).events);
    } else {
      ListenChunkingAtHandshake(p, s, env, all, b);
    }
  }

  /** The case where the first call handles an accepted handshake. */
  lemma {:induction false} ListenChunkingAtHandshake(p: PeerState, s: Store, env: Env, all: seq<Byte>,
                                                     b: seq<Byte>)
    requires Valid(s) && !p.handshaken && |all| >= 68
    requires Listen(p, s, env, all).thrown.None? && Listen(p, s, env, all).peer.handshaken
    ensures var r1 := Listen(p, s, env, all);
      var r2 := Listen(r1.peer, r1.store, env, r1.buffer + b);
      Listen(p, s, env, all + b) == Fed(r2.peer, r2.buffer, r2.store, r1.events + r2.events, r2.thrown)
  {
    var h := HandshakeStep(p, all[..68], env.ownBitfield);
    assert h.thrown.None?;
    var d := Drain(h.peer, s, env, all[68..]);
    assert Listen(p, s, env, all) == Prepend(h.events, d);
    SplitAfter(all, b, 68);
    assert Listen(p, s, env, all + b) == Prepend(h.events, Drain(h.peer, s, env, all[68..] + b));
    DrainAppend(h.peer, s, env, all[68..], b);
    var r2 := Drain(d.peer, d.store, env, d.buffer + b);
    assert Listen(d.peer, d.store, env, d.buffer + b) == r2;
    EventsAssoc(h.events, d.events, r2.events);
  }

  lemma {:induction false} AppendAssoc(x: seq<Byte>, y: seq<Byte>, z: seq<Byte>)
    ensures x + (y + z) == (x + y) + z
  {
  }

  lemma {:induction false} EventsAssoc(x: seq<Event>, y: seq<Event>, z: seq<Event>)
    ensures x + (y + z) == (x + y) + z
  {
  }

  /** Appending to a buffer keeps its first k bytes and extends the rest. */
  lemma {:induction false} SplitAfter(all: seq<Byte>, b: seq<Byte>, k: nat)
    requires k <= |all|
    ensures (all + b)[..k] == all[..k] && (all + b)[k..] == all[k..] + b
  {
  }

  // ------------------------------------------------------- handshake

  /** The handshake a client builds for an info-hash (40 lower-case hex
      digits) is accepted by a connection for that info-hash, and exactly
      its 68 bytes are consumed. */
  lemma {:induction false} HandshakeAccepted(p: PeerState, s: Store, env: Env, peerId: seq<Byte>,
                                             rest: seq<Byte>)
    requires Valid(s) && !p.handshaken && IsLowerHex(p.infoHash) && |p.infoHash| == 40
    requires 1 + |env.ownBitfield| < U32_LIMIT
    ensures Feed(p, s, env, [], Messages.Handshake(p.infoHash, peerId) + rest)
         == Prepend([Connected, Wrote(Messages.Bitfield(env.ownBitfield))],
                    Drain(p.(handshaken := true), s, env, rest))
  {
    var msg := Messages.Handshake(p.infoHash, peerId);
    Messages.HandshakeCarriesInfoHash(p.infoHash, peerId);
    var all := msg + rest;
    assert [] + all == all;
    SplitAfter(msg, rest, 68);
    assert msg[..68] == msg;
    assert Feed(p, s, env, [], all) == Listen(p, s, env, all);
  }

  /** A connection sent a handshake for another info-hash drops exactly
      the 68 handshake bytes, stays unhandshaken and disconnects. */
  lemma {:induction false} HandshakeRejected(p: PeerState, s: Store, env: Env, chunk: seq<Byte>,
                                             rest: seq<Byte>)
    requires Valid(s) && !p.handshaken && |chunk| == 68 && Hex(chunk[28..48]) != p.infoHash
    ensures Feed(p, s, env, [], chunk + rest) == Fed(p, rest, s, [Disconnected], None)
  {
    var all := chunk + rest;
    assert [] + all == all;
    SplitAfter(chunk, rest, 68);
    assert chunk[..68] == chunk;
    assert Feed(p, s, env, [], all) == Listen(p, s, env, all);
  }

  // -------------------------------------------- messages on the wire

  /** A bitfield message built by the client's own builder, arriving at a
      handshaken connection, is framed whole and handled as a bitfield
      with exactly its payload; the rest of the buffer is left to the
      loop. */
  lemma {:induction false} BitfieldMessageDispatched(p: PeerState, s: Store, env: Env, bits: seq<Byte>,
                                                     rest: seq<Byte>)
    requires Valid(s) && p.handshaken && 1 + |bits| < U32_LIMIT
    ensures Drain(p, s, env, Messages.Bitfield(bits) + rest)
         == Prepend([AddBitfield(TorrentHelpers.PiecesFromBitfield(bits)), Wrote(Messages.Interested())],
                    Drain(p.(bitfieldReceived := true, amInterested := true), s, env, rest))
  {
    var msg := Messages.Bitfield(bits);
    var buf := msg + rest;
    ReadBEPrefix(msg, rest, 0, 4);
    SplitAfter(msg, rest, |msg|);
    assert msg[..|msg|] == msg;
    assert buf[4] == 5;
    assert buf[5..|msg|] == bits;
    var d := Dispatch(p, s, env, 5, bits);
    assert d.events == [AddBitfield(TorrentHelpers.PiecesFromBitfield(bits)), Wrote(Messages.Interested())];
  }

  /** An unchoke message frees a handshaken connection that has its
      bitfield and room in its queue. */
  lemma {:induction false} UnchokeFrees(p: PeerState, s: Store, env: Env, rest: seq<Byte>)
    requires Valid(s) && p.handshaken && p.bitfieldReceived && |p.queue| < MAX_PEER_REQUESTS
    ensures Drain(p, s, env, [0, 0, 0, 1, 1] + rest) == Drain(p.(peerChoking := false), s, env, rest)
    ensures IsPeerFree(p.(peerChoking := false))
  {
    var buf: seq<Byte> := [0, 0, 0, 1, 1] + rest;
    U32One();
    assert buf[0..4] == U32(1);
    ReadU32Field(buf, 0, 1);
    assert buf[4] == 1 && buf[5..5] == [] && buf[5..] == rest;
    var d := Dispatch(p, s, env, 1, []);
    DrainFrame(p, s, env, buf, 1, 1, [], rest);
    NoEventsFirst(Drain(d.peer, s, env, rest).events);
  }
}

=== FILE: peer_pool.dfy ===
/** The peer bookkeeping of core/PeerPool.js and of its predecessor
    core/peers.js: the candidate list with its round-robin cursor, the list
    of connected peers, and the detail map keyed by `host:port`. */
module PeerPool {
  import opened Common
  import TorrentHelpers

  /** A candidate from the tracker: `{ ip, port, lastTried: null }`. */
  datatype Candidate = Candidate(ip: string, port: nat)

  // ------------------------------------------------ round-robin cursor

  /** `peerArr` and `currentPeerIndex`, the same in both classes. */
  datatype Roster = Roster(peerArr: seq<Candidate>, cursor: nat)

  /** The cursor is inside the list, or 0. */
  predicate CursorOk(r: Roster)
  {
    r.cursor == 0 || r.cursor < |r.peerArr|
  }

  /** `addPeer(peer)`: appended, duplicates included. */
  function AddPeer(r: Roster, c: Candidate): (t: Roster)
    ensures t.peerArr == r.peerArr + [c] && t.cursor == r.cursor
    ensures |t.peerArr| == |r.peerArr| + 1
    ensures CursorOk(r) ==> CursorOk(t)
  {
    Roster(r.peerArr + [c], r.cursor)
  }

  datatype Got = Got(roster: Roster, peer: Option<Candidate>)

  /** `getPeer()`: the candidate under the cursor (`undefined` past the
      end), then the cursor moves on, wrapping to 0 at the end. */
  function GetPeer(r: Roster): (g: Got)
    ensures CursorOk(g.roster) && g.roster.peerArr == r.peerArr
    ensures r.cursor < |r.peerArr| ==>
      g.peer == Some(r.peerArr[r.cursor]) && g.roster.cursor == (r.cursor + 1) % |r.peerArr|
    ensures r.cursor >= |r.peerArr| ==> g.peer.None? && g.roster.cursor == 0
  {
    var peer := if r.cursor < |r.peerArr| then Some(r.peerArr[r.cursor]) else None;
    var next := r.cursor + 1;
    Got(Roster(r.peerArr, if next >= |r.peerArr| then 0 else next), peer)
  }

  /** What `n` successive `getPeer()` calls return. */
  function GetPeers(r: Roster, n: nat): (s: seq<Option<Candidate>>)
    ensures |s| == n
    decreases n
  {
    if n == 0 then [] else [GetPeer(r).peer] + GetPeers(GetPeer(r).roster, n - 1)
  }

  lemma {:induction false} MulAtLeast(a: int, b: int)
    requires a >= 1 && b > 0
    ensures a * b >= b
  {
    assert a * b == (a - 1) * b + b;
  }

  /** The remainder is the one of any quotient-remainder split. */
  lemma {:induction false} ModUnique(x: int, len: int, q: int, rest: int)
    requires len > 0 && 0 <= rest < len && x == q * len + rest
    ensures x % len == rest
  {
    var q' := x / len;
    assert x == q' * len + x % len;
    assert q' * len - q * len == (q' - q) * len;
    if q' > q {
      MulAtLeast(q' - q, len);
    } else if q' < q {
      MulAtLeast(q - q', len);
    }
  }

  lemma {:induction false} ModNext(c: nat, k: nat, len: nat)
    requires c < len
    ensures ((c + 1) % len + k) % len == (c + 1 + k) % len
  {
    if c + 1 == len {
      ModUnique(c + 1, len, 1, 0);
      ModUnique(len + k, len, k / len + 1, k % len);
    } else {
      ModUnique(c + 1, len, 0, c + 1);
    }
  }

  /** Successive calls visit the list cyclically from the cursor. */
  lemma {:induction false} GetPeersCycle(r: Roster, n: nat)
    requires |r.peerArr| > 0 && CursorOk(r)
    ensures forall k :: 0 <= k < n ==>
      GetPeers(r, n)[k] == Some(r.peerArr[(r.cursor + k) % |r.peerArr|])
  {
    forall k | 0 <= k < n
      ensures GetPeers(r, n)[k] == Some(r.peerArr[(r.cursor + k) % |r.peerArr|])
    {
      GetPeersAt(r, n, k);
    }
  }

  lemma {:induction false} GetPeersAt(r: Roster, n: nat, k: nat)
    requires |r.peerArr| > 0 && CursorOk(r) && k < n
    ensures GetPeers(r, n)[k] == Some(r.peerArr[(r.cursor + k) % |r.peerArr|])
    decreases k
  {
    var len := |r.peerArr|;
    var g := GetPeer(r);
    assert GetPeers(r, n) == [g.peer] + GetPeers(g.roster, n - 1);
    if k == 0 {
      ModUnique(r.cursor, len, 0, r.cursor);
    } else {
      GetPeersAt(g.roster, n - 1, k - 1);
      ModNext(r.cursor, k - 1, len);
      assert g.roster.cursor + (k - 1) == (r.cursor + 1) % len + (k - 1);
      assert r.cursor + 1 + (k - 1) == r.cursor + k;
    }
  }

  /** An empty list yields `undefined` and leaves the cursor at 0. */
  lemma {:induction false} GetPeerEmpty(r: Roster)
    requires |r.peerArr| == 0 && CursorOk(r)
    ensures GetPeer(r) == Got(r, None)
  {
  }

  // --------------------------------------------- connected peer list

  /** The filter of `removePeer` and `removeActivePeer` as written: an
      entry is kept only when its ip AND its port both differ. */
  function WithoutAsWritten(list: seq<Candidate>, peer: Candidate): (r: seq<Candidate>)
    ensures forall c :: c in r <==> c in list && c.ip != peer.ip && c.port != peer.port
    ensures |r| <= |list|
    decreases |list|
  {
    if |list| == 0 then []
    else (if list[0].ip != peer.ip && list[0].port != peer.port then [list[0]] else [])
         + WithoutAsWritten(list[1..], peer)
  }

  /** The evident intent: drop the entries for this peer, keep the rest. */
  function Without(list: seq<Candidate>, peer: Candidate): (r: seq<Candidate>)
    ensures forall c :: c in r <==> c in list && c != peer
    ensures |r| <= |list|
    decreases |list|
  {
    if |list| == 0 then []
    else (if list[0] != peer then [list[0]] else []) + Without(list[1..], peer)
  }

  /** Removing a peer as written also drops a different peer behind the
      same address on another port (and one on the same port elsewhere). */
  lemma {:induction false} RemoveDropsNeighbour(ip: string, p1: nat, p2: nat)
    requires p1 != p2
    ensures var list := [Candidate(ip, p1), Candidate(ip, p2)];
      && WithoutAsWritten(list, Candidate(ip, p1)) == []
      && Without(list, Candidate(ip, p1)) == [Candidate(ip, p2)]
  {
    var list := [Candidate(ip, p1), Candidate(ip, p2)];
    assert list[1..][1..] == [];
  }

  /** Entries never naming the removed peer's ip or port survive either
      filter: the two agree exactly when no other entry shares one of
      them. */
  lemma {:induction false} WithoutAgrees(list: seq<Candidate>, peer: Candidate)
    requires forall k :: 0 <= k < |list| ==> list[k] == peer || (list[k].ip != peer.ip && list[k].port != peer.port)
    ensures WithoutAsWritten(list, peer) == Without(list, peer)
    decreases |list|
  {
    if |list| > 0 {
      WithoutAgrees(list[1..], peer);
    }
  }

  // ------------------------------------------------------- detail map

  /** A `peerDetailsMap` value: the connection (an object reference, here
      a handle) and the advertised pieces, `null` until a bitfield came. */
  datatype Detail = Detail(instance: nat, bitfield: Option<seq<nat>>)

  datatype DetailEntry = DetailEntry(key: string, detail: Detail)

  /** A `Map` is its entries in insertion order, each key once. */
  predicate DistinctKeys(m: seq<DetailEntry>)
  {
    forall i, j :: 0 <= i < j < |m| ==> m[i].key != m[j].key
  }

  function Get(m: seq<DetailEntry>, key: string): (r: Option<Detail>)
    ensures r.Some? <==> exists k :: 0 <= k < |m| && m[k].key == key
    decreases |m|
  {
    if |m| == 0 then None
    else if m[0].key == key then Some(m[0].detail)
    else
      var rest := Get(m[1..], key);
      assert (exists k :: 0 <= k < |m| && m[k].key == key) ==> exists k :: 0 <= k < |m[1..]| && m[1..][k].key == key by {
        if exists k :: 0 <= k < |m| && m[k].key == key {
          var k :| 0 <= k < |m| && m[k].key == key;
          assert m[1..][k - 1] == m[k];
        }
      }
      rest
  }

  /** The first entry's key occurs nowhere after it. */
  lemma {:induction false} HeadKeyFresh(m: seq<DetailEntry>)
    requires DistinctKeys(m) && |m| > 0
    ensures DistinctKeys(m[1..])
    ensures forall e :: e in m[1..] ==> e.key != m[0].key
  {
    forall e | e in m[1..]
      ensures e.key != m[0].key
    {
      var j :| 0 <= j < |m[1..]| && m[1..][j] == e;
      assert m[j + 1] == e;
    }
  }

  /** An entry in front of a map whose keys all differ from its own. */
  lemma {:induction false} ConsDistinct(e: DetailEntry, rest: seq<DetailEntry>)
    requires DistinctKeys(rest)
    requires forall x :: x in rest ==> x.key != e.key
    ensures DistinctKeys([e] + rest)
    ensures ([e] + rest)[1..] == rest
  {
    var r := [e] + rest;
    assert r[1..] == rest;
    forall i, j | 0 <= i < j < |r|
      ensures r[i].key != r[j].key
    {
      if i == 0 {
        assert r[j] == rest[j - 1];
        assert r[j] in rest;
      }
    }
  }

  /** `map.set(key, value)`: an existing key keeps its place. */
  function Set(m: seq<DetailEntry>, key: string, d: Detail): (r: seq<DetailEntry>)
    requires DistinctKeys(m)
    ensures DistinctKeys(r)
    ensures Get(r, key) == Some(d)
    ensures forall k :: k != key ==> Get(r, k) == Get(m, k)
    ensures forall e :: e in r ==> e.key == key || e in m
    decreases |m|
  {
    if |m| == 0 then [DetailEntry(key, d)]
    else
      HeadKeyFresh(m);
      if m[0].key == key then
        assert forall k :: k != key ==> Get(m, k) == Get(m[1..], k);
        ConsDistinct(DetailEntry(key, d), m[1..]);
        [DetailEntry(key, d)] + m[1..]
      else
        var rest := Set(m[1..], key, d);
        ConsDistinct(m[0], rest);
        [m[0]] + rest
  }

  /** `map.delete(key)`. */
  function Delete(m: seq<DetailEntry>, key: string): (r: seq<DetailEntry>)
    requires DistinctKeys(m)
    ensures DistinctKeys(r)
    ensures Get(r, key).None?
    ensures forall k :: k != key ==> Get(r, k) == Get(m, k)
    ensures forall e :: e in r ==> e in m
    decreases |m|
  {
    if |m| == 0 then []
    else
      HeadKeyFresh(m);
      if m[0].key == key then
        assert forall k :: 0 <= k < |m[1..]| ==> m[1..][k].key != key by {
          forall k | 0 <= k < |m[1..]|
            ensures m[1..][k].key != key
          {
            assert m[1..][k] in m[1..];
          }
        }
        m[1..]
      else
        var rest := Delete(m[1..], key);
        ConsDistinct(m[0], rest);
        [m[0]] + rest
  }

  // ------------------------------------------------------------ pool

  /** A `PeerPool`. */
  datatype Pool = Pool(roster: Roster, connected: seq<Candidate>, details: seq<DetailEntry>)

  predicate PoolOk(p: Pool)
  {
    CursorOk(p.roster) && DistinctKeys(p.details)
  }

  function EmptyPool(): (p: Pool)
    ensures PoolOk(p) && p.roster.peerArr == [] && p.connected == [] && p.details == []
  {
    Pool(Roster([], 0), [], [])
  }

  /** `removePeer(peer)`, as written. */
  function RemovePeer(p: Pool, peer: Candidate): (r: Pool)
    ensures r == p.(connected := WithoutAsWritten(p.connected, peer))
    ensures forall c :: c in r.connected <==> c in p.connected && c.ip != peer.ip && c.port != peer.port
  {
    p.(connected := WithoutAsWritten(p.connected, peer))
  }

  /** `removePeer(peer)`, corrected to drop only that peer. */
  function RemovePeerIntended(p: Pool, peer: Candidate): (r: Pool)
    ensures forall c :: c in r.connected <==> c in p.connected && c != peer
    ensures r.roster == p.roster && r.details == p.details
  {
    p.(connected := Without(p.connected, peer))
  }

  /** `addConnectedPeer(peer)`: one more connected peer. */
  function AddConnectedPeer(p: Pool, peer: Candidate): (r: Pool)
    ensures |r.connected| == |p.connected| + 1 && r.connected[|p.connected|] == peer
    ensures r.connected[..|p.connected|] == p.connected
    ensures r.roster == p.roster && r.details == p.details
  {
    p.(connected := p.connected + [peer])
  }

  /** `addToPeerDetailsMap(host, port, instance)`: a fresh entry with no
      bitfield under `host:port`, replacing any earlier one. */
  function AddToDetails(p: Pool, host: string, port: nat, instance: nat): (r: Pool)
    requires PoolOk(p)
    ensures PoolOk(r) && r.roster == p.roster && r.connected == p.connected
    ensures Get(r.details, TorrentHelpers.PeerKey(host, port)) == Some(Detail(instance, None))
    ensures forall k :: k != TorrentHelpers.PeerKey(host, port) ==> Get(r.details, k) == Get(p.details, k)
  {
    p.(details := Set(p.details, TorrentHelpers.PeerKey(host, port), Detail(instance, None)))
  }

  /** `removeFromPeerDetailsMap(host, port)`. */
  function RemoveFromDetails(p: Pool, host: string, port: nat): (r: Pool)
    requires PoolOk(p)
    ensures PoolOk(r) && r.roster == p.roster && r.connected == p.connected
    ensures Get(r.details, TorrentHelpers.PeerKey(host, port)).None?
    ensures forall k :: k != TorrentHelpers.PeerKey(host, port) ==> Get(r.details, k) == Get(p.details, k)
  {
    p.(details := Delete(p.details, TorrentHelpers.PeerKey(host, port)))
  }

  /** `addBitfieldToPeerMap(host, port, bitfield)`: nothing for an unknown
      peer; otherwise only that entry's bitfield changes. */
  function AddBitfield(p: Pool, host: string, port: nat, bitfield: seq<nat>): (r: Pool)
    requires PoolOk(p)
    ensures PoolOk(r) && r.roster == p.roster && r.connected == p.connected
    ensures Get(p.details, TorrentHelpers.PeerKey(host, port)).None? ==> r == p
    ensures Get(p.details, TorrentHelpers.PeerKey(host, port)).Some? ==>
      Get(r.details, TorrentHelpers.PeerKey(host, port))
        == Some(Get(p.details, TorrentHelpers.PeerKey(host, port)).value.(bitfield := Some(bitfield)))
    ensures forall k :: k != TorrentHelpers.PeerKey(host, port) ==> Get(r.details, k) == Get(p.details, k)
  {
    var key := TorrentHelpers.PeerKey(host, port);
    match Get(p.details, key)
    case None => p
    case Some(existing) => p.(details := Set(p.details, key, existing.(bitfield := Some(bitfield))))
  }

  /** Bookkeeping for one peer never touches another's entry, for hosts
      written without a colon (dotted IPv4). */
  lemma {:induction false} OtherPeerUntouched(p: Pool, h1: string, p1: nat, h2: string, p2: nat,
                                              bitfield: seq<nat>, instance: nat)
    requires PoolOk(p) && ':' !in h1 && ':' !in h2 && (h1 != h2 || p1 != p2)
    ensures var other := TorrentHelpers.PeerKey(h2, p2);
      && Get(AddBitfield(p, h1, p1, bitfield).details, other) == Get(p.details, other)
      && Get(AddToDetails(p, h1, p1, instance).details, other) == Get(p.details, other)
      && Get(RemoveFromDetails(p, h1, p1).details, other) == Get(p.details, other)
  {
    TorrentHelpers.PeerKeyInjective(h1, p1, h2, p2);
  }

  /** A peer registered and then given a bitfield holds that bitfield. */
  lemma {:induction false} RegisteredThenBitfield(p: Pool, host: string, port: nat, instance: nat,
                                                  bitfield: seq<nat>)
    requires PoolOk(p)
    ensures Get(AddBitfield(AddToDetails(p, host, port, instance), host, port, bitfield).details,
                TorrentHelpers.PeerKey(host, port))
         == Some(Detail(instance, Some(bitfield)))
  {
  }

  // --------------------------------------------------- core/peers.js

  /** A `Peers` object of the earlier module. */
  datatype Peers = Peers(roster: Roster, active: seq<Candidate>)

  /** `isNewPeerAvailable()`: the cursor is before the end of the list. */
  predicate IsNewPeerAvailable(p: Peers)
  {
    |p.roster.peerArr| > p.roster.cursor
  }

  /** With the cursor kept in range, `isNewPeerAvailable` holds exactly
      when the list is non-empty: it says nothing about whether the
      cursor has already gone round. */
  lemma {:induction false} NewPeerAvailableIffNonEmpty(p: Peers)
    requires CursorOk(p.roster)
    ensures IsNewPeerAvailable(p) <==> |p.roster.peerArr| > 0
  {
  }

  /** `removeActivePeer(peer)`: the same filter as `removePeer`. */
  function RemoveActivePeer(p: Peers, peer: Candidate): (r: Peers)
    ensures forall c :: c in r.active <==> c in p.active && c.ip != peer.ip && c.port != peer.port
    ensures r.roster == p.roster
  {
    p.(active := WithoutAsWritten(p.active, peer))
  }

  /** `addActivePeer(peer)`: one more active peer. */
  function AddActivePeer(p: Peers, peer: Candidate): (r: Peers)
    ensures |r.active| == |p.active| + 1 && r.active[|p.active|] == peer
    ensures r.active[..|p.active|] == p.active && r.roster == p.roster
  {
    p.(active := p.active + [peer])
  }
}

=== FILE: peer_protocol.dfy ===
/** The two earlier connection classes named `Peer_Protocol`: the one in
    core/peer_protocol.js, which tracks choking and interest and requests
    blocks through the piece table of core/pieces.js, and the first one at
    the top level, peer_protocol.js, which only decodes. Both accumulate
    data, consume 68-byte handshake chunks until one carries the expected
    info-hash, and then frame messages with a loop that consumes a fixed
    `min(68, buffered)` bytes per message instead of the message's own
    length. Socket writes are returned. */
module PeerProtocol {
  import opened Common
  import opened Bytes
  import opened Text
  import Messages
  import opened TorrentHelpers
  import opened LegacyPieces
  import Peer

  /** Which of the two classes: core/peer_protocol.js or peer_protocol.js. */
  datatype Snapshot = CoreSnapshot | RootSnapshot

  /** The fields of a `Peer_Protocol`. The top-level class has no choking
      or interest fields and no blocks; there they keep their initial
      values. */
  datatype ProtocolPeer = ProtocolPeer(
    infoHash: string,
    buffer: seq<Byte>,
    handshaken: bool,
    peerChoking: bool,
    amChoking: bool,
    peerInterested: bool,
    amInterested: bool,
    blocks: seq<BlockSpec>,
    pieces: Pieces)

  /** The constructor. */
  function NewProtocolPeer(infoHash: string, pieces: Pieces): (r: ProtocolPeer)
    ensures r.buffer == [] && !r.handshaken && r.peerChoking && !r.amInterested && r.blocks == []
  {
    ProtocolPeer(infoHash, [], false, true, true, false, false, [], pieces)
  }

  /** `createHandshakeBuffer()`, the same layout in both classes as in
      lib/createMessages.js. */
  function CreateHandshakeBuffer(infoHash: string, peerId: seq<Byte>): (r: seq<Byte>)
    ensures |r| == 68 && r[0] == 19 && r[1..20] == Messages.ProtocolBytes() && r[20..28] == Zeros(8)
    ensures IsLowerHex(infoHash) && |infoHash| == 40 ==> Hex(r[28..48]) == infoHash
    ensures |peerId| >= 20 ==> r[48..68] == peerId[..20]
  {
    CarriesInfoHash(infoHash, peerId);
    Messages.Handshake(infoHash, peerId)
  }

  lemma {:induction false} CarriesInfoHash(infoHash: string, peerId: seq<Byte>)
    ensures IsLowerHex(infoHash) && |infoHash| == 40 ==> Hex(Messages.Handshake(infoHash, peerId)[28..48]) == infoHash
  {
    if IsLowerHex(infoHash) && |infoHash| == 40 {
      Messages.HandshakeCarriesInfoHash(infoHash, peerId);
    }
  }

  // ---------------------------------------------------------- handlers

  /** A handler's outcome: the connection afterwards, its socket writes,
      and an exception that ended the data callback. */
  datatype Step = Step(peer: ProtocolPeer, writes: seq<seq<Byte>>, thrown: Option<string>)

  /** What `undefined.index` throws. */
  const TYPE_ERROR: string := "TypeError: Cannot read properties of undefined"

  /** The 17 bytes `sendInterest` writes: a zeroed buffer with length 4 and
      id 2 written over its front. */
  function InterestAsWritten(): (r: seq<Byte>)
    ensures |r| == 17 && ReadU32(r, 0) == 4 && r[4] == 2
    ensures forall k :: 5 <= k < 17 ==> r[k] == 0
  {
    ReadU32OfU32(4);
    ReadBEPrefix(U32(4), [2] + Zeros(12), 0, 4);
    U32(4) + ([2] + Zeros(12))
  }

  /** `sendInterest()`. */
  function SendInterest(p: ProtocolPeer): (r: Step)
    ensures r.peer == p.(amInterested := true) && r.writes == [InterestAsWritten()] && r.thrown.None?
  {
    Step(p.(amInterested := true), [InterestAsWritten()], None)
  }

  /** `requestBlock(block)`: the request message, then the block recorded
      under its offset. A field outside 32 bits throws before anything is
      written or recorded. */
  function RequestBlock(p: ProtocolPeer, block: BlockSpec): (r: Step)
    ensures (r.thrown.Some? <==>
               block.index >= U32_LIMIT || block.offset >= U32_LIMIT || block.length >= U32_LIMIT)
    ensures r.thrown.Some? ==> r == Step(p, [], Some(RANGE_ERROR))
    ensures r.thrown.None? ==>
      && r.peer == p.(pieces := AddBlockToRequested(p.pieces, block))
      && |r.writes| == 1 && |r.writes[0]| == 17
      && ReadU32(r.writes[0], 0) == 13 && r.writes[0][4] == 6
      && ReadU32(r.writes[0], 5) == block.index && ReadU32(r.writes[0], 9) == block.offset
      && ReadU32(r.writes[0], 13) == block.length
  {
    if block.index >= U32_LIMIT || block.offset >= U32_LIMIT || block.length >= U32_LIMIT then
      Step(p, [], Some(RANGE_ERROR))
    else
      var msg := Messages.Request(block.index, block.offset, block.length);
      Messages.RequestPayloadDecodes(block.index, block.offset, block.length);
      ReadBESkip(msg[..5], msg[5..], 0, 4);
      ReadBESkip(msg[..5], msg[5..], 4, 4);
      ReadBESkip(msg[..5], msg[5..], 8, 4);
      assert msg[..5] + msg[5..] == msg;
      Step(p.(pieces := AddBlockToRequested(p.pieces, block)), [msg], None)
  }

  /** `this.blocks.pop()` handed to `requestBlock`: the last block, or a
      TypeError when there is none. */
  function RequestLastBlock(p: ProtocolPeer): (r: Step)
    ensures |p.blocks| == 0 ==> r == Step(p, [], Some(TYPE_ERROR))
    ensures |p.blocks| > 0 ==>
      r == RequestBlock(p.(blocks := p.blocks[..|p.blocks| - 1]), p.blocks[|p.blocks| - 1])
  {
    if |p.blocks| == 0 then Step(p, [], Some(TYPE_ERROR))
    else RequestBlock(p.(blocks := p.blocks[..|p.blocks| - 1]), p.blocks[|p.blocks| - 1])
  }

  /** `handleUnchoke()`: no longer choked; requests the last queued block
      if there is one. */
  function HandleUnchoke(p: ProtocolPeer): (r: Step)
    ensures !r.peer.peerChoking && r.peer.buffer == p.buffer && r.peer.handshaken == p.handshaken
    ensures |p.blocks| == 0 ==> r == Step(p.(peerChoking := false), [], None)
    ensures |p.blocks| > 0 ==> r == RequestLastBlock(p.(peerChoking := false))
  {
    var q := p.(peerChoking := false);
    if |q.blocks| > 0 then RequestLastBlock(q) else Step(q, [], None)
  }

  /** The inner loop of `handleBitfield` in the top-level peer_protocol.js
      over one byte: bit j counted from the low end (`byte % 2`, then
      `Math.floor(byte / 2)`) stands for index `base + 7 - j`. The index is
      computed and dropped there; the intended candidates of
      core/peer_protocol.js are drawn from the same walk. The byte loops
      name `cur` in their decreases clauses only so that a literal `j` alone
      does not let the verifier unroll all eight steps. */
  function LsbByte(cur: nat, base: nat, j: nat): (r: seq<nat>)
    requires j <= 8
    decreases 8 - j, cur
  {
    if j == 8 then []
    else (if cur % 2 == 1 then [base + 7 - j] else []) + LsbByte(cur / 2, base, j + 1)
  }

  /** The outer loop from byte `i`. */
  function LsbIndices(payload: seq<Byte>, i: nat): (r: seq<nat>)
    requires i <= |payload|
    decreases |payload| - i
  {
    if i == |payload| then [] else LsbByte(payload[i], 8 * i, 0) + LsbIndices(payload, i + 1)
  }

  /** The inner loop of `handleBitfield` in core/peer_protocol.js over one
      byte, as written: a set bit whose index `isPieceInRequested` reports
      is passed over with `continue`, which also passes over
      `Math.floor(byte / 2)`, so the same bit is read again under the next
      lower index. */
  function SkipByte(pieces: Pieces, cur: nat, base: nat, j: nat): (r: seq<nat>)
    requires j <= 8
    decreases 8 - j, cur
  {
    if j == 8 then []
    else
      var skipped := cur % 2 == 1 && IsPieceInRequested(pieces, base + 7 - j);
      var next := if skipped then cur else cur / 2;
      (if cur % 2 == 1 && !skipped then [base + 7 - j] else []) + SkipByte(pieces, next, base, j + 1)
  }

  /** The outer loop of that `handleBitfield` from byte `i`. */
  function SkipIndices(pieces: Pieces, payload: seq<Byte>, i: nat): (r: seq<nat>)
    requires i <= |payload|
    decreases |payload| - i
  {
    if i == |payload| then [] else SkipByte(pieces, payload[i], 8 * i, 0) + SkipIndices(pieces, payload, i + 1)
  }

  /** The indices `handleBitfield` of core/peer_protocol.js gathers blocks
      for, as written. Each lies inside the bitfield and is not in the
      requested table, but need not be advertised. The blocks are gathered
      into a local that is then dropped. */
  function BitfieldCandidates(pieces: Pieces, payload: seq<Byte>): (r: seq<nat>)
    ensures forall k :: k in r ==> k < 8 * |payload| && !IsPieceInRequested(pieces, k)
  {
    CandidatesSound(pieces, payload);
    SkipIndices(pieces, payload, 0)
  }

  /** An index listed by the byte loop from step j lies in
      [base, base + 7 - j] and is not in the requested table. */
  lemma {:induction false} SkipByteSound(pieces: Pieces, cur: nat, base: nat, j: nat, y: nat)
    requires j <= 8
    ensures y in SkipByte(pieces, cur, base, j) ==>
      base <= y && y + j <= base + 7 && !IsPieceInRequested(pieces, y)
    decreases 8 - j
  {
    if j < 8 {
      var skipped := cur % 2 == 1 && IsPieceInRequested(pieces, base + 7 - j);
      var next := if skipped then cur else cur / 2;
      SkipByteSound(pieces, next, base, j + 1, y);
      SkipByteSoundStep(pieces, cur, base, j, y);
    }
  }

  lemma {:induction false} SkipByteSoundStep(pieces: Pieces, cur: nat, base: nat, j: nat, y: nat)
    requires j < 8
    requires var next := if cur % 2 == 1 && IsPieceInRequested(pieces, base + 7 - j) then cur else cur / 2;
      y in SkipByte(pieces, next, base, j + 1) ==>
        base <= y && y + j + 1 <= base + 7 && !IsPieceInRequested(pieces, y)
    ensures y in SkipByte(pieces, cur, base, j) ==>
      base <= y && y + j <= base + 7 && !IsPieceInRequested(pieces, y)
  {
  }

  /** An index listed by the outer loop from byte `i` lies in
      [8i, 8 |payload|) and is not in the requested table. */
  lemma {:induction false} SkipIndicesSound(pieces: Pieces, payload: seq<Byte>, i: nat, y: nat)
    requires i <= |payload|
    ensures y in SkipIndices(pieces, payload, i) ==>
      8 * i <= y < 8 * |payload| && !IsPieceInRequested(pieces, y)
    decreases |payload| - i
  {
    if i < |payload| {
      SkipIndicesSound(pieces, payload, i + 1, y);
      SkipIndicesSoundStep(pieces, payload, i, y);
    }
  }

  lemma {:induction false} SkipIndicesSoundStep(pieces: Pieces, payload: seq<Byte>, i: nat, y: nat)
    requires i < |payload|
    requires y in SkipIndices(pieces, payload, i + 1) ==>
      8 * (i + 1) <= y < 8 * |payload| && !IsPieceInRequested(pieces, y)
    ensures y in SkipIndices(pieces, payload, i) ==>
      8 * i <= y < 8 * |payload| && !IsPieceInRequested(pieces, y)
  {
    SkipByteSound(pieces, payload[i], 8 * i, 0, y);
    assert SkipIndices(pieces, payload, i)
      == SkipByte(pieces, payload[i], 8 * i, 0) + SkipIndices(pieces, payload, i + 1);
  }

  /** Every listed index is sound. */
  lemma {:induction false} CandidatesSound(pieces: Pieces, payload: seq<Byte>)
    ensures forall k :: k in SkipIndices(pieces, payload, 0) ==>
      k < 8 * |payload| && !IsPieceInRequested(pieces, k)
  {
    forall k | k in SkipIndices(pieces, payload, 0)
      ensures k < 8 * |payload| && !IsPieceInRequested(pieces, k)
    {
      SkipIndicesSound(pieces, payload, 0, k);
    }
  }

  /** The intended candidates: every advertised index, read low bit first
      with the halving done on every step, less those in the requested
      table. */
  function BitfieldCandidatesIntended(pieces: Pieces, payload: seq<Byte>): (r: seq<nat>)
  {
    IntendedIndices(pieces, payload, 0)
  }

  /** The intended byte loop: a set bit whose index is requested is passed
      over, and the byte is shifted on every step. */
  function IntendedByte(pieces: Pieces, cur: nat, base: nat, j: nat): (r: seq<nat>)
    requires j <= 8
    decreases 8 - j, cur
  {
    if j == 8 then []
    else
      (if cur % 2 == 1 && !IsPieceInRequested(pieces, base + 7 - j) then [base + 7 - j] else [])
      + IntendedByte(pieces, cur / 2, base, j + 1)
  }

  /** The intended outer loop from byte `i`. */
  function IntendedIndices(pieces: Pieces, payload: seq<Byte>, i: nat): (r: seq<nat>)
    requires i <= |payload|
    decreases |payload| - i
  {
    if i == |payload| then []
    else IntendedByte(pieces, payload[i], 8 * i, 0) + IntendedIndices(pieces, payload, i + 1)
  }

  /** The intended byte loop lists the plain loop's indices less the
      requested ones, in the same order. */
  lemma {:induction false} IntendedByteFilters(pieces: Pieces, cur: nat, base: nat, j: nat)
    requires j <= 8
    ensures IntendedByte(pieces, cur, base, j) == Unrequested(pieces, LsbByte(cur, base, j))
    decreases 8 - j
  {
    if j < 8 {
      IntendedByteFilters(pieces, cur / 2, base, j + 1);
      IntendedByteFiltersStep(pieces, cur, base, j);
    }
  }

  lemma {:induction false} IntendedByteFiltersStep(pieces: Pieces, cur: nat, base: nat, j: nat)
    requires j < 8
    requires IntendedByte(pieces, cur / 2, base, j + 1) == Unrequested(pieces, LsbByte(cur / 2, base, j + 1))
    ensures IntendedByte(pieces, cur, base, j) == Unrequested(pieces, LsbByte(cur, base, j))
  {
    var x := base + 7 - j;
    var head: seq<nat> := if cur % 2 == 1 then [x] else [];
    var rest := LsbByte(cur / 2, base, j + 1);
    assert LsbByte(cur, base, j) == head + rest;
    UnrequestedAppend(pieces, head, rest);
    UnrequestedHead(pieces, cur % 2 == 1, x);
  }

  /** The filter of a zero- or one-element list. */
  lemma {:induction false} UnrequestedHead(pieces: Pieces, bitSet: bool, x: nat)
    ensures Unrequested(pieces, if bitSet then [x] else [])
      == if bitSet && !IsPieceInRequested(pieces, x) then [x] else []
  {
    if bitSet {
      assert [x][1..] == [];
    }
  }

  /** The intended loop from byte `i` lists exactly the indices the plain
      loop lists that are not requested. */
  lemma {:induction false} IntendedIndicesMember(pieces: Pieces, payload: seq<Byte>, i: nat, k: nat)
    requires i <= |payload|
    ensures k in IntendedIndices(pieces, payload, i) <==>
      k in LsbIndices(payload, i) && !IsPieceInRequested(pieces, k)
    decreases |payload| - i
  {
    if i < |payload| {
      IntendedIndicesMember(pieces, payload, i + 1, k);
      IntendedIndicesMemberStep(pieces, payload, i, k);
    }
  }

  lemma {:induction false} IntendedIndicesMemberStep(pieces: Pieces, payload: seq<Byte>, i: nat, k: nat)
    requires i < |payload|
    requires k in IntendedIndices(pieces, payload, i + 1) <==>
      k in LsbIndices(payload, i + 1) && !IsPieceInRequested(pieces, k)
    ensures k in IntendedIndices(pieces, payload, i) <==>
      k in LsbIndices(payload, i) && !IsPieceInRequested(pieces, k)
  {
    IntendedByteFilters(pieces, payload[i], 8 * i, 0);
    LsbIndicesStep(payload, i, k);
    assert IntendedIndices(pieces, payload, i)
      == IntendedByte(pieces, payload[i], 8 * i, 0) + IntendedIndices(pieces, payload, i + 1);
  }

  function Unrequested(pieces: Pieces, ks: seq<nat>): (r: seq<nat>)
    ensures forall k :: k in r <==> k in ks && !IsPieceInRequested(pieces, k)
    decreases |ks|
  {
    if |ks| == 0 then []
    else
      var rest := Unrequested(pieces, ks[1..]);
      assert ks == [ks[0]] + ks[1..];
      if IsPieceInRequested(pieces, ks[0]) then rest else [ks[0]] + rest
  }

  /** Filtering a concatenation filters each part. */
  lemma {:induction false} UnrequestedAppend(pieces: Pieces, a: seq<nat>, b: seq<nat>)
    ensures Unrequested(pieces, a + b) == Unrequested(pieces, a) + Unrequested(pieces, b)
    decreases |a|
  {
    if |a| > 0 {
      assert (a + b)[1..] == a[1..] + b;
      UnrequestedAppend(pieces, a[1..], b);
    } else {
      assert a + b == b;
    }
  }

  /** Every key of the requested table is a multiple of 8, as the block
      offsets of `getBlocksForPiece` are with 16 KiB blocks. */
  predicate RequestedAligned(pieces: Pieces)
  {
    forall k :: k in pieces.requested ==> k % 8 == 0
  }

  /** Payload [0x01] advertises only piece 7. With a block beginning at
      offset 7 in the table, the loop as written reaches index 7, skips it
      without shifting, reads the same bit under index 6 and gathers blocks
      for piece 6, which the peer does not have; the intended candidates
      are empty. */
  lemma SkipRenumbers()
    ensures var pieces := AddBlockToRequested(NewPieces(8, 16384, 8 * 16384), BlockSpec(0, 7, 16384));
      && Advertised([1], 7) && !Advertised([1], 6)
      && BitfieldCandidates(pieces, [1]) == [6]
      && BitfieldCandidatesIntended(pieces, [1]) == []
  {
    var pieces := AddBlockToRequested(NewPieces(8, 16384, 8 * 16384), BlockSpec(0, 7, 16384));
    assert IsPieceInRequested(pieces, 7);
    assert forall k :: k != 7 ==> !IsPieceInRequested(pieces, k);
    assert SkipByte(pieces, 0, 0, 2) == [];
    assert SkipByte(pieces, 1, 0, 1) == [6];
    assert SkipByte(pieces, 1, 0, 0) == [6];
    assert LsbByte(0, 0, 1) == [];
    assert LsbByte(1, 0, 0) == [7];
    assert BitSet(1, 0);
    assert !BitSet(1, 1) by { assert BitSet(1, 1) == BitSet(0, 0); }
  }

  /** Below 8 an index of the byte at `base` has residue `7 - j`. */
  lemma {:induction false} ByteIndexResidue(base: nat, j: nat)
    requires base % 8 == 0 && j < 8
    ensures (base + 7 - j) % 8 == 7 - j
  {
  }

  /** With an aligned table only the last step of a byte can meet a
      requested index, and there the missed shift is never read: the byte
      loop as written and the intended one agree. */
  lemma {:induction false} SkipByteAgrees(pieces: Pieces, cur: nat, base: nat, j: nat)
    requires RequestedAligned(pieces) && base % 8 == 0 && j <= 8
    ensures SkipByte(pieces, cur, base, j) == IntendedByte(pieces, cur, base, j)
    decreases 8 - j
  {
    if j < 8 {
      if cur % 2 == 1 && IsPieceInRequested(pieces, base + 7 - j) {
        ByteIndexResidue(base, j);
      } else {
        SkipByteAgrees(pieces, cur / 2, base, j + 1);
      }
    }
  }

  lemma {:induction false} SkipIndicesAgree(pieces: Pieces, payload: seq<Byte>, i: nat)
    requires RequestedAligned(pieces) && i <= |payload|
    ensures SkipIndices(pieces, payload, i) == IntendedIndices(pieces, payload, i)
    decreases |payload| - i
  {
    if i < |payload| {
      SkipIndicesAgree(pieces, payload, i + 1);
      SkipIndicesAgreeStep(pieces, payload, i);
    }
  }

  lemma {:induction false} SkipIndicesAgreeStep(pieces: Pieces, payload: seq<Byte>, i: nat)
    requires RequestedAligned(pieces) && i < |payload|
    requires SkipIndices(pieces, payload, i + 1) == IntendedIndices(pieces, payload, i + 1)
    ensures SkipIndices(pieces, payload, i) == IntendedIndices(pieces, payload, i)
  {
    var base := 8 * i;
    MultipleOf8(i, 8);
    assert base % 8 == 0;
    SkipByteAgrees(pieces, payload[i], base, 0);
    assert SkipIndices(pieces, payload, i) == SkipByte(pieces, payload[i], base, 0) + SkipIndices(pieces, payload, i + 1);
    assert IntendedIndices(pieces, payload, i) == IntendedByte(pieces, payload[i], base, 0) + IntendedIndices(pieces, payload, i + 1);
  }

  /** When every requested key is a multiple of 8 the loop as written
      gathers exactly the intended candidates, in the same order. */
  lemma {:induction false} CandidatesAgreeWhenAligned(pieces: Pieces, payload: seq<Byte>)
    requires RequestedAligned(pieces)
    ensures BitfieldCandidates(pieces, payload) == BitfieldCandidatesIntended(pieces, payload)
  {
    SkipIndicesAgree(pieces, payload, 0);
  }

  /** Adding blocks whose offsets are multiples of 8 keeps the table
      aligned. */
  lemma {:induction false} AlignedBlocksKeepAligned(pieces: Pieces, blocks: seq<BlockSpec>)
    requires RequestedAligned(pieces)
    requires forall m :: 0 <= m < |blocks| ==> blocks[m].offset % 8 == 0
    ensures RequestedAligned(AddAll(pieces, blocks))
  {
    forall k | k in AddAll(pieces, blocks).requested
      ensures k % 8 == 0
    {
      InRequestedIffAdded(pieces, blocks, k);
    }
  }

  /** Adding the blocks of a piece keeps the table aligned when the block
      size is a multiple of 8, as the 16 KiB of `new Pieces` is. */
  lemma {:induction false} PieceBlocksKeepAligned(pieces: Pieces, index: nat)
    requires RequestedAligned(pieces) && pieces.blockSize > 0 && pieces.blockSize % 8 == 0
    ensures RequestedAligned(AddAll(pieces, GetBlocksForPiece(pieces, index)))
  {
    var blocks := GetBlocksForPiece(pieces, index);
    forall m | 0 <= m < |blocks|
      ensures blocks[m].offset % 8 == 0
    {
      assert blocks[m].offset == m * pieces.blockSize;
      MultipleOf8(m, pieces.blockSize);
    }
    AlignedBlocksKeepAligned(pieces, blocks);
  }

  lemma {:induction false} MultipleOf8(m: nat, size: nat)
    requires size % 8 == 0
    ensures (m * size) % 8 == 0
  {
    var q := size / 8;
    assert m * size == 8 * (m * q);
  }

  /** Index x is listed by the byte loop from step j exactly when it lies in
      [base, base + 7 - j] and bit `base + 7 - j - x` of `cur` is set. */
  lemma {:induction false} LsbByteMember(cur: nat, base: nat, j: nat, x: nat)
    requires j <= 8
    ensures x in LsbByte(cur, base, j) <==> base <= x && x + j <= base + 7 && BitSet(cur, base + 7 - j - x)
    decreases 8 - j
  {
    if j < 8 {
      LsbByteMember(cur / 2, base, j + 1, x);
      LsbByteMemberStep(cur, base, j, x);
    }
  }

  /** One step of the byte loop, given the membership of the steps after
      it. */
  lemma {:induction false} LsbByteMemberStep(cur: nat, base: nat, j: nat, x: nat)
    requires j < 8
    requires x in LsbByte(cur / 2, base, j + 1) <==>
      base <= x && x + j + 1 <= base + 7 && BitSet(cur / 2, base + 7 - (j + 1) - x)
    ensures x in LsbByte(cur, base, j) <==> base <= x && x + j <= base + 7 && BitSet(cur, base + 7 - j - x)
  {
    LsbByteStep(cur, base, j, x);
    if base <= x && x + j <= base + 7 {
      BitSetStep(cur, base + 7 - j - x);
    }
  }

  /** Bit n of `cur` is its low bit, or bit n - 1 of `cur / 2`. */
  lemma {:induction false} BitSetStep(cur: nat, n: nat)
    ensures BitSet(cur, n) <==> if n == 0 then cur % 2 == 1 else BitSet(cur / 2, n - 1)
  {
  }

  /** One step of the byte loop: the low bit lists `base + 7 - j`, the
      rest of the byte is shifted down. */
  lemma {:induction false} LsbByteStep(cur: nat, base: nat, j: nat, x: nat)
    requires j < 8
    ensures x in LsbByte(cur, base, j) <==>
      (x == base + 7 - j && cur % 2 == 1) || x in LsbByte(cur / 2, base, j + 1)
  {
    var head := if cur % 2 == 1 then [base + 7 - j] else [];
    assert LsbByte(cur, base, j) == head + LsbByte(cur / 2, base, j + 1);
  }

  /** One step of the outer loop: an index is listed from byte `i` when
      byte `i` lists it or a later byte does. */
  lemma {:induction false} LsbIndicesStep(payload: seq<Byte>, i: nat, k: nat)
    requires i < |payload|
    ensures k in LsbIndices(payload, i) <==>
      k in LsbByte(payload[i], 8 * i, 0) || k in LsbIndices(payload, i + 1)
  {
    assert LsbIndices(payload, i) == LsbByte(payload[i], 8 * i, 0) + LsbIndices(payload, i + 1);
  }

  lemma {:induction false} LsbIndicesMember(payload: seq<Byte>, i: nat, k: nat)
    requires i <= |payload| && 8 * i <= k
    ensures k in LsbIndices(payload, i) <==> Advertised(payload, k)
    decreases |payload| - i
  {
    if i < |payload| {
      if k >= 8 * i + 8 {
        LsbIndicesMember(payload, i + 1, k);
      }
      LsbIndicesMemberStep(payload, i, k);
    }
  }

  /** Byte `i` decides the indices of its own range; later ones as the
      bytes after it list them. */
  lemma {:induction false} LsbIndicesMemberStep(payload: seq<Byte>, i: nat, k: nat)
    requires i < |payload| && 8 * i <= k
    requires k >= 8 * i + 8 ==> (k in LsbIndices(payload, i + 1) <==> Advertised(payload, k))
    ensures k in LsbIndices(payload, i) <==> Advertised(payload, k)
  {
    LsbIndicesStep(payload, i, k);
    if k < 8 * i + 8 {
      LsbIndicesInHead(payload, i, k);
    } else {
      LsbByteMember(payload[i], 8 * i, 0, k);
    }
  }

  /** An index of byte `i`'s own range is listed when its bit is set. */
  lemma {:induction false} LsbIndicesInHead(payload: seq<Byte>, i: nat, k: nat)
    requires i < |payload| && 8 * i <= k < 8 * i + 8
    ensures k in LsbByte(payload[i], 8 * i, 0) || k in LsbIndices(payload, i + 1) <==> Advertised(payload, k)
  {
    LsbByteOwnRange(payload, i, k);
    LsbIndicesAtLeast(payload, i + 1);
    HeadAdvertised(payload, i, k);
  }

  /** The byte loop over byte `i`, run in full, lists index k of its range
      exactly when bit `8i + 7 - k` is set. */
  lemma {:induction false} LsbByteOwnRange(payload: seq<Byte>, i: nat, k: nat)
    requires i < |payload| && 8 * i <= k < 8 * i + 8
    ensures k in LsbByte(payload[i], 8 * i, 0) <==> BitSet(payload[i], 8 * i + 7 - k)
  {
    assert 0 <= payload[i] < 0x100;
    LsbByteMember(payload[i], 8 * i, 0, k);
  }

  lemma {:induction false} LsbByteAtLeast(cur: nat, base: nat, j: nat)
    requires j <= 8
    ensures forall y :: y in LsbByte(cur, base, j) ==> base <= y
    decreases 8 - j
  {
    if j < 8 {
      LsbByteAtLeast(cur / 2, base, j + 1);
    }
  }

  /** Bytes from `i` on list only indices from `8 * i` on. */
  lemma {:induction false} LsbIndicesAtLeast(payload: seq<Byte>, i: nat)
    requires i <= |payload|
    ensures forall y :: y in LsbIndices(payload, i) ==> 8 * i <= y
    decreases |payload| - i
  {
    if i < |payload| {
      LsbIndicesAtLeast(payload, i + 1);
      LsbByteAtLeast(payload[i], 8 * i, 0);
      assert LsbIndices(payload, i) == LsbByte(payload[i], 8 * i, 0) + LsbIndices(payload, i + 1);
    }
  }

  /** Reading bits from the low end, halving on every step, and numbering
      them `i*8 + (7 - j)` gives the same set as the MSB-first decoding of
      lib/torrentHelpers.js; the intended candidates are that set less the
      indices the piece table reports as requested. */
  lemma {:induction false} LsbSameSetAsMsb(pieces: Pieces, payload: seq<Byte>)
    ensures forall k :: k in LsbIndices(payload, 0) <==> k in PiecesFromBitfield(payload)
    ensures forall k :: k in BitfieldCandidatesIntended(pieces, payload) <==>
      Advertised(payload, k) && !IsPieceInRequested(pieces, k)
  {
    PiecesFromBitfieldSpec(payload);
    forall k: nat
      ensures k in LsbIndices(payload, 0) <==> Advertised(payload, k)
      ensures k in BitfieldCandidatesIntended(pieces, payload) <==>
        k in LsbIndices(payload, 0) && !IsPieceInRequested(pieces, k)
    {
      LsbIndicesMember(payload, 0, k);
      IntendedIndicesMember(pieces, payload, 0, k);
    }
  }

  /** `handleBitfield(payload)` of core/peer_protocol.js: when unchoked and
      interested it requests the last queued block (a TypeError when there
      is none), otherwise it sends interest. */
  function HandleBitfield(p: ProtocolPeer, payload: seq<Byte>): (r: Step)
    ensures r.peer.buffer == p.buffer && r.peer.handshaken == p.handshaken
    ensures !p.peerChoking && p.amInterested ==> r == RequestLastBlock(p)
    ensures p.peerChoking || !p.amInterested ==> r == SendInterest(p)
  {
    if !p.peerChoking && p.amInterested then RequestLastBlock(p) else SendInterest(p)
  }

  /** The `switch` on the message id. The top-level class handles only id
      5, and its handler changes nothing. */
  function Handle(v: Snapshot, p: ProtocolPeer, id: Byte, payload: seq<Byte>): (r: Step)
    ensures r.peer.buffer == p.buffer && r.peer.handshaken == p.handshaken
    ensures v == RootSnapshot ==> r == Step(p, [], None)
    ensures v == CoreSnapshot && id == 0 ==> r == Step(p.(peerChoking := true), [], None)
    ensures v == CoreSnapshot && id == 1 ==> r == HandleUnchoke(p)
    ensures v == CoreSnapshot && id == 5 ==> r == HandleBitfield(p, payload)
    ensures v == CoreSnapshot && id !in {0, 1, 5} ==> r == Step(p, [], None)
  {
    if v == RootSnapshot then Step(p, [], None)
    else if id == 0 then Step(p.(peerChoking := true), [], None)
    else if id == 1 then HandleUnchoke(p)
    else if id == 5 then HandleBitfield(p, payload)
    else Step(p, [], None)
  }

  // ----------------------------------------------------------- framing

  /** The first loop of `listenData`: while not handshaken and 68 bytes
      are buffered, consume 68 and accept them if bytes 28..48 are the
      info-hash in hex. A mismatch is simply skipped. */
  function HandshakeLoop(p: ProtocolPeer): (r: ProtocolPeer)
    decreases |p.buffer|
  {
    if |p.buffer| >= 4 && !p.handshaken && |p.buffer| >= 68 then
      var q := p.(buffer := p.buffer[68..]);
      if Hex(p.buffer[28..48]) == p.infoHash then q.(handshaken := true) else HandshakeLoop(q)
    else p
  }

  /** Whether 68-byte chunk `m` of `buf` carries the info-hash. */
  predicate ChunkMatches(buf: seq<Byte>, m: nat, infoHash: string)
    requires 68 * m + 68 <= |buf|
  {
    Hex(buf[68 * m + 28..68 * m + 48]) == infoHash
  }

  /** What the handshake loop promises: it consumes whole 68-byte chunks
      and nothing else changes but the flag; it stops at the first chunk
      that matches, and without one it consumes every whole chunk. An
      established connection is left alone. */
  predicate HandshakeLoopCorrect(p: ProtocolPeer)
  {
    var r := HandshakeLoop(p);
    && r == p.(buffer := r.buffer, handshaken := r.handshaken)
    && (p.handshaken ==> r == p)
    && |r.buffer| <= |p.buffer| && (|p.buffer| - |r.buffer|) % 68 == 0
    && r.buffer == p.buffer[|p.buffer| - |r.buffer|..]
    && (!p.handshaken ==>
          var n := (|p.buffer| - |r.buffer|) / 68;
          && (forall m :: 0 <= m < n - 1 ==> !ChunkMatches(p.buffer, m, p.infoHash))
          && (r.handshaken <==> n > 0 && ChunkMatches(p.buffer, n - 1, p.infoHash))
          && (!r.handshaken ==> |r.buffer| < 68))
  }

  lemma {:induction false} HandshakeLoopSpec(p: ProtocolPeer)
    ensures HandshakeLoopCorrect(p)
    decreases |p.buffer|
  {
    if |p.buffer| >= 68 && !p.handshaken {
      if ChunkMatches(p.buffer, 0, p.infoHash) {
        HandshakeLoopMatch(p);
      } else {
        HandshakeLoopSpec(p.(buffer := p.buffer[68..]));
        HandshakeLoopSkip(p);
      }
    } else {
      assert HandshakeLoop(p) == p;
      assert p.buffer[0..] == p.buffer;
    }
  }

  /** The first chunk matches: it is consumed and the flag set. */
  lemma {:induction false} HandshakeLoopMatch(p: ProtocolPeer)
    requires |p.buffer| >= 68 && !p.handshaken && ChunkMatches(p.buffer, 0, p.infoHash)
    ensures HandshakeLoopCorrect(p)
  {
    assert p.buffer[28..48] == p.buffer[68 * 0 + 28..68 * 0 + 48];
    assert HandshakeLoop(p) == p.(buffer := p.buffer[68..], handshaken := true);
    assert (|p.buffer| - |p.buffer[68..]|) / 68 == 1;
  }

  /** The first chunk does not match: it is skipped and the loop goes on,
      with chunk m of what is left being chunk m + 1 of the whole. */
  lemma {:induction false} HandshakeLoopSkip(p: ProtocolPeer)
    requires |p.buffer| >= 68 && !p.handshaken && !ChunkMatches(p.buffer, 0, p.infoHash)
    requires HandshakeLoopCorrect(p.(buffer := p.buffer[68..]))
    ensures HandshakeLoopCorrect(p)
  {
    var buf := p.buffer;
    var q := p.(buffer := buf[68..]);
    assert buf[28..48] == buf[68 * 0 + 28..68 * 0 + 48];
    var r := HandshakeLoop(q);
    assert HandshakeLoop(p) == r;
    var n' := (|q.buffer| - |r.buffer|) / 68;
    assert |buf| - |r.buffer| == 68 * (n' + 1);
    SkippedSuffix(buf, r.buffer, n');
    ChunksShift(buf, p.infoHash, n');
  }

  /** Arithmetic of skipping one more chunk: a suffix `n` chunks into
      `buf[68..]` is `n + 1` chunks into `buf`. */
  lemma {:induction false} SkippedSuffix(buf: seq<Byte>, rest: seq<Byte>, n: nat)
    requires |buf| - |rest| == 68 * (n + 1) && rest == buf[68..][|buf| - 68 - |rest|..]
    ensures rest == buf[|buf| - |rest|..]
    ensures (|buf| - |rest|) % 68 == 0 && (|buf| - |rest|) / 68 == n + 1
    ensures (|buf| - 68 - |rest|) / 68 == n
  {
  }

  /** Chunk m of `buf[68..]` is chunk m + 1 of `buf`, so when chunk 0 of
      `buf` does not match, no chunk before n + 1 of `buf` matches exactly
      when none before n of `buf[68..]` does. */
  lemma {:induction false} ChunksShift(buf: seq<Byte>, infoHash: string, n: nat)
    requires 68 * (n + 1) <= |buf| && !ChunkMatches(buf, 0, infoHash)
    ensures (forall m :: 0 <= m < n - 1 ==> !ChunkMatches(buf[68..], m, infoHash)) ==>
      forall m :: 0 <= m < n ==> !ChunkMatches(buf, m, infoHash)
    ensures n > 0 ==> (ChunkMatches(buf[68..], n - 1, infoHash) <==> ChunkMatches(buf, n, infoHash))
  {
    forall m | 0 <= m < n
      ensures ChunkMatches(buf[68..], m, infoHash) <==> ChunkMatches(buf, m + 1, infoHash)
    {
      assert buf[68..][68 * m + 28..68 * m + 48] == buf[68 * (m + 1) + 28..68 * (m + 1) + 48];
    }
    if forall m :: 0 <= m < n - 1 ==> !ChunkMatches(buf[68..], m, infoHash) {
      forall m | 0 <= m < n
        ensures !ChunkMatches(buf, m, infoHash)
      {
        if m > 0 {
          assert !ChunkMatches(buf[68..], m - 1, infoHash);
        }
      }
    }
  }

  /** How many bytes one iteration of the message loop removes. */
  datatype Consumption = AsWritten | Intended

  /** `subarray(68)` as written: the first 68 bytes, or all of a shorter
      buffer; intended: the declared length plus its 4-byte prefix. */
  function Taken(c: Consumption, buf: seq<Byte>): (n: nat)
    requires |buf| >= 4 && |buf| >= ReadU32(buf, 0) + 4
    ensures 4 <= n <= |buf|
  {
    match c
    case AsWritten => Min(68, |buf|)
    case Intended => ReadU32(buf, 0) + 4
  }

  /** The writes of `s` after `ws`. */
  function Prepend(ws: seq<seq<Byte>>, s: Step): (r: Step)
  {
    s.(writes := ws + s.writes)
  }

  /** The second loop of `listenData`: while handshaken and the declared
      length plus 4 bytes are buffered, remove `Taken` bytes, read the id at
      byte 4 (a RangeError when fewer than 5 were taken) and dispatch the
      bytes after it. */
  function MessageLoop(v: Snapshot, c: Consumption, p: ProtocolPeer): (r: Step)
    ensures r.thrown.None? ==> r.peer.handshaken == p.handshaken
    decreases |p.buffer|
  {
    var buf := p.buffer;
    if |buf| >= 4 && p.handshaken && |buf| >= ReadU32(buf, 0) + 4 then
      var n := Taken(c, buf);
      var q := p.(buffer := buf[n..]);
      if n < 5 then Step(q, [], Some(RANGE_ERROR))
      else
        var h := Handle(v, q, buf[4], buf[5..n]);
        if h.thrown.Some? then h else Prepend(h.writes, MessageLoop(v, c, h.peer))
    else Step(p, [], None)
  }

  /** `listenData(data)`. */
  function ListenData(v: Snapshot, c: Consumption, p: ProtocolPeer, data: seq<Byte>): (r: Step)
  {
    MessageLoop(v, c, HandshakeLoop(p.(buffer := p.buffer + data)))
  }

  /** The loop never runs before the handshake, and stops, leaving the
      buffer as it is, while fewer than the declared length plus 4 bytes
      are buffered. */
  lemma {:induction false} MessageLoopWaits(v: Snapshot, c: Consumption, p: ProtocolPeer)
    requires !p.handshaken || |p.buffer| < 4 || |p.buffer| < ReadU32(p.buffer, 0) + 4
    ensures MessageLoop(v, c, p) == Step(p, [], None)
  {
  }

  /** The wire form of one message. */
  function Encoded(id: Byte, payload: seq<Byte>): (r: seq<Byte>)
    requires 1 + |payload| < U32_LIMIT
    ensures |r| == 5 + |payload| && ReadU32(r, 0) == 1 + |payload| && r[4] == id && r[5..] == payload
  {
    var r := U32(1 + |payload|) + [id] + payload;
    ReadU32Field(r, 0, 1 + |payload|);
    r
  }

  /** With the intended consumption a message at the front of the buffer
      is handled with exactly its own payload, and the loop goes on with the
      bytes after it: messages are dispatched whole and in arrival order. */
  lemma {:induction false} IntendedDispatchesInOrder(v: Snapshot, p: ProtocolPeer, id: Byte,
                                                     payload: seq<Byte>, rest: seq<Byte>)
    requires p.handshaken && 1 + |payload| < U32_LIMIT
    ensures var h := Handle(v, p.(buffer := rest), id, payload);
      MessageLoop(v, Intended, p.(buffer := Encoded(id, payload) + rest))
        == if h.thrown.Some? then h else Prepend(h.writes, MessageLoop(v, Intended, h.peer))
  {
    var m := Encoded(id, payload);
    var buf := m + rest;
    ReadBEPrefix(m, rest, 0, 4);
    assert buf[|m|..] == rest;
    assert buf[5..|m|] == payload;
  }

  /** An unchoke followed by a choke, delivered together. */
  function UnchokeThenChoke(): (r: seq<Byte>)
  {
    [0, 0, 0, 1, 1] + [0, 0, 0, 1, 0]
  }

  /** As written, the loop takes both messages as one: the unchoke is
      handled with the choke as its payload and the choke is lost, so the
      connection ends up unchoked with nothing left to read. */
  lemma {:induction false} AsWrittenLosesSecondMessage(p: ProtocolPeer)
    requires p.handshaken && p.buffer == [] && p.blocks == []
    ensures var r := ListenData(CoreSnapshot, AsWritten, p, UnchokeThenChoke());
      r.thrown.None? && !r.peer.peerChoking && r.peer.buffer == []
  {
    assert p.(buffer := p.buffer + UnchokeThenChoke()) == p.(buffer := UnchokeThenChoke());
    AsWrittenTakesBoth(p);
    var q := p.(buffer := [], peerChoking := false);
    MessageLoopWaits(CoreSnapshot, AsWritten, q);
  }

  /** The one iteration as written: all ten bytes are taken, the unchoke
      is handled with the choke's bytes as its payload. */
  lemma {:induction false} AsWrittenTakesBoth(p: ProtocolPeer)
    requires p.handshaken && p.blocks == []
    ensures MessageLoop(CoreSnapshot, AsWritten, p.(buffer := UnchokeThenChoke()))
      == MessageLoop(CoreSnapshot, AsWritten, p.(buffer := [], peerChoking := false))
  {
    var buf := UnchokeThenChoke();
    U32One();
    ReadU32Field(buf, 0, 1);
    assert Taken(AsWritten, buf) == 10;
    var q := p.(buffer := buf[10..]);
    assert buf[10..] == [];
    assert Handle(CoreSnapshot, q, buf[4], buf[5..10]) == Step(q.(peerChoking := false), [], None);
  }

  /** With the intended consumption both messages are handled in order
      and the connection ends up choked. */
  lemma {:induction false} IntendedHandlesBothMessages(p: ProtocolPeer)
    requires p.handshaken && p.buffer == [] && p.blocks == []
    ensures var r := ListenData(CoreSnapshot, Intended, p, UnchokeThenChoke());
      r.thrown.None? && r.peer.peerChoking && r.peer.buffer == []
  {
    var unchoke, choke := Encoded(1, []), Encoded(0, []);
    UnchokeThenChokeEncoded();
    assert p.(buffer := p.buffer + UnchokeThenChoke()) == p.(buffer := unchoke + choke);
    var q := p.(buffer := choke, peerChoking := false);
    IntendedUnchokeFirst(p, choke);
    var last := q.(buffer := [], peerChoking := true);
    IntendedChokeLast(q);
    assert ListenData(CoreSnapshot, Intended, p, UnchokeThenChoke()) == Step(last, [], None);
  }

  lemma {:induction false} UnchokeThenChokeEncoded()
    ensures UnchokeThenChoke() == Encoded(1, []) + Encoded(0, [])
  {
    U32One();
  }

  /** The unchoke in front: with no blocks queued it only clears the flag. */
  lemma {:induction false} IntendedUnchokeFirst(p: ProtocolPeer, rest: seq<Byte>)
    requires p.handshaken && p.blocks == []
    ensures MessageLoop(CoreSnapshot, Intended, p.(buffer := Encoded(1, []) + rest))
      == MessageLoop(CoreSnapshot, Intended, p.(buffer := rest, peerChoking := false))
  {
    IntendedDispatchesInOrder(CoreSnapshot, p, 1, [], rest);
    assert Handle(CoreSnapshot, p.(buffer := rest), 1, []) == Step(p.(buffer := rest, peerChoking := false), [], None);
  }

  /** The choke last: it sets the flag and leaves nothing to read. */
  lemma {:induction false} IntendedChokeLast(q: ProtocolPeer)
    requires q.handshaken
    ensures MessageLoop(CoreSnapshot, Intended, q.(buffer := Encoded(0, [])))
      == Step(q.(buffer := [], peerChoking := true), [], None)
  {
    IntendedDispatchesInOrder(CoreSnapshot, q, 0, [], []);
    assert Encoded(0, []) + [] == Encoded(0, []);
    MessageLoopWaits(CoreSnapshot, Intended, q.(buffer := [], peerChoking := true));
  }

  /** The interested message `sendInterest` writes, read by a BEP 3 peer:
      an interested message with three stray payload bytes, two keep-alives,
      and one stray zero byte that becomes the front of the next length
      prefix. */
  lemma {:induction false} InterestAsWrittenMisframes()
    ensures Peer.Frames(InterestAsWritten())
      == Peer.Framed([Peer.Message(2, [0, 0, 0]), Peer.KeepAlive, Peer.KeepAlive], [0])
  {
    var buf := InterestAsWritten();
    var msg := buf[..8];
    assert buf == msg + buf[8..];
    assert ReadU32(msg, 0) == 4 by { ReadBEPrefix(msg, buf[8..], 0, 4); }
    Peer.FramesHead(msg, buf[8..]);
    var z := buf[8..];
    assert z == [0, 0, 0, 0, 0, 0, 0, 0, 0];
    ZeroPrefix(z);
    ZeroPrefix(z[4..]);
    assert Peer.Frames(z[8..]) == Peer.Framed([], [0]);
    assert Peer.Frames(z[4..]) == Peer.Framed([Peer.KeepAlive], [0]);
    assert Peer.Frames(z) == Peer.Framed([Peer.KeepAlive, Peer.KeepAlive], [0]);
    assert msg[5..] == [0, 0, 0];
  }

  /** Four zero bytes read as length 0. */
  lemma {:induction false} ZeroPrefix(buf: seq<Byte>)
    requires |buf| >= 4 && buf[..4] == [0, 0, 0, 0]
    ensures ReadU32(buf, 0) == 0
  {
    assert buf[0..0 + 4] == Zeros(4);
    FromBEZeros(4);
  }

  /** The intended message: `sendInterest` writing the 5-byte interested
      message of lib/createMessages.js. */
  function SendInterestIntended(p: ProtocolPeer): (r: Step)
    ensures r.peer == p.(amInterested := true) && r.writes == [Messages.Interested()] && r.thrown.None?
  {
    Step(p.(amInterested := true), [Messages.Interested()], None)
  }

  /** Read by a BEP 3 peer, the intended message is one interested
      message and nothing else. */
  lemma {:induction false} InterestIntendedFrames()
    ensures Peer.Frames(Messages.Interested()) == Peer.Framed([Peer.Message(2, [])], [])
  {
    var buf := Messages.Interested();
    assert ReadU32(buf, 0) == 1 by { ReadU32OfU32(1); assert buf == U32(1) + [2]; ReadBEPrefix(U32(1), [2], 0, 4); }
    Peer.FramesHead(buf, []);
    assert buf + [] == buf;
  }
}

=== FILE: piece_files.dfy ===
/** The file layout of a torrent and the mapping of a verified piece onto
    file writes: `initializeFileStart`, `getFilesForPieceIndex` and the
    overlap arithmetic of `savePieceToFile` in core/Pieces.js. Offsets are
    global byte positions in the concatenation of all files. */
module PieceFiles {
  import opened Common
  import opened Bytes
  import opened Text

  /** A file entry of the torrent's info dictionary. An entry is copied with
      the spread operator after `index` and `start` are set, so keys of the
      entry by those names (absent in a well-formed torrent) win. */
  datatype TorrentFile = TorrentFile(length: nat, path: seq<string>, start: Option<int>, index: Option<int>)

  /** A file entry after `initializeFileStart`. */
  datatype PlacedFile = PlacedFile(index: int, start: int, length: nat, path: seq<string>)

  /** One `saveBufferToFile(path, data, offset)` call. */
  datatype FileWrite = FileWrite(path: string, offset: int, data: seq<Byte>)

  function FileEnd(f: PlacedFile): int
  {
    f.start + f.length
  }

  function TotalLength(files: seq<TorrentFile>): nat
  {
    if |files| == 0 then 0 else files[0].length + TotalLength(files[1..])
  }

  /** The `map` of `initializeFileStart` from position `i`, with `curr` the
      running sum of the lengths before it. */
  function PlaceFrom(files: seq<TorrentFile>, curr: int, i: nat): (r: seq<PlacedFile>)
    decreases |files|
  {
    if |files| == 0 then []
    else
      var f := files[0];
      var placed := PlacedFile(
        if f.index.Some? then f.index.value else i,
        if f.start.Some? then f.start.value else curr,
        f.length, f.path);
      [placed] + PlaceFrom(files[1..], curr + f.length, i + 1)
  }

  /** `initializeFileStart()`. */
  function PlaceFiles(files: seq<TorrentFile>): seq<PlacedFile>
  {
    PlaceFrom(files, 0, 0)
  }

  predicate Plain(files: seq<TorrentFile>)
  {
    forall k :: 0 <= k < |files| ==> files[k].start.None? && files[k].index.None?
  }

  /** Files laid end to end from `at`. */
  predicate Contiguous(files: seq<PlacedFile>, at: int)
    decreases |files|
  {
    |files| == 0 || (files[0].start == at && Contiguous(files[1..], at + files[0].length))
  }

  lemma {:induction false} PlaceFromSpec(files: seq<TorrentFile>, curr: int, i: nat)
    requires Plain(files)
    ensures var r := PlaceFrom(files, curr, i);
      && |r| == |files|
      && Contiguous(r, curr)
      && forall k :: 0 <= k < |r| ==>
           && r[k].index == i + k
           && r[k].start == curr + TotalLength(files[..k])
           && r[k].length == files[k].length && r[k].path == files[k].path
    decreases |files|
  {
    if |files| > 0 {
      var rest := files[1..];
      assert Plain(rest) by {
        forall k | 0 <= k < |rest|
          ensures rest[k].start.None? && rest[k].index.None?
        {
          assert rest[k] == files[k + 1];
        }
      }
      PlaceFromSpec(rest, curr + files[0].length, i + 1);
      var r := PlaceFrom(files, curr, i);
      assert r[1..] == PlaceFrom(rest, curr + files[0].length, i + 1);
      forall k | 0 <= k < |r|
        ensures r[k].start == curr + TotalLength(files[..k])
      {
        if k > 0 {
          assert files[..k][1..] == rest[..k - 1];
          assert r[k] == r[1..][k - 1];
        } else {
          assert files[..0] == [];
        }
      }
    }
  }

  /** For entries with no `start`/`index` keys of their own, file k gets
      index k and starts at the sum of the lengths of files 0..k-1, so the
      files lie end to end from 0. */
  lemma {:induction false} PlaceFilesPrefixSums(files: seq<TorrentFile>)
    requires Plain(files)
    ensures var r := PlaceFiles(files);
      && |r| == |files|
      && Contiguous(r, 0)
      && forall k :: 0 <= k < |r| ==>
           r[k].index == k && r[k].start == TotalLength(files[..k])
           && r[k].length == files[k].length && r[k].path == files[k].path
  {
    PlaceFromSpec(files, 0, 0);
  }

  /** The test of `getFilesForPieceIndex`: the file's range meets the
      piece range [pieceStart, pieceEnd). */
  predicate Intersects(f: PlacedFile, pieceStart: int, pieceEnd: int)
  {
    pieceStart < FileEnd(f) && pieceEnd > f.start
  }

  /** `getFilesForPieceIndex`: the files whose range meets the piece, the
      scan stopping at the first file starting at or after the piece end. */
  function FilesForPiece(files: seq<PlacedFile>, pieceStart: int, pieceEnd: int): (r: seq<PlacedFile>)
    decreases |files|
  {
    if |files| == 0 then []
    else
      var f := files[0];
      var here := if Intersects(f, pieceStart, pieceEnd) then [f] else [];
      if f.start >= pieceEnd then here
      else here + FilesForPiece(files[1..], pieceStart, pieceEnd)
  }

  /** Reference definition: every file meeting the piece, in order. */
  function IntersectingFiles(files: seq<PlacedFile>, pieceStart: int, pieceEnd: int): seq<PlacedFile>
    decreases |files|
  {
    if |files| == 0 then []
    else
      var here := if Intersects(files[0], pieceStart, pieceEnd) then [files[0]] else [];
      here + IntersectingFiles(files[1..], pieceStart, pieceEnd)
  }

  predicate StartsAscending(files: seq<PlacedFile>)
  {
    forall i, j :: 0 <= i < j < |files| ==> files[i].start <= files[j].start
  }

  lemma {:induction false} NoneIntersectAfter(files: seq<PlacedFile>, pieceStart: int, pieceEnd: int, from: int)
    requires forall k :: 0 <= k < |files| ==> files[k].start >= from
    requires from >= pieceEnd
    ensures IntersectingFiles(files, pieceStart, pieceEnd) == []
    decreases |files|
  {
    if |files| > 0 {
      NoneIntersectAfter(files[1..], pieceStart, pieceEnd, from);
    }
  }

  /** With starts in ascending order (as `initializeFileStart` lays them
      out), the early exit loses nothing: the scan returns exactly the files
      that meet the piece, in order. */
  lemma {:induction false} FilesForPieceExact(files: seq<PlacedFile>, pieceStart: int, pieceEnd: int)
    requires StartsAscending(files)
    ensures FilesForPiece(files, pieceStart, pieceEnd) == IntersectingFiles(files, pieceStart, pieceEnd)
    decreases |files|
  {
    if |files| > 0 {
      var rest := files[1..];
      if files[0].start >= pieceEnd {
        forall k | 0 <= k < |rest|
          ensures rest[k].start >= files[0].start
        {
          assert rest[k] == files[k + 1];
        }
        NoneIntersectAfter(rest, pieceStart, pieceEnd, files[0].start);
      } else {
        FilesForPieceExact(rest, pieceStart, pieceEnd);
      }
    }
  }

  lemma {:induction false} ContiguousAscending(files: seq<PlacedFile>, at: int)
    requires Contiguous(files, at)
    ensures StartsAscending(files)
    ensures forall k :: 0 <= k < |files| ==> files[k].start >= at
    decreases |files|
  {
    if |files| > 0 {
      ContiguousAscending(files[1..], at + files[0].length);
      forall i, j | 0 <= i < j < |files|
        ensures files[i].start <= files[j].start
      {
        assert files[j] == files[1..][j - 1];
        if i > 0 {
          assert files[i] == files[1..][i - 1];
        }
      }
      forall k | 0 <= k < |files|
        ensures files[k].start >= at
      {
        if k > 0 {
          assert files[k] == files[1..][k - 1];
        }
      }
    }
  }

  /** The bytes `savePieceToFile` takes from the piece buffer for one file:
      `subarray(bufferSliceStart, bufferSliceStart + bytesToWrite)`. */
  function OverlapData(f: PlacedFile, pieceStart: int, buffer: seq<Byte>): seq<Byte>
  {
    var overlapStart := Max(pieceStart, f.start);
    var overlapEnd := Min(pieceStart + |buffer|, FileEnd(f));
    var bufferSliceStart := overlapStart - pieceStart;
    var bytesToWrite := overlapEnd - overlapStart;
    Subarray(buffer, bufferSliceStart, bufferSliceStart + bytesToWrite)
  }

  /** The write `savePieceToFile` issues for one selected file. */
  function WriteFor(f: PlacedFile, pieceStart: int, buffer: seq<Byte>, root: string): FileWrite
  {
    var overlapStart := Max(pieceStart, f.start);
    FileWrite(root + Join(f.path, "/"), overlapStart - f.start, OverlapData(f, pieceStart, buffer))
  }

  /** The loop of `savePieceToFile` over the selected files. */
  function WritesFor(selected: seq<PlacedFile>, pieceStart: int, buffer: seq<Byte>, root: string): (r: seq<FileWrite>)
    ensures |r| == |selected|
    decreases |selected|
  {
    if |selected| == 0 then []
    else
      var w := WriteFor(selected[0], pieceStart, buffer, root);
      [w] + WritesFor(selected[1..], pieceStart, buffer, root)
  }

  /** What `savePieceToFile` takes from the piece buffer for a file is the
      part of the buffer inside that file; a file that misses the piece gets
      nothing. */
  lemma {:induction false} OverlapSlice(f: PlacedFile, pieceStart: int, buffer: seq<Byte>)
    ensures OverlapData(f, pieceStart, buffer) == FileSlice(f, pieceStart, buffer)
    ensures !Intersects(f, pieceStart, pieceStart + |buffer|) ==> OverlapData(f, pieceStart, buffer) == []
  {
    var n := |buffer|;
    var bufferSliceStart := Max(pieceStart, f.start) - pieceStart;
    var sliceEnd := Min(pieceStart + n, FileEnd(f)) - pieceStart;
    assert bufferSliceStart == Max(0, f.start - pieceStart);
    assert sliceEnd == Min(n, FileEnd(f) - pieceStart);
    var lo := Clamp(f.start - pieceStart, n);
    var hi := Clamp(FileEnd(f) - pieceStart, n);
    assert Clamp(bufferSliceStart, n) == lo;
    assert Clamp(sliceEnd, n) == hi;
    assert OverlapData(f, pieceStart, buffer) == Subarray(buffer, bufferSliceStart, sliceEnd);
  }

  /** Each write to a file meeting the piece lands inside that file, at
      the offset of the overlap's start within the file, and carries the
      bytes of the piece buffer at the overlap's position within the piece:
      `min(ends) - max(starts)` of them. */
  lemma {:induction false} WriteForSpec(f: PlacedFile, pieceStart: int, buffer: seq<Byte>, root: string)
    requires Intersects(f, pieceStart, pieceStart + |buffer|)
    ensures var w := WriteFor(f, pieceStart, buffer, root);
      var overlapStart := Max(pieceStart, f.start);
      && w.path == root + Join(f.path, "/")
      && w.offset == overlapStart - f.start
      && 0 <= w.offset && w.offset + |w.data| <= f.length
      && |w.data| == Min(pieceStart + |buffer|, FileEnd(f)) - overlapStart
      && w.data == buffer[overlapStart - pieceStart..overlapStart - pieceStart + |w.data|]
  {
  }

  function ConcatData(ws: seq<FileWrite>): seq<Byte>
  {
    if |ws| == 0 then [] else ws[0].data + ConcatData(ws[1..])
  }

  /** The part of the piece buffer that lies inside a file: the buffer
      between the file's start and end, both taken relative to the piece and
      clamped to the buffer. */
  function FileSlice(f: PlacedFile, pieceStart: int, buffer: seq<Byte>): seq<Byte>
  {
    buffer[Clamp(f.start - pieceStart, |buffer|)..Clamp(FileEnd(f) - pieceStart, |buffer|)]
  }

  /** The bytes of the piece buffer inside each file of `files`, in order. */
  function AllOverlaps(files: seq<PlacedFile>, pieceStart: int, buffer: seq<Byte>): seq<Byte>
    decreases |files|
  {
    if |files| == 0 then [] else FileSlice(files[0], pieceStart, buffer) + AllOverlaps(files[1..], pieceStart, buffer)
  }

  function SumPlaced(files: seq<PlacedFile>): nat
  {
    if |files| == 0 then 0 else files[0].length + SumPlaced(files[1..])
  }

  /** Writing only the files that meet the piece saves the same bytes as
      taking the overlap of every file, since the others take none. */
  lemma {:induction false} SelectedWritesData(files: seq<PlacedFile>, pieceStart: int, buffer: seq<Byte>, root: string)
    ensures ConcatData(WritesFor(IntersectingFiles(files, pieceStart, pieceStart + |buffer|), pieceStart, buffer, root))
      == AllOverlaps(files, pieceStart, buffer)
    decreases |files|
  {
    if |files| > 0 {
      SelectedWritesData(files[1..], pieceStart, buffer, root);
      SelectedHead(files, pieceStart, buffer, root);
    }
  }

  /** The first file contributes its overlap, or nothing when it does not
      meet the piece. */
  lemma {:induction false} SelectedHead(files: seq<PlacedFile>, pieceStart: int, buffer: seq<Byte>, root: string)
    requires |files| > 0
    ensures ConcatData(WritesFor(IntersectingFiles(files, pieceStart, pieceStart + |buffer|), pieceStart, buffer, root))
      == FileSlice(files[0], pieceStart, buffer)
         + ConcatData(WritesFor(IntersectingFiles(files[1..], pieceStart, pieceStart + |buffer|), pieceStart, buffer, root))
  {
    var pieceEnd := pieceStart + |buffer|;
    var f := files[0];
    var selRest := IntersectingFiles(files[1..], pieceStart, pieceEnd);
    OverlapSlice(f, pieceStart, buffer);
    if Intersects(f, pieceStart, pieceEnd) {
      assert IntersectingFiles(files, pieceStart, pieceEnd) == [f] + selRest;
      var ws := WritesFor([f] + selRest, pieceStart, buffer, root);
      assert ws[1..] == WritesFor(selRest, pieceStart, buffer, root);
    } else {
      assert IntersectingFiles(files, pieceStart, pieceEnd) == selRest;
    }
  }

  /** Files lying end to end from `at` take from the piece buffer exactly
      the bytes between `at` and the end of the last file, relative to the
      piece and clamped to the buffer. */
  lemma {:induction false} ContiguousOverlaps(files: seq<PlacedFile>, at: int, pieceStart: int, buffer: seq<Byte>)
    requires Contiguous(files, at)
    ensures Clamp(at - pieceStart, |buffer|) <= Clamp(at + SumPlaced(files) - pieceStart, |buffer|)
    ensures AllOverlaps(files, pieceStart, buffer)
      == buffer[Clamp(at - pieceStart, |buffer|)..Clamp(at + SumPlaced(files) - pieceStart, |buffer|)]
    decreases |files|
  {
    if |files| > 0 {
      ContiguousOverlaps(files[1..], at + files[0].length, pieceStart, buffer);
      ContiguousStep(files, at, pieceStart, buffer);
    }
  }

  /** The first file's slice joins the slice the rest take. */
  lemma {:induction false} ContiguousStep(files: seq<PlacedFile>, at: int, pieceStart: int, buffer: seq<Byte>)
    requires |files| > 0 && Contiguous(files, at)
    requires var e := at + files[0].length;
      && Clamp(e - pieceStart, |buffer|) <= Clamp(e + SumPlaced(files[1..]) - pieceStart, |buffer|)
      && AllOverlaps(files[1..], pieceStart, buffer)
         == buffer[Clamp(e - pieceStart, |buffer|)..Clamp(e + SumPlaced(files[1..]) - pieceStart, |buffer|)]
    ensures Clamp(at - pieceStart, |buffer|) <= Clamp(at + SumPlaced(files) - pieceStart, |buffer|)
    ensures AllOverlaps(files, pieceStart, buffer)
      == buffer[Clamp(at - pieceStart, |buffer|)..Clamp(at + SumPlaced(files) - pieceStart, |buffer|)]
  {
    var e := at + files[0].length;
    var lo := Clamp(at - pieceStart, |buffer|);
    var mid := Clamp(e - pieceStart, |buffer|);
    var hi := Clamp(e + SumPlaced(files[1..]) - pieceStart, |buffer|);
    SliceConcat(buffer, lo, mid, hi);
  }

  lemma {:induction false} SliceConcat(buffer: seq<Byte>, lo: nat, mid: nat, hi: nat)
    requires lo <= mid <= hi <= |buffer|
    ensures buffer[lo..mid] + buffer[mid..hi] == buffer[lo..hi]
  {
  }

  /** When the files lie end to end from 0 and the piece lies inside them,
      the writes split the piece buffer exactly: their data, in order,
      concatenate to the whole buffer, so they are pairwise disjoint and
      together cover the piece. */
  lemma {:induction false} SavedWritesCoverPiece(files: seq<PlacedFile>, pieceStart: int, buffer: seq<Byte>, root: string)
    requires Contiguous(files, 0)
    requires 0 <= pieceStart && pieceStart + |buffer| <= SumPlaced(files)
    ensures ConcatData(WritesFor(FilesForPiece(files, pieceStart, pieceStart + |buffer|), pieceStart, buffer, root))
              == buffer
  {
    ContiguousAscending(files, 0);
    FilesForPieceExact(files, pieceStart, pieceStart + |buffer|);
    SelectedWritesData(files, pieceStart, buffer, root);
    ContiguousOverlaps(files, 0, pieceStart, buffer);
    assert buffer[0..|buffer|] == buffer;
  }
}

=== FILE: pieces_store.dfy ===
/** The piece and block bookkeeping of a download: class `Pieces` of
    core/Pieces.js. The object's fields become a `Store` value and each
    method a function from a store to its successor; SHA-1 is a parameter
    of the functions that hash, and file writes are returned as records. */
module PieceStore {
  import opened Common
  import opened Bytes
  import opened Text
  import opened PieceFiles

  // ------------------------------------------------------------ geometry

  /** The three numbers the constructor is given about the content. */
  datatype Geometry = Geometry(totalPieces: nat, pieceLength: nat, totalFileLength: nat)

  /** `getPieceLength(i)`: the nominal length for all pieces but the last;
      the last (and any index past it) gets what the content leaves over,
      or a full piece when the content is a whole number of pieces. */
  function PieceLength(g: Geometry, i: nat): (r: nat)
    requires g.pieceLength > 0
    ensures 0 < r <= g.pieceLength
  {
    if i < g.totalPieces - 1 then g.pieceLength
    else
      var last := g.totalFileLength % g.pieceLength;
      if last == 0 then g.pieceLength else last
  }

  /** The lengths of pieces 0..n-1. */
  function SumPieceLengths(g: Geometry, n: nat): nat
    requires g.pieceLength > 0
  {
    if n == 0 then 0 else SumPieceLengths(g, n - 1) + PieceLength(g, n - 1)
  }

  /** `n` pieces are the right number for the content: the first n-1 fall
      short of it and n reach it. */
  predicate PieceCountFits(g: Geometry)
  {
    g.totalPieces > 0
    && (g.totalPieces - 1) * g.pieceLength < g.totalFileLength <= g.totalPieces * g.pieceLength
  }

  lemma MulLeft(a: int, b: int, p: int)
    requires a <= b && p >= 0
    ensures a * p <= b * p
  {
  }

  /** When the piece count fits the content, the last piece holds exactly
      the content left after the full pieces before it. */
  lemma {:induction false} LastPieceLength(g: Geometry)
    requires g.pieceLength > 0 && PieceCountFits(g)
    ensures PieceLength(g, g.totalPieces - 1) == g.totalFileLength - (g.totalPieces - 1) * g.pieceLength
  {
    var n, p, t := g.totalPieces, g.pieceLength, g.totalFileLength;
    LastPieceQuotient(n, p, t);
    if t % p == 0 {
      assert (n - 1) * p + p == n * p;
    }
  }

  /** Euclidean division of a content length that `n` pieces of `p` bytes
      fit: either `n` whole pieces, or `n - 1` and a remainder. */
  lemma {:induction false} LastPieceQuotient(n: nat, p: nat, t: nat)
    requires p > 0 && n > 0 && (n - 1) * p < t <= n * p
    ensures t % p == 0 ==> t == n * p
    ensures t % p > 0 ==> t == (n - 1) * p + t % p
  {
    var q, r := t / p, t % p;
    assert t == q * p + r && 0 <= r < p;
    if q >= n + 1 {
      MulLeft(n + 1, q, p);
      assert false;
    }
    if q + 2 <= n {
      MulLeft(q + 1, n - 1, p);
      assert false;
    }
    if q == n {
      assert r == 0;
    } else {
      assert q == n - 1;
    }
  }

  lemma {:induction false} FullPiecesSum(g: Geometry, n: nat)
    requires g.pieceLength > 0 && n < g.totalPieces
    ensures SumPieceLengths(g, n) == n * g.pieceLength
  {
    if n > 0 {
      FullPiecesSum(g, n - 1);
      assert (n - 1) * g.pieceLength + g.pieceLength == n * g.pieceLength;
    }
  }

  /** Every piece but the last is a full piece, and when the piece count
      fits the content the piece lengths add up to the content length. */
  lemma {:induction false} PieceLengthsCoverContent(g: Geometry)
    requires g.pieceLength > 0 && PieceCountFits(g)
    ensures forall i: nat :: i < g.totalPieces - 1 ==> PieceLength(g, i) == g.pieceLength
    ensures SumPieceLengths(g, g.totalPieces) == g.totalFileLength
  {
    FullPiecesSum(g, g.totalPieces - 1);
    LastPieceLength(g);
  }

  // -------------------------------------------------------------- blocks

  /** The statuses of constants/consts.js, and the boolean `true` that
      `checkIsPieceNeeded` stores into a piece's status. */
  datatype Status = Needed | Requested | Complete | AssignedTrue

  datatype Block = Block(status: Status, index: nat, offset: int, length: int)

  datatype Piece = Piece(status: Status, blocks: seq<Block>, completed: nat)

  /** `Math.ceil(len / BLOCK_SIZE)`. */
  function BlockCount(len: nat): nat
  {
    (len + BLOCK_SIZE - 1) / BLOCK_SIZE
  }

  /** The inner loop of `initializePieces` with `count` turns left and
      `offset` the lengths pushed so far: each block takes
      `min(BLOCK_SIZE, len - offset)` bytes. */
  function TileFrom(index: nat, len: nat, count: nat, offset: int): seq<Block>
    decreases count
  {
    if count == 0 then []
    else
      var length := Min(BLOCK_SIZE, len - offset);
      [Block(Needed, index, offset, length)] + TileFrom(index, len, count - 1, offset + length)
  }

  /** The blocks `initializePieces` gives piece `index` of length `len`. */
  function InitialBlocks(index: nat, len: nat): seq<Block>
  {
    TileFrom(index, len, BlockCount(len), 0)
  }

  function SumBlockLengths(blocks: seq<Block>): int
  {
    if |blocks| == 0 then 0 else blocks[0].length + SumBlockLengths(blocks[1..])
  }

  /** `count` blocks of at most BLOCK_SIZE bytes are just enough for what
      is left of the piece after `offset`. */
  predicate TileFits(len: nat, count: nat, offset: int)
  {
    0 <= offset
    && (count == 0 ==> offset == len)
    && (count > 0 ==> (count - 1) * BLOCK_SIZE < len - offset <= count * BLOCK_SIZE)
  }

  /** Each block of the loop is NEEDED, carries the piece index, lies
      inside the piece from `offset` on and is non-empty. */
  lemma {:induction false} TileFromBlocks(index: nat, len: nat, count: nat, offset: int)
    requires TileFits(len, count, offset)
    ensures |TileFrom(index, len, count, offset)| == count
    ensures forall k :: 0 <= k < count ==>
      var b := TileFrom(index, len, count, offset)[k];
      && b.status == Needed && b.index == index && offset <= b.offset < len
      && b.offset == offset + k * BLOCK_SIZE
      && b.length == Min(BLOCK_SIZE, len - b.offset) && b.length > 0
    decreases count
  {
    if count > 0 {
      var length := TileStep(len, count, offset);
      TileFromBlocks(index, len, count - 1, offset + length);
      var rest := TileFrom(index, len, count - 1, offset + length);
      forall k | 0 < k < count
        ensures TileFrom(index, len, count, offset)[k] == rest[k - 1]
        ensures offset + length + (k - 1) * BLOCK_SIZE == offset + k * BLOCK_SIZE
      {
      }
    }
  }

  /** The first block starts at `offset`, each next one where the previous
      ends, and the last ends at `len`. */
  lemma {:induction false} TileFromChain(index: nat, len: nat, count: nat, offset: int)
    requires TileFits(len, count, offset)
    ensures |TileFrom(index, len, count, offset)| == count
    ensures count > 0 ==> TileFrom(index, len, count, offset)[0].offset == offset
    ensures count > 0 ==>
      TileFrom(index, len, count, offset)[count - 1].offset + TileFrom(index, len, count, offset)[count - 1].length == len
    ensures forall k :: 0 <= k < count - 1 ==>
      TileFrom(index, len, count, offset)[k + 1].offset
        == TileFrom(index, len, count, offset)[k].offset + TileFrom(index, len, count, offset)[k].length
    decreases count
  {
    if count > 0 {
      var length := TileStep(len, count, offset);
      TileFromChain(index, len, count - 1, offset + length);
      var r := TileFrom(index, len, count, offset);
      var rest := TileFrom(index, len, count - 1, offset + length);
      assert r == [Block(Needed, index, offset, length)] + rest;
      forall k | 0 <= k < count - 1
        ensures r[k + 1].offset == r[k].offset + r[k].length
      {
        assert r[k + 1] == rest[k];
        if k > 0 {
          assert r[k] == rest[k - 1];
        }
      }
    }
  }

  /** The lengths add up to what is left of the piece after `offset`. */
  lemma {:induction false} TileFromSum(index: nat, len: nat, count: nat, offset: int)
    requires TileFits(len, count, offset)
    ensures SumBlockLengths(TileFrom(index, len, count, offset)) == len - offset
    decreases count
  {
    if count > 0 {
      var length := TileStep(len, count, offset);
      TileFromSum(index, len, count - 1, offset + length);
      var r := TileFrom(index, len, count, offset);
      assert r[1..] == TileFrom(index, len, count - 1, offset + length);
    }
  }

  /** One turn of the loop keeps the remaining count just enough; the
      block is non-empty and ends inside the piece. */
  lemma {:induction false} TileStep(len: nat, count: nat, offset: int) returns (length: int)
    requires count > 0 && TileFits(len, count, offset)
    ensures length == Min(BLOCK_SIZE, len - offset) && 0 < length
    ensures offset < len && TileFits(len, count - 1, offset + length)
    ensures count > 1 ==> length == BLOCK_SIZE
  {
    length := Min(BLOCK_SIZE, len - offset);
    if count > 1 {
      assert (count - 1) * BLOCK_SIZE == (count - 2) * BLOCK_SIZE + BLOCK_SIZE;
    }
  }

  /** `initializePieces` tiles a piece of length `len` into
      `ceil(len / BLOCK_SIZE)` blocks: the first at offset 0, each next one
      where the previous ends (so block k is at `k * BLOCK_SIZE`), each
      `min(BLOCK_SIZE, len - offset)` bytes long and non-empty, the last
      ending at `len`, the lengths adding up to `len`; all are NEEDED and
      carry the piece index. */
  lemma {:induction false} InitialBlocksTile(index: nat, len: nat)
    ensures |InitialBlocks(index, len)| == BlockCount(len)
    ensures SumBlockLengths(InitialBlocks(index, len)) == len
    ensures forall k :: 0 <= k < |InitialBlocks(index, len)| ==>
      var b := InitialBlocks(index, len)[k];
      && b.status == Needed && b.index == index && 0 <= b.offset < len
      && b.offset == k * BLOCK_SIZE
      && b.length == Min(BLOCK_SIZE, len - b.offset) && b.length > 0
    ensures |InitialBlocks(index, len)| > 0 ==> InitialBlocks(index, len)[0].offset == 0
    ensures forall k :: 0 <= k < |InitialBlocks(index, len)| - 1 ==>
      InitialBlocks(index, len)[k + 1].offset == InitialBlocks(index, len)[k].offset + InitialBlocks(index, len)[k].length
    ensures |InitialBlocks(index, len)| > 0 ==>
      var last := InitialBlocks(index, len)[|InitialBlocks(index, len)| - 1];
      last.offset + last.length == len
  {
    var c := BlockCount(len);
    BlockCountFits(len);
    TileFromBlocks(index, len, c, 0);
    TileFromChain(index, len, c, 0);
    TileFromSum(index, len, c, 0);
  }

  /** `ceil(len / BLOCK_SIZE)` blocks of at most `BLOCK_SIZE` bytes cover
      `len` bytes, and one fewer would not. */
  lemma {:induction false} BlockCountFits(len: nat)
    ensures TileFits(len, BlockCount(len), 0)
  {
    var c := BlockCount(len);
    assert c * BLOCK_SIZE <= len + BLOCK_SIZE - 1 < (c + 1) * BLOCK_SIZE;
  }

  /** Positions before `n` hold blocks in increasing offset order. */
  predicate OffsetsIncrease(blocks: seq<Block>)
  {
    forall j, k :: 0 <= j < k < |blocks| ==> blocks[j].offset < blocks[k].offset
  }

  lemma {:induction false} InitialBlocksIncrease(index: nat, len: nat)
    ensures OffsetsIncrease(InitialBlocks(index, len))
  {
    InitialBlocksTile(index, len);
    var r := InitialBlocks(index, len);
    forall j, k | 0 <= j < k < |r|
      ensures r[j].offset < r[k].offset
    {
      assert r[j].offset == j * BLOCK_SIZE && r[k].offset == k * BLOCK_SIZE;
      MulLeft(j + 1, k, BLOCK_SIZE);
      assert (j + 1) * BLOCK_SIZE == j * BLOCK_SIZE + BLOCK_SIZE;
    }
  }

  function CountStatus(blocks: seq<Block>, st: Status): nat
  {
    if |blocks| == 0 then 0
    else (if blocks[0].status == st then 1 else 0) + CountStatus(blocks[1..], st)
  }

  /** Changing one block's status moves it from one count to another. */
  lemma {:induction false} CountStatusSet(blocks: seq<Block>, k: nat, st: Status, counted: Status)
    requires k < |blocks|
    ensures CountStatus(blocks[k := blocks[k].(status := st)], counted)
      == CountStatus(blocks, counted) - (if blocks[k].status == counted then 1 else 0)
         + (if st == counted then 1 else 0)
    decreases k
  {
    var t := blocks[k := blocks[k].(status := st)];
    if k > 0 {
      CountStatusSet(blocks[1..], k - 1, st, counted);
      assert t[1..] == blocks[1..][k - 1 := blocks[1..][k - 1].(status := st)];
    } else {
      assert t[1..] == blocks[1..];
    }
  }

  lemma {:induction false} CountStatusAll(blocks: seq<Block>, st: Status)
    requires forall k :: 0 <= k < |blocks| ==> blocks[k].status == st
    ensures CountStatus(blocks, st) == |blocks|
    decreases |blocks|
  {
    if |blocks| > 0 {
      CountStatusAll(blocks[1..], st);
    }
  }

  lemma {:induction false} CountStatusNone(blocks: seq<Block>, st: Status)
    requires forall k :: 0 <= k < |blocks| ==> blocks[k].status != st
    ensures CountStatus(blocks, st) == 0
    decreases |blocks|
  {
    if |blocks| > 0 {
      CountStatusNone(blocks[1..], st);
    }
  }

  // --------------------------------------------------------------- store

  /** The fields of a `Pieces` object. `allPieces` has the keys
      0..totalPieces-1 and is a sequence here. `DOWNLOAD_FOLDER`, which the
      constants file does not define, is a field. */
  datatype Store = Store(
    name: string, downloadFolder: string, pieceHashes: seq<string>, geo: Geometry,
    files: seq<PlacedFile>, pieces: seq<Piece>, buffers: seq<seq<Byte>>)

  /** What the constructor sets up and every method keeps: one piece and
      one buffer per piece index, each buffer as long as its piece, and the
      blocks of each piece in increasing offset order. */
  predicate Valid(s: Store)
  {
    && s.geo.pieceLength > 0
    && |s.pieces| == s.geo.totalPieces && |s.buffers| == s.geo.totalPieces
    && forall i :: 0 <= i < |s.pieces| ==>
         OffsetsIncrease(s.pieces[i].blocks) && |s.buffers[i]| == PieceLength(s.geo, i)
  }

  /** A piece's delivery counter is never behind its COMPLETE blocks. */
  predicate Counted(s: Store)
  {
    forall i :: 0 <= i < |s.pieces| ==> CountStatus(s.pieces[i].blocks, Complete) <= s.pieces[i].completed
  }

  /** The NEEDED blocks of all pieces. */
  function TotalNeeded(pieces: seq<Piece>): nat
  {
    if |pieces| == 0 then 0 else CountStatus(pieces[0].blocks, Needed) + TotalNeeded(pieces[1..])
  }

  lemma {:induction false} TotalNeededSet(pieces: seq<Piece>, i: nat, p: Piece)
    requires i < |pieces|
    ensures TotalNeeded(pieces[i := p])
      == TotalNeeded(pieces) - CountStatus(pieces[i].blocks, Needed) + CountStatus(p.blocks, Needed)
    decreases i
  {
    var t := pieces[i := p];
    if i > 0 {
      TotalNeededSet(pieces[1..], i - 1, p);
      assert t[1..] == pieces[1..][i - 1 := p];
    } else {
      assert t[1..] == pieces[1..];
    }
  }

  /** The constructor up to its first `runDownload`: a buffer of zeros and
      the initial blocks for every piece, and the files placed end to end. */
  function InitialStore(name: string, folder: string, hashes: seq<string>, g: Geometry,
                        files: seq<TorrentFile>): (s: Store)
    requires g.pieceLength > 0
  {
    Store(name, folder, hashes, g, PlaceFiles(files),
      seq(g.totalPieces, i requires 0 <= i < g.totalPieces => Piece(Needed, InitialBlocks(i, PieceLength(g, i)), 0)),
      seq(g.totalPieces, i requires 0 <= i < g.totalPieces => Zeros(PieceLength(g, i))))
  }

  /** A new store is valid and counted; every piece is NEEDED with nothing
      delivered, its blocks (all NEEDED) tile it, and its buffer is zeros. */
  lemma {:induction false} InitialStoreSpec(name: string, folder: string, hashes: seq<string>, g: Geometry,
                                            files: seq<TorrentFile>)
    requires g.pieceLength > 0
    ensures Valid(InitialStore(name, folder, hashes, g, files))
    ensures Counted(InitialStore(name, folder, hashes, g, files))
    ensures forall i :: 0 <= i < g.totalPieces ==>
      var p := InitialStore(name, folder, hashes, g, files).pieces[i];
      && p.status == Needed && p.completed == 0
      && |p.blocks| == BlockCount(PieceLength(g, i)) && CountStatus(p.blocks, Needed) == |p.blocks|
      && SumBlockLengths(p.blocks) == PieceLength(g, i)
    ensures forall i :: 0 <= i < g.totalPieces ==>
      InitialStore(name, folder, hashes, g, files).buffers[i] == Zeros(PieceLength(g, i))
  {
    var s := InitialStore(name, folder, hashes, g, files);
    forall i | 0 <= i < g.totalPieces
      ensures OffsetsIncrease(s.pieces[i].blocks)
      ensures CountStatus(s.pieces[i].blocks, Complete) == 0
      ensures |s.pieces[i].blocks| == BlockCount(PieceLength(g, i))
      ensures CountStatus(s.pieces[i].blocks, Needed) == |s.pieces[i].blocks|
      ensures SumBlockLengths(s.pieces[i].blocks) == PieceLength(g, i)
    {
      var len := PieceLength(g, i);
      InitialBlocksTile(i, len);
      InitialBlocksIncrease(i, len);
      CountStatusAll(InitialBlocks(i, len), Needed);
      CountStatusNone(InitialBlocks(i, len), Complete);
    }
  }

  // ------------------------------------------------------------ lookups

  /** The three `find`/scan tests over a piece's blocks. */
  datatype BlockQuery = NeededBlock | AtOffset(offset: int) | Matching(offset: int, length: int)

  predicate Matches(q: BlockQuery, b: Block)
  {
    match q
    case NeededBlock => b.status == Needed
    case AtOffset(offset) => b.offset == offset
    case Matching(offset, length) => b.offset == offset && b.length == length
  }

  /** `blocks.find(...)`, as the position of the first block that
      matches. */
  function FindBlock(blocks: seq<Block>, q: BlockQuery): (r: Option<nat>)
    ensures r.None? <==> forall k :: 0 <= k < |blocks| ==> !Matches(q, blocks[k])
    ensures r.Some? ==> r.value < |blocks| && Matches(q, blocks[r.value])
    ensures r.Some? ==> forall j :: 0 <= j < r.value ==> !Matches(q, blocks[j])
    decreases |blocks|
  {
    if |blocks| == 0 then None
    else if Matches(q, blocks[0]) then Some(0)
    else match FindBlock(blocks[1..], q)
      case None => None
      case Some(k) => Some(k + 1)
  }

  /** Among blocks in increasing offset order, a block with a given offset
      is the first to have it. */
  lemma {:induction false} FindByOffset(blocks: seq<Block>, k: nat, q: BlockQuery)
    requires OffsetsIncrease(blocks) && k < |blocks|
    requires q == AtOffset(blocks[k].offset) || q == Matching(blocks[k].offset, blocks[k].length)
    ensures FindBlock(blocks, q) == Some(k)
  {
    assert Matches(q, blocks[k]);
  }

  /** Store `s` with the status of block k of piece i set to `st`. */
  function SetBlockStatus(s: Store, i: nat, k: nat, st: Status): (t: Store)
    requires i < |s.pieces| && k < |s.pieces[i].blocks|
    ensures Valid(s) ==> Valid(t)
    ensures t.buffers == s.buffers && |t.pieces| == |s.pieces|
    ensures forall j :: 0 <= j < |s.pieces| && j != i ==> t.pieces[j] == s.pieces[j]
    ensures t.pieces[i].status == s.pieces[i].status && t.pieces[i].completed == s.pieces[i].completed
    ensures |t.pieces[i].blocks| == |s.pieces[i].blocks|
    ensures t.pieces[i].blocks[k] == s.pieces[i].blocks[k].(status := st)
    ensures forall m :: 0 <= m < |s.pieces[i].blocks| && m != k ==> t.pieces[i].blocks[m] == s.pieces[i].blocks[m]
  {
    var p := s.pieces[i];
    var t := s.(pieces := s.pieces[i := p.(blocks := p.blocks[k := p.blocks[k].(status := st)])]);
    assert Valid(s) ==> OffsetsIncrease(t.pieces[i].blocks) by {
      if Valid(s) {
        assert OffsetsIncrease(p.blocks);
      }
    }
    t
  }

  // --------------------------------------------- which piece, which block

  datatype Checked = Checked(needed: bool, store: Store)

  /** `checkIsPieceNeeded(index)` as written. Line 220 assigns `true` to
      the piece's status instead of comparing it with NEEDED, so an existing
      piece is reported needed whatever its status, and its status is
      overwritten. */
  function CheckIsPieceNeeded(s: Store, index: nat): (r: Checked)
    ensures Valid(s) ==> Valid(r.store)
    ensures r.needed <==> index < |s.pieces|
    ensures !r.needed ==> r.store == s
    ensures r.needed ==>
      && r.store.buffers == s.buffers && |r.store.pieces| == |s.pieces|
      && (forall j :: 0 <= j < |s.pieces| && j != index ==> r.store.pieces[j] == s.pieces[j])
      && r.store.pieces[index].status == AssignedTrue
      && r.store.pieces[index].blocks == s.pieces[index].blocks
      && r.store.pieces[index].completed == s.pieces[index].completed
  {
    if index < |s.pieces| then
      var t := s.(pieces := s.pieces[index := s.pieces[index].(status := AssignedTrue)]);
      assert Valid(s) ==> Valid(t) by {
        if Valid(s) {
          assert OffsetsIncrease(s.pieces[index].blocks);
        }
      }
      Checked(true, t)
    else Checked(false, s)
  }

  datatype Pick = Pick(piece: Option<nat>, store: Store)

  /** `getPieceNeededForPeer(bitfieldArr)` as written: the first entry
      that is an existing piece index, or null; the check overwrites that
      piece's status. */
  function PieceNeededForPeer(s: Store, bitfield: seq<nat>): (r: Pick)
    ensures r.piece.None? <==> forall k :: 0 <= k < |bitfield| ==> bitfield[k] >= |s.pieces|
    ensures r.piece.None? ==> r.store == s
    ensures r.piece.Some? ==>
      && r.piece.value < |s.pieces|
      && (exists k :: 0 <= k < |bitfield| && bitfield[k] == r.piece.value
            && forall j :: 0 <= j < k ==> bitfield[j] >= |s.pieces|)
      && r.store == CheckIsPieceNeeded(s, r.piece.value).store
    decreases |bitfield|
  {
    if |bitfield| == 0 then Pick(None, s)
    else
      var c := CheckIsPieceNeeded(s, bitfield[0]);
      if c.needed then Pick(Some(bitfield[0]), c.store)
      else
        var r := PieceNeededForPeer(s, bitfield[1..]);
        assert r.piece.Some? ==> exists k :: (0 <= k < |bitfield| && bitfield[k] == r.piece.value
            && forall j :: 0 <= j < k ==> bitfield[j] >= |s.pieces|) by {
          if r.piece.Some? {
            var k :| 0 <= k < |bitfield[1..]| && bitfield[1..][k] == r.piece.value
              && forall j :: 0 <= j < k ==> bitfield[1..][j] >= |s.pieces|;
            assert bitfield[k + 1] == r.piece.value;
            assert forall j :: 0 <= j < k + 1 ==> bitfield[j] >= |s.pieces| by {
              forall j | 0 < j < k + 1
                ensures bitfield[j] >= |s.pieces|
              {
                assert bitfield[j] == bitfield[1..][j - 1];
              }
            }
          }
        }
        r
  }

  /** The evidently intended `checkIsPieceNeeded`: the piece exists and is
      still NEEDED; nothing is written. */
  predicate IsPieceNeeded(s: Store, index: nat)
  {
    index < |s.pieces| && s.pieces[index].status == Needed
  }

  /** `getPieceNeededForPeer` with the intended check: the first entry
      naming a piece that is still NEEDED. */
  function PieceNeededIntended(s: Store, bitfield: seq<nat>): (r: Option<nat>)
    ensures r.None? <==> forall k :: 0 <= k < |bitfield| ==> !IsPieceNeeded(s, bitfield[k])
    ensures r.Some? ==>
      && IsPieceNeeded(s, r.value)
      && exists k :: 0 <= k < |bitfield| && bitfield[k] == r.value
           && forall j :: 0 <= j < k ==> !IsPieceNeeded(s, bitfield[j])
    decreases |bitfield|
  {
    if |bitfield| == 0 then None
    else if IsPieceNeeded(s, bitfield[0]) then Some(bitfield[0])
    else
      var r := PieceNeededIntended(s, bitfield[1..]);
      assert r.Some? ==> exists k :: (0 <= k < |bitfield| && bitfield[k] == r.value
          && forall j :: 0 <= j < k ==> !IsPieceNeeded(s, bitfield[j])) by {
        if r.Some? {
          var k :| 0 <= k < |bitfield[1..]| && bitfield[1..][k] == r.value
            && forall j :: 0 <= j < k ==> !IsPieceNeeded(s, bitfield[1..][j]);
          assert bitfield[k + 1] == r.value;
          assert forall j :: 0 <= j < k + 1 ==> !IsPieceNeeded(s, bitfield[j]) by {
            forall j | 0 < j < k + 1
              ensures !IsPieceNeeded(s, bitfield[j])
            {
              assert bitfield[j] == bitfield[1..][j - 1];
            }
          }
        }
      }
      r
  }

  /** A piece already COMPLETE is reported needed as written, and loses
      its COMPLETE status, while the intended check skips it: a peer whose
      bitfield lists it first is offered that piece rather than the next
      one still NEEDED. */
  lemma {:induction false} CompletePieceReportedNeeded(s: Store, done: nat, next: nat)
    requires done < |s.pieces| && s.pieces[done].status == Complete
    requires next < |s.pieces| && s.pieces[next].status == Needed
    ensures CheckIsPieceNeeded(s, done).needed && !IsPieceNeeded(s, done)
    ensures CheckIsPieceNeeded(s, done).store.pieces[done].status != Complete
    ensures PieceNeededForPeer(s, [done, next]).piece == Some(done)
    ensures PieceNeededIntended(s, [done, next]) == Some(next)
  {
    assert [done, next][1..] == [next];
  }

  /** `getBlockNeededForPiece(i)`: the first block of the piece that is
      NEEDED, or null when the piece does not exist or has none. */
  function GetBlockNeededForPiece(s: Store, i: nat): (r: Option<Block>)
    ensures r.Some? <==>
      i < |s.pieces| && exists k :: 0 <= k < |s.pieces[i].blocks| && s.pieces[i].blocks[k].status == Needed
    ensures r.Some? ==>
      && r.value.status == Needed
      && exists k :: (0 <= k < |s.pieces[i].blocks| && s.pieces[i].blocks[k] == r.value
           && forall j :: 0 <= j < k ==> s.pieces[i].blocks[j].status != Needed)
  {
    if i >= |s.pieces| then None
    else match FindBlock(s.pieces[i].blocks, NeededBlock)
      case None => None
      case Some(k) => Some(s.pieces[i].blocks[k])
  }

  /** With blocks in increasing offset order, the block handed out has the
      lowest offset of all NEEDED blocks of the piece. */
  lemma {:induction false} BlockNeededLowestOffset(s: Store, i: nat)
    requires Valid(s) && GetBlockNeededForPiece(s, i).Some?
    ensures forall m :: 0 <= m < |s.pieces[i].blocks| && s.pieces[i].blocks[m].status == Needed ==>
      GetBlockNeededForPiece(s, i).value.offset <= s.pieces[i].blocks[m].offset
  {
    var blocks := s.pieces[i].blocks;
    var k := FindBlock(blocks, NeededBlock).value;
    assert OffsetsIncrease(blocks);
    forall m | 0 <= m < |blocks| && blocks[m].status == Needed
      ensures blocks[k].offset <= blocks[m].offset
    {
      assert m >= k;
    }
  }

  // ----------------------------------------------------------- requested

  /** `markBlockRequested(i, block)`: the first block of piece i with the
      same offset and length becomes REQUESTED; nothing changes when the
      piece or such a block does not exist. */
  function MarkBlockRequested(s: Store, i: nat, offset: int, length: int): (r: Store)
    ensures i >= |s.pieces| || FindBlock(s.pieces[i].blocks, Matching(offset, length)).None? ==> r == s
    ensures i < |s.pieces| && FindBlock(s.pieces[i].blocks, Matching(offset, length)).Some? ==>
      r == SetBlockStatus(s, i, FindBlock(s.pieces[i].blocks, Matching(offset, length)).value, Requested)
    ensures Valid(s) ==> Valid(r)
  {
    if i >= |s.pieces| then s
    else match FindBlock(s.pieces[i].blocks, Matching(offset, length))
      case None => s
      case Some(k) => SetBlockStatus(s, i, k, Requested)
  }

  /** Requesting the block `getBlockNeededForPiece` handed out marks that
      very block REQUESTED: one NEEDED block fewer, no COMPLETE block lost,
      buffers and counters untouched. */
  lemma {:induction false} RequestNeededBlock(s: Store, i: nat)
    requires Valid(s) && GetBlockNeededForPiece(s, i).Some?
    ensures var b := GetBlockNeededForPiece(s, i).value;
      var r := MarkBlockRequested(s, i, b.offset, b.length);
      && Valid(r)
      && TotalNeeded(r.pieces) + 1 == TotalNeeded(s.pieces)
      && (forall j :: 0 <= j < |s.pieces| ==>
            CountStatus(r.pieces[j].blocks, Complete) == CountStatus(s.pieces[j].blocks, Complete)
            && r.pieces[j].completed == s.pieces[j].completed)
      && r.buffers == s.buffers
  {
    var blocks := s.pieces[i].blocks;
    var k := FindBlock(blocks, NeededBlock).value;
    var b := blocks[k];
    FindByOffset(blocks, k, Matching(b.offset, b.length));
    var r := SetBlockStatus(s, i, k, Requested);
    assert r.pieces == s.pieces[i := r.pieces[i]];
    assert r.pieces[i].blocks == blocks[k := b.(status := Requested)];
    CountStatusSet(blocks, k, Requested, Needed);
    CountStatusSet(blocks, k, Requested, Complete);
    TotalNeededSet(s.pieces, i, r.pieces[i]);
  }

  // ------------------------------------------------- delivery and hashing

  /** What a call that may end in a file save produces: the next store,
      the writes issued, and the exception that ended the call, if any
      (the store then keeps what was done before the throw). */
  datatype Step = Step(store: Store, writes: seq<FileWrite>, thrown: Option<string>)

  /** The directory the files of the torrent are written under. */
  function SaveRoot(s: Store): string
  {
    s.downloadFolder + s.name + "/"
  }

  /** `savePieceToFile(i)`: one write per file the piece meets, of the
      part of the piece buffer inside that file. */
  function SavePieceToFile(s: Store, i: nat): seq<FileWrite>
    requires s.geo.pieceLength > 0 && i < |s.buffers|
  {
    var pieceStart := i * s.geo.pieceLength;
    WritesFor(FilesForPiece(s.files, pieceStart, pieceStart + PieceLength(s.geo, i)),
              pieceStart, s.buffers[i], SaveRoot(s))
  }

  /** When the files lie end to end from 0 and piece i lies inside them,
      the writes of `savePieceToFile` carry the whole piece buffer, each
      byte once and in order. */
  lemma {:induction false} SavedPieceCoversBuffer(s: Store, i: nat)
    requires Valid(s) && i < |s.pieces|
    requires Contiguous(s.files, 0)
    requires i * s.geo.pieceLength + PieceLength(s.geo, i) <= SumPlaced(s.files)
    ensures ConcatData(SavePieceToFile(s, i)) == s.buffers[i]
  {
    var pieceStart := i * s.geo.pieceLength;
    var buffer := s.buffers[i];
    MulLeft(0, i, s.geo.pieceLength);
    assert |buffer| == PieceLength(s.geo, i);
    assert SavePieceToFile(s, i)
      == WritesFor(FilesForPiece(s.files, pieceStart, pieceStart + |buffer|), pieceStart, buffer, SaveRoot(s));
    SavedWritesCoverPiece(s.files, pieceStart, buffer, SaveRoot(s));
  }

  /** The hash check of `verifyPiece`: the stored hash text equals the hex
      digest of the buffer. */
  predicate HashMatches(s: Store, sha1: seq<Byte> -> Digest, i: nat)
    requires i < |s.buffers|
  {
    i < |s.pieceHashes| && s.pieceHashes[i] == Hex(sha1(s.buffers[i]))
  }

  const NO_HASH_ERROR: string := "TypeError: Cannot read properties of undefined (reading 'toString')"

  /** `verifyPiece(i)` as written. On a match the piece becomes COMPLETE
      and is saved; on a mismatch only the buffer is replaced by zeros, as
      line 262 compares the block statuses with NEEDED instead of setting
      them. A missing stored hash throws. */
  function VerifyPiece(s: Store, sha1: seq<Byte> -> Digest, i: nat): (r: Step)
    requires Valid(s) && i < |s.pieces|
    ensures Valid(r.store) && r.store.geo == s.geo && r.store.files == s.files
    ensures |r.store.pieces| == |s.pieces| && |r.store.buffers| == |s.buffers|
    ensures r.thrown.Some? <==> i >= |s.pieceHashes|
    ensures r.thrown.Some? ==> r.store == s && r.writes == []
    ensures r.store.pieces[i].blocks == s.pieces[i].blocks
    ensures r.store.pieces[i].completed == s.pieces[i].completed
    ensures forall j :: 0 <= j < |s.pieces| && j != i ==>
      r.store.pieces[j] == s.pieces[j] && r.store.buffers[j] == s.buffers[j]
    ensures HashMatches(s, sha1, i) ==>
      r.store.pieces[i].status == Complete && r.store.buffers[i] == s.buffers[i]
      && r.writes == SavePieceToFile(s, i)
    ensures i < |s.pieceHashes| && !HashMatches(s, sha1, i) ==>
      r.store.pieces == s.pieces && r.store.buffers[i] == Zeros(PieceLength(s.geo, i)) && r.writes == []
  {
    var digestHex := Hex(sha1(s.buffers[i]));
    if i >= |s.pieceHashes| then Step(s, [], Some(NO_HASH_ERROR))
    else if s.pieceHashes[i] == digestHex then
      var t := s.(pieces := s.pieces[i := s.pieces[i].(status := Complete)]);
      Step(t, SavePieceToFile(t, i), None)
    else
      Step(s.(buffers := s.buffers[i := Zeros(PieceLength(s.geo, i))]), [], None)
  }

  /** The evidently intended `verifyPiece`: a mismatch also puts every
      block of the piece back to NEEDED and its counter to 0, so the piece
      is fetched and checked again. */
  function VerifyPieceIntended(s: Store, sha1: seq<Byte> -> Digest, i: nat): (r: Step)
    requires Valid(s) && i < |s.pieces|
    ensures Valid(r.store) && |r.store.pieces| == |s.pieces| && |r.store.buffers| == |s.buffers|
    ensures r.thrown.Some? <==> i >= |s.pieceHashes|
    ensures forall j :: 0 <= j < |s.pieces| && j != i ==>
      r.store.pieces[j] == s.pieces[j] && r.store.buffers[j] == s.buffers[j]
    ensures HashMatches(s, sha1, i) ==>
      r.store.pieces[i].status == Complete && r.store.buffers[i] == s.buffers[i]
    ensures i < |s.pieceHashes| && !HashMatches(s, sha1, i) ==>
      && r.store.pieces[i].completed == 0 && r.writes == []
      && r.store.buffers[i] == Zeros(PieceLength(s.geo, i))
      && |r.store.pieces[i].blocks| == |s.pieces[i].blocks|
      && forall k :: 0 <= k < |s.pieces[i].blocks| ==>
           r.store.pieces[i].blocks[k] == s.pieces[i].blocks[k].(status := Needed)
  {
    var digestHex := Hex(sha1(s.buffers[i]));
    if i >= |s.pieceHashes| then Step(s, [], Some(NO_HASH_ERROR))
    else if s.pieceHashes[i] == digestHex then
      var t := s.(pieces := s.pieces[i := s.pieces[i].(status := Complete)]);
      Step(t, SavePieceToFile(t, i), None)
    else
      var p := s.pieces[i];
      var reset := seq(|p.blocks|, k requires 0 <= k < |p.blocks| => p.blocks[k].(status := Needed));
      assert OffsetsIncrease(p.blocks);
      Step(s.(pieces := s.pieces[i := p.(blocks := reset, completed := 0)],
              buffers := s.buffers[i := Zeros(PieceLength(s.geo, i))]), [], None)
  }

  /** After a mismatch on a piece none of whose blocks is NEEDED (as after
      all were delivered), the code as written leaves no block to request,
      so the piece is never fetched again; the intended reset makes every
      block NEEDED, hands out the first block again and restarts the count. */
  lemma {:induction false} MismatchStrandsPiece(s: Store, sha1: seq<Byte> -> Digest, i: nat)
    requires Valid(s) && i < |s.pieces| && i < |s.pieceHashes| && !HashMatches(s, sha1, i)
    requires forall k :: 0 <= k < |s.pieces[i].blocks| ==> s.pieces[i].blocks[k].status != Needed
    ensures GetBlockNeededForPiece(VerifyPiece(s, sha1, i).store, i).None?
    ensures var t := VerifyPieceIntended(s, sha1, i).store;
      && t.pieces[i].completed == 0
      && |t.pieces[i].blocks| == |s.pieces[i].blocks|
      && (forall k :: 0 <= k < |t.pieces[i].blocks| ==>
            t.pieces[i].blocks[k] == s.pieces[i].blocks[k].(status := Needed))
      && (|s.pieces[i].blocks| > 0 ==>
            GetBlockNeededForPiece(t, i) == Some(s.pieces[i].blocks[0].(status := Needed)))
  {
    var t := VerifyPieceIntended(s, sha1, i).store;
    if |s.pieces[i].blocks| > 0 {
      assert FindBlock(t.pieces[i].blocks, NeededBlock) == Some(0) by {
        assert Matches(NeededBlock, t.pieces[i].blocks[0]);
      }
    }
  }

  /** Lines 200-206 of `markBlockDownloaded` for block k of piece i: the
      data is copied into the buffer at `blockOffset` (nothing is copied
      from the buffer's end on), the block becomes COMPLETE, and the
      delivery is counted. */
  function Delivered(s: Store, i: nat, k: nat, blockOffset: nat, data: seq<Byte>): (t: Store)
    requires Valid(s) && i < |s.pieces| && k < |s.pieces[i].blocks|
    ensures Valid(t) && t.geo == s.geo && t.files == s.files && t.pieceHashes == s.pieceHashes
    ensures |t.pieces| == |s.pieces| && |t.buffers| == |s.buffers|
    ensures forall j :: 0 <= j < |s.pieces| && j != i ==> t.pieces[j] == s.pieces[j] && t.buffers[j] == s.buffers[j]
    ensures t.pieces[i].status == s.pieces[i].status
    ensures t.pieces[i].completed == s.pieces[i].completed + 1
    ensures |t.pieces[i].blocks| == |s.pieces[i].blocks| && |t.buffers[i]| == |s.buffers[i]|
    ensures t.pieces[i].blocks[k] == s.pieces[i].blocks[k].(status := Complete)
    ensures forall m :: 0 <= m < |s.pieces[i].blocks| && m != k ==> t.pieces[i].blocks[m] == s.pieces[i].blocks[m]
    ensures forall m :: 0 <= m < Min(|data|, |s.buffers[i]| - blockOffset) ==> t.buffers[i][blockOffset + m] == data[m]
  {
    var buf := s.buffers[i];
    var copied := if blockOffset <= |buf| then CopyInto(buf, blockOffset, data) else buf;
    var t := SetBlockStatus(s, i, k, Complete);
    t.(pieces := t.pieces[i := t.pieces[i].(completed := t.pieces[i].completed + 1)],
       buffers := t.buffers[i := copied])
  }

  /** `markBlockDownloaded(i, blockOffset, data)`: nothing happens when the
      piece or a block at that offset does not exist. Otherwise the first
      block at that offset becomes COMPLETE and the piece's counter goes up
      by exactly one, even when the block was delivered before; the piece
      is verified exactly when the counter reaches the number of blocks,
      and until then the data stands in the buffer at the offset. */
  function MarkBlockDownloaded(s: Store, sha1: seq<Byte> -> Digest, i: nat, blockOffset: nat,
                               data: seq<Byte>): (r: Step)
    requires Valid(s)
    ensures Valid(r.store)
    ensures i >= |s.pieces| || FindBlock(s.pieces[i].blocks, AtOffset(blockOffset)).None? ==>
      r == Step(s, [], None)
    ensures i < |s.pieces| && FindBlock(s.pieces[i].blocks, AtOffset(blockOffset)).Some? ==>
      var k := FindBlock(s.pieces[i].blocks, AtOffset(blockOffset)).value;
      && |r.store.pieces| == |s.pieces| && |r.store.buffers| == |s.buffers|
      && |r.store.buffers[i]| == |s.buffers[i]|
      && r.store.pieces[i].completed == s.pieces[i].completed + 1
      && |r.store.pieces[i].blocks| == |s.pieces[i].blocks|
      && r.store.pieces[i].blocks[k] == s.pieces[i].blocks[k].(status := Complete)
      && (forall m :: 0 <= m < |s.pieces[i].blocks| && m != k ==>
            r.store.pieces[i].blocks[m] == s.pieces[i].blocks[m])
      && (forall j :: 0 <= j < |s.pieces| && j != i ==>
            r.store.pieces[j] == s.pieces[j] && r.store.buffers[j] == s.buffers[j])
      && (r.writes != [] || r.thrown.Some? ==> s.pieces[i].completed + 1 == |s.pieces[i].blocks|)
      && (s.pieces[i].completed + 1 == |s.pieces[i].blocks| ==>
            && (r.thrown.Some? <==> i >= |s.pieceHashes|)
            && (r.thrown.None? ==>
                  r.store.pieces[i].status == Complete || r.store.buffers[i] == Zeros(PieceLength(s.geo, i))))
      && (s.pieces[i].completed + 1 != |s.pieces[i].blocks| ==>
            && r.writes == [] && r.thrown.None?
            && r.store.pieces[i].status == s.pieces[i].status
            && forall m :: 0 <= m < Min(|data|, |s.buffers[i]| - blockOffset) ==>
                 r.store.buffers[i][blockOffset + m] == data[m])
  {
    if i >= |s.pieces| then Step(s, [], None)
    else match FindBlock(s.pieces[i].blocks, AtOffset(blockOffset))
      case None => Step(s, [], None)
      case Some(k) =>
        var t := Delivered(s, i, k, blockOffset, data);
        if t.pieces[i].completed == |t.pieces[i].blocks| then VerifyPiece(t, sha1, i)
        else Step(t, [], None)
  }

  // ------------------------------------------------------- invariants

  /** Two stores with the same blocks and delivery counters. */
  predicate SameBlocks(s: Store, t: Store)
  {
    |t.pieces| == |s.pieces|
    && forall j :: 0 <= j < |s.pieces| ==>
         t.pieces[j].blocks == s.pieces[j].blocks && t.pieces[j].completed == s.pieces[j].completed
  }

  lemma {:induction false} TotalNeededSameBlocks(a: seq<Piece>, b: seq<Piece>)
    requires |a| == |b| && forall j :: 0 <= j < |a| ==> a[j].blocks == b[j].blocks
    ensures TotalNeeded(a) == TotalNeeded(b)
    decreases |a|
  {
    if |a| > 0 {
      TotalNeededSameBlocks(a[1..], b[1..]);
    }
  }

  /** Changing only piece statuses keeps the counts. */
  lemma {:induction false} SameBlocksKeep(s: Store, t: Store)
    requires SameBlocks(s, t)
    ensures Counted(s) ==> Counted(t)
    ensures TotalNeeded(t.pieces) == TotalNeeded(s.pieces)
  {
    TotalNeededSameBlocks(s.pieces, t.pieces);
  }

  /** Looking for a piece touches no block: the counts stay. */
  lemma {:induction false} PickKeepsBlocks(s: Store, bitfield: seq<nat>)
    ensures SameBlocks(s, PieceNeededForPeer(s, bitfield).store)
    ensures Counted(s) ==> Counted(PieceNeededForPeer(s, bitfield).store)
    ensures TotalNeeded(PieceNeededForPeer(s, bitfield).store.pieces) == TotalNeeded(s.pieces)
  {
    var t := PieceNeededForPeer(s, bitfield).store;
    assert SameBlocks(s, t);
    SameBlocksKeep(s, t);
  }

  /** A delivery never lets the counter fall behind the COMPLETE blocks:
      it completes at most one block and always counts one. */
  lemma {:induction false} DeliveryKeepsCount(s: Store, sha1: seq<Byte> -> Digest, i: nat, blockOffset: nat,
                                              data: seq<Byte>)
    requires Valid(s) && Counted(s)
    ensures Counted(MarkBlockDownloaded(s, sha1, i, blockOffset, data).store)
  {
    if i < |s.pieces| && FindBlock(s.pieces[i].blocks, AtOffset(blockOffset)).Some? {
      var k := FindBlock(s.pieces[i].blocks, AtOffset(blockOffset)).value;
      var r := MarkBlockDownloaded(s, sha1, i, blockOffset, data).store;
      var blocks := s.pieces[i].blocks;
      assert r.pieces[i].blocks == blocks[k := blocks[k].(status := Complete)];
      CountStatusSet(blocks, k, Complete, Complete);
      forall j | 0 <= j < |r.pieces|
        ensures CountStatus(r.pieces[j].blocks, Complete) <= r.pieces[j].completed
      {
        if j != i {
          assert r.pieces[j] == s.pieces[j];
        }
      }
    }
  }

  // --------------------------------------------------- one scheduler pass

  /** What a pass reads of an entry of the pool's detail map: its key,
      whether `instance.isPeerFree()` holds, the recorded bitfield (null
      until one arrives) and the length of the peer's request queue. */
  datatype PeerView = PeerView(key: string, free: bool, bitfield: Option<seq<nat>>, queueLength: nat)

  /** `instance.requestBlock(block)` issued to the peer under `peer`. */
  datatype BlockRequest = BlockRequest(peer: string, block: Block)

  /** `findAvailablePeers()`: the free entries, in map order. */
  function FreePeers(peers: seq<PeerView>): (r: seq<PeerView>)
    ensures forall p :: p in r <==> p in peers && p.free
    ensures |r| <= |peers|
    ensures |r| == 0 <==> forall k :: 0 <= k < |peers| ==> !peers[k].free
    decreases |peers|
  {
    if |peers| == 0 then []
    else (if peers[0].free then [peers[0]] else []) + FreePeers(peers[1..])
  }

  /** The outcome of one turn of the loop of `runDownload`. */
  datatype Turn = Turn(store: Store, request: Option<BlockRequest>)

  /** One turn for a free peer whose bitfield is recorded: pick a piece,
      pick a block of it, and request the block when the peer's queue has
      room. */
  function ServeOne(s: Store, key: string, bitfield: seq<nat>, queueLength: nat): (r: Turn)
    ensures Valid(s) ==> Valid(r.store)
    ensures r.request.Some? ==>
      && r.request.value.peer == key && queueLength < MAX_PEER_REQUESTS
      && r.request.value.block.status == Needed
  {
    var pick := PieceNeededForPeer(s, bitfield);
    if pick.piece.None? then Turn(pick.store, None)
    else match GetBlockNeededForPiece(pick.store, pick.piece.value)
      case None => Turn(pick.store, None)
      case Some(b) =>
        if queueLength < MAX_PEER_REQUESTS then
          Turn(MarkBlockRequested(pick.store, pick.piece.value, b.offset, b.length), Some(BlockRequest(key, b)))
        else Turn(pick.store, None)
  }

  /** Each request of a turn takes exactly one NEEDED block: no other
      block, no buffer and no counter changes. */
  lemma {:induction false} ServeOneAccounting(s: Store, key: string, bitfield: seq<nat>, queueLength: nat)
    requires Valid(s) && Counted(s)
    ensures var r := ServeOne(s, key, bitfield, queueLength);
      && Counted(r.store) && r.store.buffers == s.buffers
      && TotalNeeded(r.store.pieces) + (if r.request.Some? then 1 else 0) == TotalNeeded(s.pieces)
  {
    var pick := PieceNeededForPeer(s, bitfield);
    PickKeepsBlocks(s, bitfield);
    if pick.piece.Some? && GetBlockNeededForPiece(pick.store, pick.piece.value).Some? {
      var i := pick.piece.value;
      RequestNeededBlock(pick.store, i);
      var b := GetBlockNeededForPiece(pick.store, i).value;
      var t := MarkBlockRequested(pick.store, i, b.offset, b.length);
      assert Counted(t) by {
        forall j | 0 <= j < |t.pieces|
          ensures CountStatus(t.pieces[j].blocks, Complete) <= t.pieces[j].completed
        {
          assert CountStatus(pick.store.pieces[j].blocks, Complete) <= pick.store.pieces[j].completed;
        }
      }
    }
  }

  const NULL_BITFIELD_ERROR: string := "TypeError: Cannot read properties of null (reading 'length')"

  datatype Served = Served(store: Store, requests: seq<BlockRequest>, thrown: Option<string>)

  /** The loop of `runDownload` over the free peers. A peer without a
      recorded bitfield makes `getPieceNeededForPeer` throw. */
  function ServePeers(s: Store, free: seq<PeerView>): (r: Served)
    ensures Valid(s) ==> Valid(r.store)
    ensures |r.requests| <= |free|
    ensures r.thrown.Some? <==> exists k :: 0 <= k < |free| && free[k].bitfield.None?
    ensures forall q :: q in r.requests ==>
      q.block.status == Needed
      && exists p :: p in free && p.key == q.peer && p.queueLength < MAX_PEER_REQUESTS
    decreases |free|
  {
    if |free| == 0 then Served(s, [], None)
    else if free[0].bitfield.None? then Served(s, [], Some(NULL_BITFIELD_ERROR))
    else
      var turn := ServeOne(s, free[0].key, free[0].bitfield.value, free[0].queueLength);
      var rest := ServePeers(turn.store, free[1..]);
      assert rest.thrown.Some? <==> exists k :: 0 <= k < |free| && free[k].bitfield.None? by {
        if exists k :: 0 <= k < |free| && free[k].bitfield.None? {
          var k :| 0 <= k < |free| && free[k].bitfield.None?;
          assert free[1..][k - 1] == free[k];
        }
      }
      var mine := if turn.request.Some? then [turn.request.value] else [];
      Served(rest.store, mine + rest.requests, rest.thrown)
  }

  /** Over the whole loop: every request takes one NEEDED block, and
      nothing else changes in blocks, buffers or counters. */
  lemma {:induction false} ServePeersAccounting(s: Store, free: seq<PeerView>)
    requires Valid(s) && Counted(s)
    ensures var r := ServePeers(s, free);
      && Counted(r.store) && r.store.buffers == s.buffers
      && TotalNeeded(r.store.pieces) + |r.requests| == TotalNeeded(s.pieces)
    decreases |free|
  {
    if |free| > 0 && free[0].bitfield.Some? {
      var turn := ServeOne(s, free[0].key, free[0].bitfield.value, free[0].queueLength);
      ServeOneAccounting(s, free[0].key, free[0].bitfield.value, free[0].queueLength);
      ServePeersAccounting(turn.store, free[1..]);
    }
  }

  /** One pass of `runDownload`, the delay of the `setTimeout` that re-arms
      it (50 ms when no peer was free, else 0), and the exception that may
      end it. A pass that throws never reaches the `setTimeout`, so it
      re-arms nothing. */
  datatype Pass = Pass(store: Store, requests: seq<BlockRequest>, rearm: Option<nat>, thrown: Option<string>)

  /** One pass of `runDownload`: every request goes to a distinct free
      peer whose queue has room and asks for a block that was NEEDED; the
      pass throws exactly when some free peer has no recorded bitfield. */
  function RunPass(s: Store, peers: seq<PeerView>): (r: Pass)
    ensures Valid(s) ==> Valid(r.store)
    ensures r.thrown.None? ==> r.rearm == Some(if forall k :: 0 <= k < |peers| ==> !peers[k].free then 50 else 0)
    ensures r.thrown.Some? ==> r.rearm.None?
    ensures r.thrown.Some? <==> exists k :: 0 <= k < |peers| && peers[k].free && peers[k].bitfield.None?
    ensures |r.requests| <= |FreePeers(peers)|
    ensures forall q :: q in r.requests ==>
      q.block.status == Needed
      && exists p :: p in peers && p.free && p.key == q.peer && p.queueLength < MAX_PEER_REQUESTS
  {
    var free := FreePeers(peers);
    var served := ServePeers(s, free);
    FreePeersMissingBitfield(peers);
    RequestsFromFreePeers(peers, served.requests);
    var rearm := if served.thrown.Some? then None else Some(if |free| == 0 then 50 else 0);
    Pass(served.store, served.requests, rearm, served.thrown)
  }

  /** A free peer without a recorded bitfield is among the free peers
      exactly when some peer is free and has none. */
  lemma {:induction false} FreePeersMissingBitfield(peers: seq<PeerView>)
    ensures var free := FreePeers(peers);
      (exists k :: 0 <= k < |free| && free[k].bitfield.None?)
        <==> exists k :: 0 <= k < |peers| && peers[k].free && peers[k].bitfield.None?
  {
    var free := FreePeers(peers);
    if exists k :: 0 <= k < |peers| && peers[k].free && peers[k].bitfield.None? {
      var k :| 0 <= k < |peers| && peers[k].free && peers[k].bitfield.None?;
      var j := FreeIndexOf(peers, k);
      assert free[j].bitfield.None?;
    }
    if exists j :: 0 <= j < |free| && free[j].bitfield.None? {
      var j :| 0 <= j < |free| && free[j].bitfield.None?;
      var k := PeerIndexOf(peers, j);
      assert peers[k].free && peers[k].bitfield.None?;
    }
  }

  /** Where a free peer sits among the free peers. */
  lemma {:induction false} FreeIndexOf(peers: seq<PeerView>, k: nat) returns (j: nat)
    requires k < |peers| && peers[k].free
    ensures j < |FreePeers(peers)| && FreePeers(peers)[j] == peers[k]
  {
    assert peers[k] in peers;
    assert peers[k] in FreePeers(peers);
    j :| 0 <= j < |FreePeers(peers)| && FreePeers(peers)[j] == peers[k];
  }

  /** Where a free peer comes from among all peers. */
  lemma {:induction false} PeerIndexOf(peers: seq<PeerView>, j: nat) returns (k: nat)
    requires j < |FreePeers(peers)|
    ensures k < |peers| && peers[k] == FreePeers(peers)[j] && peers[k].free
  {
    var p := FreePeers(peers)[j];
    assert p in FreePeers(peers);
    assert p in peers && p.free;
    k :| 0 <= k < |peers| && peers[k] == p;
  }

  /** What holds of requests made to the free peers holds of requests made
      to peers that are free. */
  lemma {:induction false} RequestsFromFreePeers(peers: seq<PeerView>, requests: seq<BlockRequest>)
    requires forall q :: q in requests ==>
      q.block.status == Needed
      && exists p :: p in FreePeers(peers) && p.key == q.peer && p.queueLength < MAX_PEER_REQUESTS
    ensures forall q :: q in requests ==>
      q.block.status == Needed
      && exists p :: p in peers && p.free && p.key == q.peer && p.queueLength < MAX_PEER_REQUESTS
  {
    forall q | q in requests
      ensures exists p :: p in peers && p.free && p.key == q.peer && p.queueLength < MAX_PEER_REQUESTS
    {
      var p :| p in FreePeers(peers) && p.key == q.peer && p.queueLength < MAX_PEER_REQUESTS;
      assert p in peers && p.free;
    }
  }

  /** A pass keeps the store valid and counted, leaves every buffer and
      counter as it was, and takes exactly one NEEDED block per request. */
  lemma {:induction false} RunPassAccounting(s: Store, peers: seq<PeerView>)
    requires Valid(s) && Counted(s)
    ensures var r := RunPass(s, peers);
      && Valid(r.store) && Counted(r.store) && r.store.buffers == s.buffers
      && TotalNeeded(r.store.pieces) + |r.requests| == TotalNeeded(s.pieces)
  {
    ServePeersAccounting(s, FreePeers(peers));
  }
}

=== FILE: text.dfy ===
/** String conversions the client relies on: `buf.toString('hex')`,
    `Buffer.from(s, 'hex')`, decimal `String(n)`, JavaScript `parseInt`,
    the 'ascii' and 'binary' Buffer decodings, UTF-8 byte length and
    `startsWith`. */
module Text {
  import opened Common

  // ---------------------------------------------------------------- hex

  function HexChar(d: nat): (c: char)
    requires d < 16
  {
    if d < 10 then ('0' as int + d) as char else ('a' as int + d - 10) as char
  }

  /** The value of a hexadecimal digit, either case, as Node's hex decoder
      reads it. */
  function HexValue(c: char): Option<nat>
  {
    if '0' <= c <= '9' then Some(c as int - '0' as int)
    else if 'a' <= c <= 'f' then Some(c as int - 'a' as int + 10)
    else if 'A' <= c <= 'F' then Some(c as int - 'A' as int + 10)
    else None
  }

  lemma {:induction false} HexValueOfHexChar(d: nat)
    requires d < 16
    ensures HexValue(HexChar(d)) == Some(d)
  {
  }

  /** `buf.toString('hex')`: two lower-case digits per byte. */
  function Hex(b: seq<Byte>): (s: string)
    ensures |s| == 2 * |b|
  {
    if |b| == 0 then [] else [HexChar(b[0] / 16), HexChar(b[0] % 16)] + Hex(b[1..])
  }

  /** `Buffer.from(s, 'hex')`: decodes digit pairs and stops at the first
      pair that is not two hex digits; a trailing odd digit is dropped. */
  function HexDecode(s: string): (b: seq<Byte>)
    ensures 2 * |b| <= |s|
  {
    if |s| < 2 then []
    else match (HexValue(s[0]), HexValue(s[1]))
      case (Some(hi), Some(lo)) =>
        assert hi < 16 && lo < 16 by {
          assert HexValue(s[0]) == Some(hi) && HexValue(s[1]) == Some(lo);
        }
        [hi * 16 + lo] + HexDecode(s[2..])
      case _ => []
  }

  lemma {:induction false} HexDecodeHex(b: seq<Byte>)
    ensures HexDecode(Hex(b)) == b
  {
    if |b| > 0 {
      var s := Hex(b);
      HexValueOfHexChar(b[0] / 16);
      HexValueOfHexChar(b[0] % 16);
      assert s[2..] == Hex(b[1..]);
      HexDecodeHex(b[1..]);
    }
  }

  lemma {:induction false} HexInjective(a: seq<Byte>, b: seq<Byte>)
    ensures Hex(a) == Hex(b) <==> a == b
  {
    if Hex(a) == Hex(b) {
      HexDecodeHex(a);
      HexDecodeHex(b);
    }
  }

  predicate IsLowerHexDigit(c: char) { '0' <= c <= '9' || 'a' <= c <= 'f' }

  /** Lower-case hex text of even length, the shape of an info-hash. */
  predicate IsLowerHex(s: string)
  {
    |s| % 2 == 0 && forall k :: 0 <= k < |s| ==> IsLowerHexDigit(s[k])
  }

  lemma {:induction false} HexCharOfValue(c: char)
    requires IsLowerHexDigit(c)
    ensures HexValue(c).Some? && HexValue(c).value < 16 && HexChar(HexValue(c).value) == c
  {
  }

  lemma {:induction false} HexHexDecode(s: string)
    requires IsLowerHex(s)
    ensures Hex(HexDecode(s)) == s
    ensures |HexDecode(s)| * 2 == |s|
  {
    if |s| >= 2 {
      LowerHexTail(s);
      HexHexDecode(s[2..]);
      HexPairStep(s);
      assert s == [s[0], s[1]] + s[2..];
    }
  }

  /** Dropping the first digit pair keeps the text lower-case hex. */
  lemma {:induction false} LowerHexTail(s: string)
    requires IsLowerHex(s) && |s| >= 2
    ensures IsLowerHexDigit(s[0]) && IsLowerHexDigit(s[1]) && IsLowerHex(s[2..])
  {
    forall k | 0 <= k < |s[2..]|
      ensures IsLowerHexDigit(s[2..][k])
    {
      assert s[2..][k] == s[k + 2];
    }
  }

  /** A leading pair of lower-case digits decodes to one byte that
      encodes back to the same pair. */
  lemma {:induction false} HexPairStep(s: string)
    requires |s| >= 2 && IsLowerHexDigit(s[0]) && IsLowerHexDigit(s[1])
    ensures |HexDecode(s)| == 1 + |HexDecode(s[2..])|
    ensures Hex(HexDecode(s)) == [s[0], s[1]] + Hex(HexDecode(s[2..]))
  {
    HexCharOfValue(s[0]);
    HexCharOfValue(s[1]);
    var hi, lo := HexValue(s[0]).value, HexValue(s[1]).value;
    var b := hi * 16 + lo;
    assert HexDecode(s) == [b] + HexDecode(s[2..]);
    assert b / 16 == hi && b % 16 == lo;
    assert ([b] + HexDecode(s[2..]))[1..] == HexDecode(s[2..]);
  }

  // ------------------------------------------------------------ decimal

  function DigitChar(d: nat): (c: char)
    requires d < 10
  {
    ('0' as int + d) as char
  }

  /** `String(n)` for a non-negative integer. */
  function NatToString(n: nat): (s: string)
    ensures |s| >= 1
    decreases n
  {
    if n < 10 then [DigitChar(n)] else NatToString(n / 10) + [DigitChar(n % 10)]
  }

  /** `String(n)` for an integer. A JavaScript number of magnitude 10^21 or
      more prints in exponent form (`1e+21`) and one above 2^53 is rounded;
      the model writes every integer in full decimal. */
  function IntToString(n: int): (s: string)
    ensures |s| >= 1
  {
    if n < 0 then "-" + NatToString(-n) else NatToString(n)
  }

  predicate IsDecimalDigit(c: char) { '0' <= c <= '9' }

  lemma {:induction false} NatToStringDigits(n: nat)
    ensures forall k :: 0 <= k < |NatToString(n)| ==> IsDecimalDigit(NatToString(n)[k])
    ensures NatToString(n)[0] == '0' ==> n == 0
    decreases n
  {
    if n >= 10 {
      NatToStringDigits(n / 10);
    }
  }

  /** A JavaScript number as the parser produces it: an integer or NaN. */
  datatype JsNum = Int(n: int) | NaN

  /** The value of `c` as a digit in bases up to 36, as `parseInt` reads. */
  function DigitValue(c: char): (r: nat)
  {
    if '0' <= c <= '9' then c as int - '0' as int
    else if 'a' <= c <= 'z' then c as int - 'a' as int + 10
    else if 'A' <= c <= 'Z' then c as int - 'A' as int + 10
    else 36
  }

  /** The longest prefix of `s` made of digits of base `radix`. */
  function DigitPrefix(s: string, radix: nat): (z: string)
    ensures |z| <= |s| && z == s[..|z|]
    ensures forall k :: 0 <= k < |z| ==> DigitValue(z[k]) < radix
    ensures |z| < |s| ==> DigitValue(s[|z|]) >= radix
  {
    if |s| == 0 || DigitValue(s[0]) >= radix then []
    else [s[0]] + DigitPrefix(s[1..], radix)
  }

  function DigitsValue(z: string, radix: nat): nat
  {
    if |z| == 0 then 0
    else DigitsValue(z[..|z| - 1], radix) * radix + Min(DigitValue(z[|z| - 1]), radix)
  }

  /** The ASCII characters JavaScript counts as white space. The parser only
      ever hands `parseInt` ASCII text, so the rest of Unicode's white space
      cannot occur. */
  predicate IsJsSpace(c: char)
  {
    c == ' ' || c == '\t' || c == '\n' || c == '\r' || c == 11 as char || c == 12 as char
  }

  function TrimStart(s: string): (t: string)
    ensures |t| <= |s|
    ensures |t| > 0 ==> !IsJsSpace(t[0])
  {
    if |s| > 0 && IsJsSpace(s[0]) then TrimStart(s[1..]) else s
  }

  /** The magnitude `parseInt` reads after the sign: an optional `0x`
      prefix selecting base 16, then the longest run of digits; None (NaN)
      when that run is empty. */
  function ParseMagnitude(u: string): Option<nat>
  {
    var hex := |u| >= 2 && u[0] == '0' && (u[1] == 'x' || u[1] == 'X');
    var radix := if hex then 16 else 10;
    var z := DigitPrefix(if hex then u[2..] else u, radix);
    if |z| == 0 then None else Some(DigitsValue(z, radix))
  }

  /** `parseInt(s)` with no radix: leading white space, an optional sign,
      then the magnitude. Doubles are modelled as exact integers: a digit
      run above 2^53, which JavaScript rounds, reads back exactly here. */
  function ParseInt(s: string): JsNum
  {
    var t := TrimStart(s);
    var signed := |t| > 0 && (t[0] == '-' || t[0] == '+');
    match ParseMagnitude(if signed then t[1..] else t)
    case None => NaN
    case Some(m) => if signed && t[0] == '-' then Int(0 - m) else Int(m)
  }

  lemma {:induction false} DigitsValueNatToString(n: nat)
    ensures DigitsValue(NatToString(n), 10) == n
    decreases n
  {
    var s := NatToString(n);
    if n < 10 {
      assert s[..0] == [];
    } else {
      DigitsValueNatToString(n / 10);
      assert s[..|s| - 1] == NatToString(n / 10);
    }
  }

  lemma {:induction false} DigitPrefixAll(s: string)
    requires forall k :: 0 <= k < |s| ==> IsDecimalDigit(s[k])
    ensures DigitPrefix(s, 10) == s
  {
    if |s| > 0 {
      DigitPrefixAll(s[1..]);
    }
  }

  lemma {:induction false} ParseMagnitudeOfNatToString(m: nat)
    ensures ParseMagnitude(NatToString(m)) == Some(m)
  {
    var d := NatToString(m);
    NatToStringDigits(m);
    DigitPrefixAll(d);
    DigitsValueNatToString(m);
    assert |d| >= 2 ==> d[0] != '0';
  }

  /** `parseInt(String(n)) == n`: decimal text reads back as the integer. */
  lemma {:induction false} ParseIntOfIntToString(n: int)
    ensures ParseInt(IntToString(n)) == Int(n)
  {
    if n < 0 {
      ParseIntOfNegated(-n);
    } else {
      ParseIntOfNatToString(n);
    }
  }

  lemma {:induction false} ParseIntOfNatToString(m: nat)
    ensures ParseInt(NatToString(m)) == Int(m)
  {
    var d := NatToString(m);
    NatToStringDigits(m);
    ParseMagnitudeOfNatToString(m);
    assert IsDecimalDigit(d[0]);
    assert TrimStart(d) == d;
  }

  lemma {:induction false} ParseIntOfNegated(m: nat)
    ensures ParseInt("-" + NatToString(m)) == Int(0 - m)
  {
    var d := NatToString(m);
    var s := "-" + d;
    ParseMagnitudeOfNatToString(m);
    assert TrimStart(s) == s;
    assert s[1..] == d;
  }

  lemma {:induction false} NatToStringInjective(a: nat, b: nat)
    ensures NatToString(a) == NatToString(b) <==> a == b
  {
    if NatToString(a) == NatToString(b) {
      ParseIntOfIntToString(a);
      ParseIntOfIntToString(b);
    }
  }

  // ------------------------------------------------------- buffer text

  /** `buf.toString('ascii')`: every byte with its high bit cleared. */
  function AsciiDecode(b: seq<Byte>): (s: string)
    ensures |s| == |b|
    ensures forall k :: 0 <= k < |b| ==> s[k] == (b[k] % 0x80) as char
  {
    seq(|b|, k requires 0 <= k < |b| => (b[k] % 0x80) as char)
  }

  predicate IsAscii(s: string) { forall k :: 0 <= k < |s| ==> s[k] as int < 0x80 }

  /** The bytes of an ASCII string (identical under UTF-8 and 'ascii'). */
  function AsciiBytes(s: string): (b: seq<Byte>)
    requires IsAscii(s)
    ensures |b| == |s|
    ensures forall k :: 0 <= k < |s| ==> b[k] == s[k] as int
  {
    seq(|s|, k requires 0 <= k < |s| => s[k] as int)
  }

  lemma {:induction false} AsciiBytesConcat(a: string, b: string)
    requires IsAscii(a) && IsAscii(b)
    ensures IsAscii(a + b)
    ensures AsciiBytes(a + b) == AsciiBytes(a) + AsciiBytes(b)
  {
  }

  lemma {:induction false} AsciiDecodeBytes(s: string)
    requires IsAscii(s)
    ensures AsciiDecode(AsciiBytes(s)) == s
  {
  }

  /** `buf.toString('binary')` (latin1): one character per byte. */
  function Latin1String(b: seq<Byte>): (s: string)
    ensures |s| == |b|
  {
    seq(|b|, k requires 0 <= k < |b| => b[k] as char)
  }

  /** `Buffer.from(s, 'binary')`: the low byte of each character. */
  function Latin1Bytes(s: string): (b: seq<Byte>)
    ensures |b| == |s|
  {
    seq(|s|, k requires 0 <= k < |s| => s[k] as int % 0x100)
  }

  /** Number of bytes a code point takes in UTF-8. */
  function Utf8Width(c: char): nat
  {
    if c as int < 0x80 then 1
    else if c as int < 0x800 then 2
    else if c as int < 0x1_0000 then 3
    else 4
  }

  /** `Buffer.from(s).byteLength`: the UTF-8 length of `s`. */
  function Utf8Length(s: string): nat
  {
    if |s| == 0 then 0 else Utf8Width(s[0]) + Utf8Length(s[1..])
  }

  lemma {:induction false} Utf8LengthAscii(s: string)
    requires IsAscii(s)
    ensures Utf8Length(s) == |s|
  {
    if |s| > 0 {
      Utf8LengthAscii(s[1..]);
    }
  }

  predicate StartsWith(s: string, prefix: string)
  {
    |prefix| <= |s| && s[..|prefix|] == prefix
  }

  /** `parts.join(sep)`. */
  function Join(parts: seq<string>, sep: string): string
  {
    if |parts| == 0 then ""
    else if |parts| == 1 then parts[0]
    else parts[0] + sep + Join(parts[1..], sep)
  }
}

=== FILE: torrent_helpers.dfy ===
/** The pure helpers of lib/torrentHelpers.js (and their copies in
    lib/utils.js): bitfield decoding, block tiling of a piece, the split of
    the `pieces` hash string, and the `host:port` peer key. */
module TorrentHelpers {
  import opened Common
  import opened Text

  // -------------------------------------------------------- bitfield

  /** Bit `k` of `b`, counted from the least significant bit; this is what
      `(b & (1 << k)) !== 0` tests for k < 8. */
  predicate BitSet(b: nat, k: nat)
  {
    if k == 0 then b % 2 == 1 else BitSet(b / 2, k - 1)
  }

  predicate StrictlyAscending(s: seq<nat>)
  {
    forall i, j :: 0 <= i < j < |s| ==> s[i] < s[j]
  }

  /** Indices `base + j` for j in [from, 8) whose mask `1 << (7 - j)` is set
      in `b`: the inner loop of `getPiecesFromBitfield`. */
  function ByteIndices(b: Byte, base: nat, from: nat): (r: seq<nat>)
    requires from <= 8
    decreases 8 - from
  {
    if from == 8 then []
    else (if BitSet(b, 7 - from) then [base + from] else []) + ByteIndices(b, base, from + 1)
  }

  /** The outer loop from byte `i` on. */
  function IndicesFrom(bitfield: seq<Byte>, i: nat): (r: seq<nat>)
    requires i <= |bitfield|
    decreases |bitfield| - i
  {
    if i == |bitfield| then []
    else ByteIndices(bitfield[i], 8 * i, 0) + IndicesFrom(bitfield, i + 1)
  }

  /** `getPiecesFromBitfield(bitfield)`: the piece indices a peer advertises,
      byte 0 covering indices 0..7 from its high bit to its low bit. */
  function PiecesFromBitfield(bitfield: seq<Byte>): seq<nat>
  {
    IndicesFrom(bitfield, 0)
  }

  /** Joining two ascending runs, the first below the second, is ascending. */
  lemma {:induction false} AscendingConcat(a: seq<nat>, b: seq<nat>)
    requires StrictlyAscending(a) && StrictlyAscending(b)
    requires forall i, j :: 0 <= i < |a| && 0 <= j < |b| ==> a[i] < b[j]
    ensures StrictlyAscending(a + b)
  {
    var c := a + b;
    forall i, j | 0 <= i < j < |c|
      ensures c[i] < c[j]
    {
      if j < |a| {
        assert c[i] == a[i] && c[j] == a[j];
      } else if i >= |a| {
        assert c[i] == b[i - |a|] && c[j] == b[j - |a|];
      } else {
        assert c[i] == a[i] && c[j] == b[j - |a|];
      }
    }
  }

  lemma {:induction false} ByteIndicesBounds(b: Byte, base: nat, from: nat)
    requires from <= 8
    ensures forall k :: 0 <= k < |ByteIndices(b, base, from)| ==>
      base + from <= ByteIndices(b, base, from)[k] < base + 8
    decreases 8 - from
  {
    if from < 8 {
      var head: seq<nat> := if BitSet(b, 7 - from) then [base + from] else [];
      var rest := ByteIndices(b, base, from + 1);
      ByteIndicesBounds(b, base, from + 1);
      var r := ByteIndices(b, base, from);
      assert r == head + rest;
      forall k | 0 <= k < |r|
        ensures base + from <= r[k] < base + 8
      {
        if k < |head| {
          assert r[k] == head[k];
        } else {
          assert r[k] == rest[k - |head|];
        }
      }
    }
  }

  lemma {:induction false} ByteIndicesAscending(b: Byte, base: nat, from: nat)
    requires from <= 8
    ensures StrictlyAscending(ByteIndices(b, base, from))
    decreases 8 - from
  {
    if from < 8 {
      var head: seq<nat> := if BitSet(b, 7 - from) then [base + from] else [];
      var rest := ByteIndices(b, base, from + 1);
      ByteIndicesAscending(b, base, from + 1);
      ByteIndicesBounds(b, base, from + 1);
      AscendingConcat(head, rest);
    }
  }

  lemma {:induction false} ByteIndicesMember(b: Byte, base: nat, from: nat, x: nat)
    requires from <= 8
    ensures x in ByteIndices(b, base, from) <==>
      base + from <= x < base + 8 && BitSet(b, 7 - (x - base))
    decreases 8 - from
  {
    if from < 8 {
      ByteIndicesStep(b, base, from, x);
      ByteIndicesMember(b, base, from + 1, x);
      if x == base + from {
        assert 7 - (x - base) == 7 - from;
      }
    }
  }

  /** One step of the inner loop: mask j either lists `base + j` or not. */
  lemma {:induction false} ByteIndicesStep(b: Byte, base: nat, from: nat, x: nat)
    requires from < 8
    ensures x in ByteIndices(b, base, from) <==>
      (x == base + from && BitSet(b, 7 - from)) || x in ByteIndices(b, base, from + 1)
  {
    var head: seq<nat> := if BitSet(b, 7 - from) then [base + from] else [];
    assert ByteIndices(b, base, from) == head + ByteIndices(b, base, from + 1);
  }

  /** Piece `k` is marked in the bitfield: bit `7 - k mod 8` of byte
      `k div 8`. */
  predicate Advertised(bitfield: seq<Byte>, k: nat)
  {
    k < 8 * |bitfield| && BitSet(bitfield[k / 8], 7 - k % 8)
  }

  lemma {:induction false} DivMod8(k: nat, i: nat)
    requires 8 * i <= k < 8 * i + 8
    ensures k / 8 == i && k % 8 == k - 8 * i
  {
  }

  /** Index k of byte i's range is bit `7 - (k - 8i)` of that byte. */
  lemma {:induction false} HeadAdvertised(bitfield: seq<Byte>, i: nat, k: nat)
    requires i < |bitfield| && 8 * i <= k < 8 * i + 8
    ensures BitSet(bitfield[i], 7 - (k - 8 * i)) <==> Advertised(bitfield, k)
  {
    DivMod8(k, i);
    assert k % 8 == k - 8 * i;
  }

  lemma {:induction false} IndicesFromBounds(bitfield: seq<Byte>, i: nat)
    requires i <= |bitfield|
    ensures forall k :: 0 <= k < |IndicesFrom(bitfield, i)| ==>
      8 * i <= IndicesFrom(bitfield, i)[k] < 8 * |bitfield|
    decreases |bitfield| - i
  {
    if i < |bitfield| {
      var head := ByteIndices(bitfield[i], 8 * i, 0);
      var tail := IndicesFrom(bitfield, i + 1);
      ByteIndicesBounds(bitfield[i], 8 * i, 0);
      IndicesFromBounds(bitfield, i + 1);
      var r := IndicesFrom(bitfield, i);
      assert r == head + tail;
      forall k | 0 <= k < |r|
        ensures 8 * i <= r[k] < 8 * |bitfield|
      {
        if k < |head| {
          assert r[k] == head[k];
        } else {
          assert r[k] == tail[k - |head|];
        }
      }
    }
  }

  lemma {:induction false} IndicesFromAscending(bitfield: seq<Byte>, i: nat)
    requires i <= |bitfield|
    ensures StrictlyAscending(IndicesFrom(bitfield, i))
    decreases |bitfield| - i
  {
    if i < |bitfield| {
      ByteIndicesAscending(bitfield[i], 8 * i, 0);
      ByteIndicesBounds(bitfield[i], 8 * i, 0);
      IndicesFromAscending(bitfield, i + 1);
      IndicesFromBounds(bitfield, i + 1);
      AscendingConcat(ByteIndices(bitfield[i], 8 * i, 0), IndicesFrom(bitfield, i + 1));
    }
  }

  lemma {:induction false} IndicesFromMember(bitfield: seq<Byte>, i: nat, k: nat)
    requires i <= |bitfield| && 8 * i <= k
    ensures k in IndicesFrom(bitfield, i) <==> Advertised(bitfield, k)
    decreases |bitfield| - i
  {
    if i < |bitfield| {
      var head := ByteIndices(bitfield[i], 8 * i, 0);
      var tail := IndicesFrom(bitfield, i + 1);
      assert IndicesFrom(bitfield, i) == head + tail;
      if k < 8 * i + 8 {
        InFirstByte(bitfield, i, k);
      } else {
        ByteIndicesMember(bitfield[i], 8 * i, 0, k);
        IndicesFromMember(bitfield, i + 1, k);
      }
    }
  }

  /** An index within byte i's range is listed by that byte's run, and only
      when its bit is set; the later bytes never list it. */
  lemma {:induction false} InFirstByte(bitfield: seq<Byte>, i: nat, k: nat)
    requires i < |bitfield| && 8 * i <= k < 8 * i + 8
    ensures k in ByteIndices(bitfield[i], 8 * i, 0) <==> Advertised(bitfield, k)
    ensures k !in IndicesFrom(bitfield, i + 1)
  {
    ByteOwnRange(bitfield, i, k);
    HeadAdvertised(bitfield, i, k);
    IndicesFromAbove(bitfield, i + 1, k);
  }

  /** The inner loop over byte i, run in full, lists index k of its range
      exactly when bit `7 - (k - 8i)` is set. */
  lemma {:induction false} ByteOwnRange(bitfield: seq<Byte>, i: nat, k: nat)
    requires i < |bitfield| && 8 * i <= k < 8 * i + 8
    ensures k in ByteIndices(bitfield[i], 8 * i, 0) <==> BitSet(bitfield[i], 7 - (k - 8 * i))
  {
    assert 0 <= bitfield[i] < 0x100;
    ByteIndicesMember(bitfield[i], 8 * i, 0, k);
  }

  /** The bytes from i on never list an index below `8 * i`. */
  lemma {:induction false} IndicesFromAbove(bitfield: seq<Byte>, i: nat, k: nat)
    requires i <= |bitfield| && k < 8 * i
    ensures k !in IndicesFrom(bitfield, i)
  {
    var r := IndicesFrom(bitfield, i);
    IndicesFromBounds(bitfield, i);
    forall j | 0 <= j < |r|
      ensures r[j] != k
    {
    }
  }

  /** Index k is advertised iff bit `7 - k mod 8` of byte `k div 8` is set
      (so every advertised index is below `8 * |bitfield|`); the indices
      come out strictly ascending. */
  lemma {:induction false} PiecesFromBitfieldSpec(bitfield: seq<Byte>)
    ensures StrictlyAscending(PiecesFromBitfield(bitfield))
    ensures forall k: nat :: k in PiecesFromBitfield(bitfield) <==> Advertised(bitfield, k)
  {
    IndicesFromAscending(bitfield, 0);
    forall k: nat
      ensures k in PiecesFromBitfield(bitfield) <==> Advertised(bitfield, k)
    {
      IndicesFromMember(bitfield, 0, k);
    }
  }

  // --------------------------------------------------------- blocks

  /** One block of a piece, as the helper builds it (`begin` is the name of
      the offset field in core/pieces.js). */
  datatype BlockSpec = BlockSpec(index: nat, offset: nat, length: nat)

  /** The loop of `getBlocksForPiece` from `offset` on: a block of
      `min(blockSize, len - offset)` bytes while `offset < len`. */
  function BlocksFrom(index: nat, len: int, offset: nat, blockSize: nat): (r: seq<BlockSpec>)
    requires blockSize > 0
    decreases Max(len - offset, 0)
  {
    if offset < len then [BlockSpec(index, offset, Min(blockSize, len - offset))]
      + BlocksFrom(index, len, offset + blockSize, blockSize)
    else []
  }

  /** The length the helper gives piece `index`: `pieceLength`, cut back to
      the end of the content when the piece runs past it (then it may be
      zero or negative, when the piece starts at or after the end). */
  function HelperPieceLength(index: nat, pieceLength: nat, totalFileLength: nat): int
  {
    var pieceStart := index * pieceLength;
    if pieceStart + pieceLength > totalFileLength then totalFileLength - pieceStart else pieceLength
  }

  /** `getBlocksForPiece(index, pieceLength, totalFileLength, blockSize)`. */
  function BlocksForPiece(index: nat, pieceLength: nat, totalFileLength: nat, blockSize: nat): seq<BlockSpec>
    requires blockSize > 0
  {
    BlocksFrom(index, HelperPieceLength(index, pieceLength, totalFileLength), 0, blockSize)
  }

  function SumLengths(bs: seq<BlockSpec>): int
  {
    if |bs| == 0 then 0 else bs[0].length + SumLengths(bs[1..])
  }

  /** Block k of `BlocksFrom(.., offset, ..)` starts where block k-1 ends,
      the first at `offset`, each holding `min(blockSize, len - start)`
      bytes; the last ends at `len`. */
  lemma {:induction false} BlocksFromSpec(index: nat, len: int, offset: nat, blockSize: nat)
    requires blockSize > 0
    ensures var r := BlocksFrom(index, len, offset, blockSize);
      && (offset < len <==> |r| > 0)
      && (|r| > 0 ==> r[0].offset == offset && r[|r| - 1].offset + r[|r| - 1].length == len)
      && (forall k :: 0 <= k < |r| ==>
           && r[k].index == index
           && offset <= r[k].offset < len
           && r[k].length == Min(blockSize, len - r[k].offset))
      && (forall k :: 0 <= k < |r| - 1 ==> r[k + 1].offset == r[k].offset + blockSize)
    decreases Max(len - offset, 0)
  {
    var r := BlocksFrom(index, len, offset, blockSize);
    if offset < len {
      BlocksFromSpec(index, len, offset + blockSize, blockSize);
      var rest := BlocksFrom(index, len, offset + blockSize, blockSize);
      assert r == [BlockSpec(index, offset, Min(blockSize, len - offset))] + rest;
      forall k | 0 <= k < |r| - 1
        ensures r[k + 1].offset == r[k].offset + blockSize
      {
        assert r[k + 1] == rest[k];
      }
      forall k | 0 <= k < |r|
        ensures offset <= r[k].offset < len && r[k].index == index
        ensures r[k].length == Min(blockSize, len - r[k].offset)
      {
        if k > 0 {
          assert r[k] == rest[k - 1];
        }
      }
    }
  }

  /** The lengths of `BlocksFrom(.., offset, ..)` add up to what is left of
      the piece from `offset`. */
  lemma {:induction false} BlocksFromSum(index: nat, len: int, offset: nat, blockSize: nat)
    requires blockSize > 0
    ensures SumLengths(BlocksFrom(index, len, offset, blockSize)) == Max(len - offset, 0)
    decreases Max(len - offset, 0)
  {
    if offset < len {
      BlocksFromSum(index, len, offset + blockSize, blockSize);
      var r := BlocksFrom(index, len, offset, blockSize);
      assert r[1..] == BlocksFrom(index, len, offset + blockSize, blockSize);
    }
  }

  /** Block k starts at `k * blockSize`. */
  lemma {:induction false} BlockOffsets(r: seq<BlockSpec>, blockSize: nat)
    requires |r| > 0 ==> r[0].offset == 0
    requires forall k :: 0 <= k < |r| - 1 ==> r[k + 1].offset == r[k].offset + blockSize
    ensures forall k :: 0 <= k < |r| ==> r[k].offset == k * blockSize
    decreases |r|
  {
    if |r| > 0 {
      var init := r[..|r| - 1];
      BlockOffsets(init, blockSize);
      var n := |r| - 1;
      if n > 0 {
        assert r[n].offset == r[n - 1].offset + blockSize == (n - 1) * blockSize + blockSize;
        assert (n - 1) * blockSize + blockSize == n * blockSize;
      }
      forall k | 0 <= k < |r|
        ensures r[k].offset == k * blockSize
      {
        if k < n {
          assert r[k] == init[k];
        }
      }
    }
  }

  /** The blocks of a piece of length `len`, from offset 0. */
  lemma {:induction false} BlocksFromZeroTiles(index: nat, len: int, blockSize: nat)
    requires blockSize > 0
    ensures var r := BlocksFrom(index, len, 0, blockSize);
      && (len <= 0 ==> r == [])
      && SumLengths(r) == Max(len, 0)
      && (forall k :: 0 <= k < |r| ==>
           && r[k].index == index
           && 0 < r[k].length <= blockSize
           && (k < |r| - 1 ==> r[k].length == blockSize))
      && (|r| > 0 ==> r[0].offset == 0 && r[|r| - 1].offset + r[|r| - 1].length == len)
      && (forall k :: 0 <= k < |r| - 1 ==> r[k + 1].offset == r[k].offset + blockSize)
  {
    BlocksFromSpec(index, len, 0, blockSize);
    BlocksFromSum(index, len, 0, blockSize);
    BlocksFromLengths(index, len, blockSize);
  }

  /** Every block from offset 0 is non-empty and at most `blockSize`
      long, and all but the last are exactly `blockSize` long. */
  lemma {:induction false} BlocksFromLengths(index: nat, len: int, blockSize: nat)
    requires blockSize > 0
    ensures var r := BlocksFrom(index, len, 0, blockSize);
      forall k :: 0 <= k < |r| ==>
        && 0 < r[k].length <= blockSize
        && (k < |r| - 1 ==> r[k].length == blockSize)
  {
    BlocksFromSpec(index, len, 0, blockSize);
    var r := BlocksFrom(index, len, 0, blockSize);
    forall k | 0 <= k < |r|
      ensures 0 < r[k].length <= blockSize
      ensures k < |r| - 1 ==> r[k].length == blockSize
    {
      if k < |r| - 1 {
        assert r[k + 1].offset == r[k].offset + blockSize && r[k + 1].offset < len;
      }
      BlockLengthBounds(r[k].offset, r[k].length, len, blockSize, k < |r| - 1);
    }
  }

  /** A block starting at `start` before `len` holds between 1 and
      `blockSize` bytes, and a whole `blockSize` when another block
      follows it before `len`. */
  lemma {:induction false} BlockLengthBounds(start: int, length: int, len: int, blockSize: nat, followed: bool)
    requires blockSize > 0 && start < len && length == Min(blockSize, len - start)
    requires followed ==> start + blockSize < len
    ensures 0 < length <= blockSize
    ensures followed ==> length == blockSize
  {
  }

  /** `getBlocksForPiece` tiles the piece: offsets 0, blockSize,
      2*blockSize, ...; every block `blockSize` long except possibly the
      last, which ends at the end of the piece; the lengths add up to
      `pieceLength`, or to `totalFileLength - index * pieceLength` when the
      piece runs past the end; no blocks at all when the piece starts at or
      beyond the end. */
  lemma {:induction false} BlocksForPieceTiles(index: nat, pieceLength: nat, totalFileLength: nat, blockSize: nat)
    requires blockSize > 0
    ensures var r := BlocksForPiece(index, pieceLength, totalFileLength, blockSize);
      var pieceStart := index * pieceLength;
      && (pieceStart >= totalFileLength ==> r == [])
      && (pieceStart + pieceLength <= totalFileLength ==> SumLengths(r) == pieceLength)
      && (pieceStart < totalFileLength < pieceStart + pieceLength ==>
            SumLengths(r) == totalFileLength - pieceStart)
      && (forall k :: 0 <= k < |r| ==>
           && r[k].index == index && r[k].offset == k * blockSize
           && 0 < r[k].length <= blockSize
           && (k < |r| - 1 ==> r[k].length == blockSize))
      && (|r| > 0 ==> r[|r| - 1].offset + r[|r| - 1].length
                        == HelperPieceLength(index, pieceLength, totalFileLength))
  {
    var len := HelperPieceLength(index, pieceLength, totalFileLength);
    BlocksFromZeroTiles(index, len, blockSize);
    BlockOffsets(BlocksFrom(index, len, 0, blockSize), blockSize);
  }

  // ---------------------------------------------------- piece hashes

  /** The pieces of `s` cut every `size` characters, the last one possibly
      shorter but never empty. */
  function Chunks(s: string, size: nat): (r: seq<string>)
    requires size > 0
    decreases |s|
  {
    if |s| == 0 then []
    else if |s| <= size then [s]
    else [s[..size]] + Chunks(s[size..], size)
  }

  function Concat(parts: seq<string>): string
  {
    if |parts| == 0 then "" else parts[0] + Concat(parts[1..])
  }

  lemma {:induction false} ConcatAppend(parts: seq<string>, last: string)
    ensures Concat(parts + [last]) == Concat(parts) + last
  {
    if |parts| > 0 {
      assert (parts + [last])[1..] == parts[1..] + [last];
      ConcatAppend(parts[1..], last);
    }
  }

  /** The chunks concatenate back to `s`; each has `size` characters except
      a possibly shorter, non-empty last one. */
  lemma {:induction false} ChunksSpec(s: string, size: nat)
    requires size > 0
    ensures var r := Chunks(s, size);
      && Concat(r) == s
      && (forall k :: 0 <= k < |r| - 1 ==> |r[k]| == size)
      && (|r| > 0 ==> 0 < |r[|r| - 1]| <= size)
    decreases |s|
  {
    if |s| > size {
      ChunksSpec(s[size..], size);
      assert s == s[..size] + s[size..];
      var r := Chunks(s, size);
      assert r[1..] == Chunks(s[size..], size);
    }
  }

  /** Cutting one full chunk off the front at position `j`. */
  lemma {:induction false} ChunksStep(s: string, j: nat, size: nat)
    requires size > 0 && j + size <= |s|
    ensures Chunks(s[j..], size) == [s[j..j + size]] + Chunks(s[j + size..], size)
  {
    var t := s[j..];
    assert t[..size] == s[j..j + size];
    assert t[size..] == s[j + size..];
    if |t| == size {
      assert t == s[j..j + size];
      assert s[j + size..] == [];
    }
  }

  /** The width `getPiecesArr` cuts at. */
  const PIECE_CHUNK_AS_WRITTEN: nat := 20

  /** `getPiecesArr(piecesObj)`: the character loop of the source, collecting
      the hex text of the `pieces` string into 20-character chunks. */
  method GetPiecesArr(piecesObj: seq<Byte>) returns (pieces: seq<string>)
    ensures pieces == Chunks(Hex(piecesObj), PIECE_CHUNK_AS_WRITTEN)
    ensures Concat(pieces) == Hex(piecesObj)
    ensures forall k :: 0 <= k < |pieces| - 1 ==> |pieces[k]| == PIECE_CHUNK_AS_WRITTEN
  {
    var s := Hex(piecesObj);
    pieces := [];
    var current := "";
    var i := 0;
    ghost var start := 0;
    while i < |s|
      invariant 0 <= start <= i <= |s| && start + |current| == i
      invariant |current| < PIECE_CHUNK_AS_WRITTEN
      invariant current == s[start..i]
      invariant pieces + Chunks(s[start..], PIECE_CHUNK_AS_WRITTEN) == Chunks(s, PIECE_CHUNK_AS_WRITTEN)
    {
      current := current + [s[i]];
      i := i + 1;
      assert current == s[start..i];
      if |current| == PIECE_CHUNK_AS_WRITTEN {
        ChunkDone(pieces, s, start, PIECE_CHUNK_AS_WRITTEN);
        pieces := pieces + [current];
        current := "";
        start := i;
      }
    }
    assert current == s[start..];
    ChunkRest(pieces, s, start, PIECE_CHUNK_AS_WRITTEN);
    if |current| > 0 {
      pieces := pieces + [current];
    }
    assert pieces == Chunks(s, PIECE_CHUNK_AS_WRITTEN);
    ChunksSpec(s, PIECE_CHUNK_AS_WRITTEN);
  }

  /** A full chunk at `start` moves from the chunks still to cut to the
      chunks cut. */
  lemma {:induction false} ChunkDone(pieces: seq<string>, s: string, start: nat, size: nat)
    requires size > 0 && start + size <= |s|
    requires pieces + Chunks(s[start..], size) == Chunks(s, size)
    ensures (pieces + [s[start..start + size]]) + Chunks(s[start + size..], size) == Chunks(s, size)
  {
    ChunksStep(s, start, size);
    var c, rest := s[start..start + size], Chunks(s[start + size..], size);
    assert (pieces + [c]) + rest == pieces + ([c] + rest);
  }

  /** Fewer than a chunk's worth left: it is the last chunk, or there is
      none. */
  lemma {:induction false} ChunkRest(pieces: seq<string>, s: string, start: nat, size: nat)
    requires size > 0 && start <= |s| && |s| - start < size
    requires pieces + Chunks(s[start..], size) == Chunks(s, size)
    ensures start < |s| ==> pieces + [s[start..]] == Chunks(s, size)
    ensures start == |s| ==> pieces == Chunks(s, size)
  {
    if start == |s| {
      assert s[start..] == [];
      assert pieces + [] == pieces;
    }
  }

  /** The evidently intended split: one 40-character chunk per 20-byte
      SHA-1 digest. */
  function PieceHashesIntended(piecesObj: seq<Byte>): seq<string>
  {
    Chunks(Hex(piecesObj), 40)
  }

  lemma {:induction false} HexSplit(a: seq<Byte>, m: nat)
    requires m <= |a|
    ensures Hex(a) == Hex(a[..m]) + Hex(a[m..])
    decreases m
  {
    if m > 0 {
      HexSplit(a[1..], m - 1);
      assert a[1..][..m - 1] == a[..m][1..];
      assert a[1..][m - 1..] == a[m..];
    } else {
      assert a[..0] == [] && a[0..] == a;
    }
  }

  /** With the intended width, a `pieces` string of n 20-byte digests gives
      exactly n hashes, hash k being the hex of digest k. */
  lemma {:induction false} PieceHashesIntendedSpec(piecesObj: seq<Byte>)
    requires |piecesObj| % 20 == 0
    ensures var r := PieceHashesIntended(piecesObj);
      |r| == |piecesObj| / 20
      && forall k :: 0 <= k < |r| ==> r[k] == Hex(piecesObj[20 * k..20 * k + 20])
    decreases |piecesObj|
  {
    var r := PieceHashesIntended(piecesObj);
    if |piecesObj| > 0 {
      var rest := piecesObj[20..];
      HexSplit(piecesObj, 20);
      PieceHashesIntendedSpec(rest);
      var h := Hex(piecesObj);
      assert h[..40] == Hex(piecesObj[..20]);
      assert h[40..] == Hex(rest);
      if |piecesObj| == 20 {
        assert r == [h];
        assert piecesObj[0..20] == piecesObj;
      } else {
        assert r == [h[..40]] + PieceHashesIntended(rest);
        forall k | 0 <= k < |r|
          ensures r[k] == Hex(piecesObj[20 * k..20 * k + 20])
        {
          if k > 0 {
            assert rest[20 * (k - 1)..20 * (k - 1) + 20] == piecesObj[20 * k..20 * k + 20];
          } else {
            assert piecesObj[0..20] == piecesObj[..20];
          }
        }
      }
    }
  }

  /** As written, a single 20-byte digest is cut into two 20-character
      halves: the piece count doubles, and no chunk has the 40 characters of
      a SHA-1 hex digest, so the hash comparison of core/Pieces.js:252 can
      never succeed. */
  lemma {:induction false} GetPiecesArrSplitsDigest(digest: Digest)
    ensures var r := Chunks(Hex(digest), PIECE_CHUNK_AS_WRITTEN);
      |r| == 2 && |r[0]| == 20 && |r[1]| == 20
      && forall d: Digest :: Hex(d) != r[0] && Hex(d) != r[1]
  {
    var h := Hex(digest);
    assert h[20..][20..] == [];
    assert Chunks(h, 20) == [h[..20]] + Chunks(h[20..], 20);
  }

  // ------------------------------------------------------- peer key

  /** `constructPeerKey(host, port)`: `host:port`. */
  function PeerKey(host: string, port: nat): string
  {
    host + ":" + NatToString(port)
  }

  lemma {:induction false} ColonAtEndOfHost(h1: string, t1: string, h2: string, t2: string)
    requires ':' !in h2 && |h1| < |h2|
    ensures h1 + ":" + t1 != h2 + ":" + t2
  {
    assert (h2 + ":" + t2)[|h1|] == h2[|h1|];
  }

  /** For hosts without a colon (dotted IPv4 addresses), distinct
      (host, port) pairs get distinct keys. */
  lemma {:induction false} PeerKeyInjective(h1: string, p1: nat, h2: string, p2: nat)
    requires ':' !in h1 && ':' !in h2
    ensures PeerKey(h1, p1) == PeerKey(h2, p2) <==> h1 == h2 && p1 == p2
  {
    if PeerKey(h1, p1) == PeerKey(h2, p2) {
      var k := PeerKey(h1, p1);
      NatToStringDigits(p1);
      NatToStringDigits(p2);
      if |h1| < |h2| {
        ColonAtEndOfHost(h1, NatToString(p1), h2, NatToString(p2));
      } else if |h2| < |h1| {
        ColonAtEndOfHost(h2, NatToString(p2), h1, NatToString(p1));
      }
      assert h1 == k[..|h1|] == h2;
      assert NatToString(p1) == k[|h1| + 1..] == NatToString(p2);
      NatToStringInjective(p1, p2);
    }
  }
}

=== FILE: tracker.dfy ===
/** The UDP tracker client of core/Tracker.js: the state a `Tracker` keeps
    between datagrams and the pure decoding done by its message callback
    (sections "Connect" and "Announce" of BEP 15). A datagram of 20 bytes or
    more is read as an announce response with a compact peer list; one of 16
    bytes or more is also read as a connect response, and a connect
    response that echoes the pending transaction id is answered with an
    announce request. The socket, the random transaction ids and the
    `onAnnounce` listener are outside the model: the next random id is a
    parameter, the listener's presence is a flag, and what would be sent or
    reported is returned. */
module Tracker {
  import opened Common
  import opened Bytes
  import opened Text
  import Messages

  /** The fields of a `Tracker` that the callback reads or writes. */
  datatype TrackerState = TrackerState(
    infoHash: string,
    peerId: seq<Byte>,
    totalFileLength: nat,
    transactionId: nat,
    connectionId: nat)

  /** Both ids fit the fields they are written to. */
  predicate TrackerOk(t: TrackerState)
  {
    t.transactionId < U32_LIMIT && t.connectionId < U64_LIMIT
  }

  /** The constructor: a random transaction id and connection id 0. */
  function NewTracker(infoHash: string, peerId: seq<Byte>, totalFileLength: nat,
                      transactionId: nat): (r: TrackerState)
    requires transactionId < U32_LIMIT
    ensures TrackerOk(r) && r.connectionId == 0 && r.transactionId == transactionId
  {
    TrackerState(infoHash, peerId, totalFileLength, transactionId, 0)
  }

  /** `connectRequest()`: the packet sent to open a session. */
  function ConnectRequest(t: TrackerState): (r: seq<Byte>)
    requires TrackerOk(t)
    ensures |r| == 16 && ReadU32(r, 8) == 0 && ReadU32(r, 12) == t.transactionId
  {
    Messages.UdpConnect(t.transactionId)
  }

  // ------------------------------------------------------------ decoding

  /** One entry of the compact peer list as the callback builds it. */
  datatype CompactPeer = CompactPeer(ip: string, port: nat)

  /** `[b0, b1, b2, b3].join('.')`. */
  function DottedQuad(b: seq<Byte>): (r: string)
    requires |b| == 4
  {
    NatToString(b[0]) + "." + NatToString(b[1]) + "." + NatToString(b[2]) + "." + NatToString(b[3])
  }

  /** The six bytes at `i`: an IPv4 address and a big-endian port. */
  function PeerAt(res: seq<Byte>, i: nat): (r: CompactPeer)
    requires i + 6 <= |res|
    ensures r.port < 0x1_0000
  {
    Pow256Values();
    CompactPeer(DottedQuad(res[i..i + 4]), ReadBE(res, i + 4, 2))
  }

  /** The loop from `i`: six-byte entries until the end of the datagram. A
      trailing entry of fewer than six bytes makes `readUInt16BE(4)` throw. */
  function PeerList(res: seq<Byte>, i: nat): (r: Result<seq<CompactPeer>>)
    requires i <= |res|
    ensures r.Threw? ==> r.reason == RANGE_ERROR
    decreases |res| - i
  {
    if i == |res| then Ok([])
    else if |res| - i < 6 then Threw(RANGE_ERROR)
    else
      var rest := PeerList(res, i + 6);
      if rest.Threw? then rest else Ok([PeerAt(res, i)] + rest.value)
  }

  /** The list is read whole exactly when the bytes from `i` split into
      six-byte entries, and entry k is read from byte `i + 6k`. */
  lemma {:induction false} PeerListSpec(res: seq<Byte>, i: nat)
    requires i <= |res|
    ensures PeerList(res, i).Ok? <==> (|res| - i) % 6 == 0
    ensures PeerList(res, i).Ok? ==>
      && |PeerList(res, i).value| == (|res| - i) / 6
      && forall k :: 0 <= k < |PeerList(res, i).value| ==>
           i + 6 * k + 6 <= |res| && PeerList(res, i).value[k] == PeerAt(res, i + 6 * k)
    decreases |res| - i
  {
    if i < |res| && |res| - i >= 6 {
      PeerListSpec(res, i + 6);
      var r := PeerList(res, i);
      if r.Ok? {
        var rest := PeerList(res, i + 6).value;
        assert r.value == [PeerAt(res, i)] + rest;
        forall k | 0 <= k < |r.value|
          ensures i + 6 * k + 6 <= |res| && r.value[k] == PeerAt(res, i + 6 * k)
        {
          if k > 0 {
            assert r.value[k] == rest[k - 1];
            assert i + 6 + 6 * (k - 1) == i + 6 * k;
          }
        }
      }
    }
  }

  /** The object handed to `onAnnounce`. */
  datatype AnnounceResponse = AnnounceResponse(
    action: nat,
    transactionId: nat,
    interval: nat,
    leechers: nat,
    seeders: nat,
    peers: seq<CompactPeer>)

  /** The outcome of one datagram: the tracker afterwards, what was reported
      to `onAnnounce`, the packet sent in reply, and an exception that ended
      the callback. */
  datatype Received = Received(
    tracker: TrackerState,
    announced: Option<AnnounceResponse>,
    sent: Option<seq<Byte>>,
    thrown: Option<string>)

  /** `announceRequest()`: a new transaction id, then the announce packet.
      Writing a file length of 2^64 or more throws. */
  function AnnounceRequest(t: TrackerState, nextId: nat, announced: Option<AnnounceResponse>): (r: Received)
    requires TrackerOk(t) && nextId < U32_LIMIT
    ensures TrackerOk(r.tracker) && r.tracker == t.(transactionId := nextId) && r.announced == announced
    ensures r.sent.Some? <==> t.totalFileLength < U64_LIMIT
    ensures r.sent.None? <==> r.thrown.Some?
  {
    var next := t.(transactionId := nextId);
    if t.totalFileLength < U64_LIMIT then
      Received(next, announced, Some(Messages.UdpAnnounce(t.infoHash, t.peerId, t.connectionId, nextId, t.totalFileLength)), None)
    else
      Received(next, announced, None, Some(RANGE_ERROR))
  }

  /** The connect-response half of the callback, for a datagram of 16 bytes
      or more: action 0 with the pending transaction id installs the
      connection id at bytes 8..16 and announces. */
  function ConnectStep(t: TrackerState, res: seq<Byte>, nextId: nat, announced: Option<AnnounceResponse>): (r: Received)
    requires TrackerOk(t) && nextId < U32_LIMIT && |res| >= 16
  {
    Pow256Values();
    if ReadU32(res, 0) == 0 && ReadU32(res, 4) == t.transactionId then
      AnnounceRequest(t.(connectionId := ReadBE(res, 8, 8)), nextId, announced)
    else
      Received(t, announced, None, None)
  }

  /** The callback as a whole. `listening` says whether `onAnnounce` is set;
      `nextId` is the transaction id `resetTransactionId` would draw. */
  function Receive(t: TrackerState, res: seq<Byte>, listening: bool, nextId: nat): (r: Received)
    requires TrackerOk(t) && nextId < U32_LIMIT
  {
    if |res| >= 20 then
      var peers := PeerList(res, 20);
      if peers.Threw? then Received(t, None, None, Some(peers.reason))
      else
        var response := AnnounceResponse(ReadU32(res, 0), ReadU32(res, 4), ReadU32(res, 8),
                                         ReadU32(res, 12), ReadU32(res, 16), peers.value);
        ConnectStep(t, res, nextId, if listening then Some(response) else None)
    else if |res| >= 16 then ConnectStep(t, res, nextId, None)
    else Received(t, None, None, None)
  }

  /** A datagram that echoes the pending transaction with action 0, read
      where the callback reads it. */
  predicate AcceptsConnect(t: TrackerState, res: seq<Byte>)
  {
    |res| >= 16 && ReadU32(res, 0) == 0 && ReadU32(res, 4) == t.transactionId
  }

  /** A datagram whose compact peer list ends in a partial entry. */
  predicate RaggedAnnounce(res: seq<Byte>)
  {
    |res| >= 20 && (|res| - 20) % 6 != 0
  }

  /** What one datagram does, field by field. Datagrams shorter than 20
      bytes are never reported; a longer one is reported exactly when the
      listener is set and its peer list is whole, whatever its action and
      transaction fields; the connection id changes, and an announce is
      sent, only for an accepted connect response. */
  lemma {:induction false} ReceiveSpec(t: TrackerState, res: seq<Byte>, listening: bool, nextId: nat)
    requires TrackerOk(t) && nextId < U32_LIMIT
    ensures var r := Receive(t, res, listening, nextId);
      && TrackerOk(r.tracker)
      && (|res| < 20 ==> r.announced.None?)
      && (r.announced.Some? <==> listening && |res| >= 20 && !RaggedAnnounce(res))
      && (r.announced.Some? ==>
            var a := r.announced.value;
            && a.action == ReadU32(res, 0) && a.transactionId == ReadU32(res, 4)
            && a.interval == ReadU32(res, 8) && a.leechers == ReadU32(res, 12)
            && a.seeders == ReadU32(res, 16)
            && |a.peers| == (|res| - 20) / 6
            && forall k :: 0 <= k < |a.peers| ==>
                 20 + 6 * k + 6 <= |res| && a.peers[k] == PeerAt(res, 20 + 6 * k))
      && (RaggedAnnounce(res) ==> r == Received(t, None, None, Some(RANGE_ERROR)))
      && (!RaggedAnnounce(res) && AcceptsConnect(t, res) ==>
            && r.tracker == t.(connectionId := ReadBE(res, 8, 8), transactionId := nextId)
            && (r.sent.Some? <==> t.totalFileLength < U64_LIMIT)
            && (r.sent.Some? ==>
                  r.sent.value == Messages.UdpAnnounce(t.infoHash, t.peerId, ReadBE(res, 8, 8), nextId, t.totalFileLength)))
      && (!AcceptsConnect(t, res) ==> r.tracker == t && r.sent.None?)
  {
    if |res| >= 20 {
      PeerListSpec(res, 20);
      if !RaggedAnnounce(res) {
        var peers := PeerList(res, 20).value;
        var response := AnnounceResponse(ReadU32(res, 0), ReadU32(res, 4), ReadU32(res, 8),
                                         ReadU32(res, 12), ReadU32(res, 16), peers);
        ConnectStepSpec(t, res, nextId, if listening then Some(response) else None);
      }
    } else if |res| >= 16 {
      ConnectStepSpec(t, res, nextId, None);
    }
  }

  /** The connect-response half on its own: it passes `announced` through,
      and installs the connection id and announces exactly for an accepted
      connect response. */
  lemma {:induction false} ConnectStepSpec(t: TrackerState, res: seq<Byte>, nextId: nat,
                                           announced: Option<AnnounceResponse>)
    requires TrackerOk(t) && nextId < U32_LIMIT && |res| >= 16
    ensures var r := ConnectStep(t, res, nextId, announced);
      && TrackerOk(r.tracker) && r.announced == announced
      && (AcceptsConnect(t, res) ==>
            && r.tracker == t.(connectionId := ReadBE(res, 8, 8), transactionId := nextId)
            && (r.sent.Some? <==> t.totalFileLength < U64_LIMIT)
            && (r.sent.Some? ==>
                  r.sent.value == Messages.UdpAnnounce(t.infoHash, t.peerId, ReadBE(res, 8, 8), nextId, t.totalFileLength)))
      && (!AcceptsConnect(t, res) ==> r == Received(t, announced, None, None))
  {
    Pow256Values();
  }

  // ------------------------------------------------------- tracker side

  /** A peer as a tracker lists it: four address bytes and a port. */
  datatype PeerAddr = PeerAddr(ip: seq<Byte>, port: nat)

  predicate AddrOk(p: PeerAddr)
  {
    |p.ip| == 4 && p.port < 0x1_0000
  }

  predicate AllAddrOk(ps: seq<PeerAddr>)
  {
    forall k :: 0 <= k < |ps| ==> AddrOk(ps[k])
  }

  /** The six bytes of one listed peer. */
  function EncodeAddr(p: PeerAddr): (r: seq<Byte>)
    requires AddrOk(p)
    ensures |r| == 6 && r[..4] == p.ip
  {
    p.ip + U16(p.port)
  }

  /** The compact peer list of section "Announce" of BEP 15. */
  function EncodePeers(ps: seq<PeerAddr>): (r: seq<Byte>)
    requires AllAddrOk(ps)
    ensures |r| == 6 * |ps|
  {
    if |ps| == 0 then []
    else
      assert AddrOk(ps[0]);
      EncodeAddr(ps[0]) + EncodePeers(ps[1..])
  }

  /** How the callback renders a listed peer. */
  function Rendered(p: PeerAddr): (r: CompactPeer)
    requires AddrOk(p)
  {
    CompactPeer(DottedQuad(p.ip), p.port)
  }

  /** The renderings of a list of peers, in order. */
  function RenderAll(ps: seq<PeerAddr>): (r: seq<CompactPeer>)
    requires AllAddrOk(ps)
    ensures |r| == |ps| && forall k :: 0 <= k < |ps| ==> r[k] == Rendered(ps[k])
  {
    if |ps| == 0 then []
    else
      assert AddrOk(ps[0]);
      [Rendered(ps[0])] + RenderAll(ps[1..])
  }

  /** An announce response as a tracker sends it. */
  function EncodeAnnounce(action: nat, transactionId: nat, interval: nat, leechers: nat,
                          seeders: nat, ps: seq<PeerAddr>): (r: seq<Byte>)
    requires action < U32_LIMIT && transactionId < U32_LIMIT && interval < U32_LIMIT
    requires leechers < U32_LIMIT && seeders < U32_LIMIT
    requires AllAddrOk(ps)
    ensures |r| == 20 + 6 * |ps|
  {
    U32(action) + U32(transactionId) + U32(interval) + U32(leechers) + U32(seeders) + EncodePeers(ps)
  }

  /** A connect response as a tracker sends it. */
  function EncodeConnect(transactionId: nat, connectionId: nat): (r: seq<Byte>)
    requires transactionId < U32_LIMIT && connectionId < U64_LIMIT
    ensures |r| == 16
  {
    U32(0) + U32(transactionId) + U64(connectionId)
  }

  /** `pre + (a + b) == (pre + a) + b`, kept apart from the decoders. */
  lemma {:induction false} RegroupBytes(pre: seq<Byte>, a: seq<Byte>, b: seq<Byte>)
    ensures pre + (a + b) == (pre + a) + b
  {
  }

  /** The entry at the front of an encoded list decodes to its rendering. */
  lemma {:induction false} PeerAtEncoded(pre: seq<Byte>, p: PeerAddr, tail: seq<Byte>)
    requires AddrOk(p)
    ensures |pre| + 6 <= |pre + EncodeAddr(p) + tail|
    ensures PeerAt(pre + EncodeAddr(p) + tail, |pre|) == Rendered(p)
  {
    Pow256Values();
    var buf := pre + EncodeAddr(p) + tail;
    assert buf[|pre|..|pre| + 4] == p.ip;
    assert buf[|pre| + 4..|pre| + 6] == U16(p.port);
    ReadBEField(buf, |pre| + 4, 2, p.port);
  }

  /** Decoding an encoded peer list from where it starts gives back every
      listed peer, in order. */
  lemma {:induction false} PeerListEncoded(pre: seq<Byte>, ps: seq<PeerAddr>)
    requires AllAddrOk(ps)
    ensures PeerList(pre + EncodePeers(ps), |pre|) == Ok(RenderAll(ps))
    decreases |ps|
  {
    if |ps| > 0 {
      assert AddrOk(ps[0]);
      var entry := EncodeAddr(ps[0]);
      var tail := EncodePeers(ps[1..]);
      assert EncodePeers(ps) == entry + tail;
      RegroupBytes(pre, entry, tail);
      PeerListEncoded(pre + entry, ps[1..]);
      PeerAtEncoded(pre, ps[0], tail);
    } else {
      assert pre + EncodePeers(ps) == pre;
    }
  }

  /** Round trip: an announce response a tracker builds is reported to the
      listener with every field and every peer as sent. */
  lemma {:induction false} AnnounceRoundTrip(t: TrackerState, nextId: nat, action: nat, transactionId: nat,
                                             interval: nat, leechers: nat, seeders: nat, ps: seq<PeerAddr>)
    requires TrackerOk(t) && nextId < U32_LIMIT
    requires action < U32_LIMIT && transactionId < U32_LIMIT && interval < U32_LIMIT
    requires leechers < U32_LIMIT && seeders < U32_LIMIT
    requires AllAddrOk(ps)
    ensures Receive(t, EncodeAnnounce(action, transactionId, interval, leechers, seeders, ps), true, nextId).announced
      == Some(AnnounceResponse(action, transactionId, interval, leechers, seeders,
                               RenderAll(ps)))
  {
    var head := U32(action) + U32(transactionId) + U32(interval) + U32(leechers) + U32(seeders);
    var res := EncodeAnnounce(action, transactionId, interval, leechers, seeders, ps);
    assert res == head + EncodePeers(ps);
    PeerListEncoded(head, ps);
    AnnounceHeader(head, EncodePeers(ps), action, transactionId, interval, leechers, seeders);
  }

  /** The five header fields read back from an encoded announce response. */
  lemma {:induction false} AnnounceHeader(head: seq<Byte>, tail: seq<Byte>, action: nat, transactionId: nat,
                                          interval: nat, leechers: nat, seeders: nat)
    requires action < U32_LIMIT && transactionId < U32_LIMIT && interval < U32_LIMIT
    requires leechers < U32_LIMIT && seeders < U32_LIMIT
    requires head == U32(action) + U32(transactionId) + U32(interval) + U32(leechers) + U32(seeders)
    ensures |head + tail| >= 20
    ensures ReadU32(head + tail, 0) == action && ReadU32(head + tail, 4) == transactionId
    ensures ReadU32(head + tail, 8) == interval && ReadU32(head + tail, 12) == leechers
    ensures ReadU32(head + tail, 16) == seeders
  {
    var buf := head + tail;
    assert buf[0..4] == U32(action);
    assert buf[4..8] == U32(transactionId);
    assert buf[8..12] == U32(interval);
    assert buf[12..16] == U32(leechers);
    assert buf[16..20] == U32(seeders);
    ReadU32Field(buf, 0, action);
    ReadU32Field(buf, 4, transactionId);
    ReadU32Field(buf, 8, interval);
    ReadU32Field(buf, 12, leechers);
    ReadU32Field(buf, 16, seeders);
  }

  /** A connect response echoing the pending transaction installs the
      tracker's connection id and is answered by an announce request
      carrying it under a random transaction id; nothing is reported. */
  lemma {:induction false} ConnectAccepted(t: TrackerState, connectionId: nat, listening: bool, nextId: nat)
    requires TrackerOk(t) && nextId < U32_LIMIT && connectionId < U64_LIMIT
    requires t.totalFileLength < U64_LIMIT
    ensures var r := Receive(t, EncodeConnect(t.transactionId, connectionId), listening, nextId);
      && r.tracker == t.(connectionId := connectionId, transactionId := nextId)
      && r.announced.None? && r.thrown.None?
      && r.sent == Some(Messages.UdpAnnounce(t.infoHash, t.peerId, connectionId, nextId, t.totalFileLength))
  {
    ConnectFields(t.transactionId, connectionId);
  }

  /** A connect response for another transaction changes nothing. */
  lemma {:induction false} ConnectStale(t: TrackerState, transactionId: nat, connectionId: nat,
                                        listening: bool, nextId: nat)
    requires TrackerOk(t) && nextId < U32_LIMIT && connectionId < U64_LIMIT
    requires transactionId < U32_LIMIT && transactionId != t.transactionId
    ensures Receive(t, EncodeConnect(transactionId, connectionId), listening, nextId)
      == Received(t, None, None, None)
  {
    ConnectFields(transactionId, connectionId);
  }

  lemma {:induction false} ConnectFields(transactionId: nat, connectionId: nat)
    requires transactionId < U32_LIMIT && connectionId < U64_LIMIT
    ensures var r := EncodeConnect(transactionId, connectionId);
      ReadU32(r, 0) == 0 && ReadU32(r, 4) == transactionId && ReadBE(r, 8, 8) == connectionId
  {
    Pow256Values();
    var r := EncodeConnect(transactionId, connectionId);
    assert r[0..4] == U32(0);
    assert r[4..8] == U32(transactionId);
    assert r[8..16] == U64(connectionId);
    ReadU32Field(r, 0, 0);
    ReadU32Field(r, 4, transactionId);
    ReadBEField(r, 8, 8, connectionId);
  }
}

=== FILE: trackers.dfy ===
/** Tracker selection from a torrent's metadata: `getFirstRelevantTracker`
    and `getAllTrackers` of lib/utils.js (the copy in lib/torrentHelpers.js
    is the same code). Only UDP trackers are used, recognised by the prefix
    "udp". Entries are taken as their decoded text. */
module Trackers {
  import opened Common
  import opened Text

  /** The two keys read from the decoded torrent: `announce` and
      `announce-list` (a list of tiers, each a list of URLs). */
  datatype TorrentMeta = TorrentMeta(announce: Option<string>, announceList: Option<seq<seq<string>>>)

  predicate IsUdp(url: string)
  {
    StartsWith(url, "udp")
  }

  /** Reference definition: the UDP URLs of `urls`, in order. */
  function UdpOnly(urls: seq<string>): seq<string>
  {
    if |urls| == 0 then []
    else (if IsUdp(urls[0]) then [urls[0]] else []) + UdpOnly(urls[1..])
  }

  /** `tracker[0]` of each tier; an empty tier yields `undefined`, which
      `Buffer.from` rejects with a TypeError. */
  function TierHeads(tiers: seq<seq<string>>): (r: Result<seq<string>>)
    ensures r.Ok? <==> forall k :: 0 <= k < |tiers| ==> |tiers[k]| > 0
    ensures r.Ok? ==> |r.value| == |tiers| && forall k :: 0 <= k < |tiers| ==> r.value[k] == tiers[k][0]
  {
    if |tiers| == 0 then Ok([])
    else if |tiers[0]| == 0 then Threw("TypeError: tracker[0] is undefined")
    else
      var rest := TierHeads(tiers[1..]);
      if rest.Threw? then rest else Ok([tiers[0][0]] + rest.value)
  }

  /** `getAllTrackers(res)`: the announce URL if it is a UDP tracker, then
      the first URL of every tier that is one; `null` instead of an empty
      list. A missing `announce-list` or an empty tier throws. */
  method AllTrackers(m: TorrentMeta) returns (r: Result<Option<seq<string>>>)
    ensures m.announceList.None? ==> r.Threw?
    ensures m.announceList.Some? ==>
      var heads := TierHeads(m.announceList.value);
      var announce := if m.announce.Some? then [m.announce.value] else [];
      && (heads.Threw? ==> r.Threw?)
      && (heads.Ok? ==> var found := UdpOnly(announce + heads.value);
            r == Ok(if |found| > 0 then Some(found) else None))
  {
    var trackerList: seq<string> := [];
    if m.announce.Some? && IsUdp(m.announce.value) {
      trackerList := [m.announce.value];
    }
    if m.announceList.None? {
      return Threw("TypeError: announce-list is undefined");
    }
    var tiers := m.announceList.value;
    var i := 0;
    ghost var announce := if m.announce.Some? then [m.announce.value] else [];
    assert trackerList == UdpOnly(announce) by {
      if m.announce.Some? {
        assert UdpOnly(announce) == (if IsUdp(announce[0]) then [announce[0]] else []) + UdpOnly([]);
      }
    }
    while i < |tiers|
      invariant 0 <= i <= |tiers|
      invariant forall k :: 0 <= k < i ==> |tiers[k]| > 0
      invariant TierHeads(tiers[..i]).Ok?
      invariant trackerList == UdpOnly(announce + TierHeads(tiers[..i]).value)
    {
      if |tiers[i]| == 0 {
        TierHeadsThrows(tiers, i);
        return Threw("TypeError: tracker[0] is undefined");
      }
      var parsed := tiers[i][0];
      TierHeadsPrefix(tiers, i);
      UdpOnlyAppend(announce + TierHeads(tiers[..i]).value, parsed);
      assert announce + TierHeads(tiers[..i + 1]).value == announce + TierHeads(tiers[..i]).value + [parsed];
      if IsUdp(parsed) {
        trackerList := trackerList + [parsed];
      }
      i := i + 1;
    }
    assert tiers[..i] == tiers;
    if |trackerList| > 0 {
      r := Ok(Some(trackerList));
    } else {
      r := Ok(None);
    }
  }

  lemma {:induction false} UdpOnlyAppend(urls: seq<string>, url: string)
    ensures UdpOnly(urls + [url]) == UdpOnly(urls) + (if IsUdp(url) then [url] else [])
    decreases |urls|
  {
    if |urls| == 0 {
      assert urls + [url] == [url];
    } else {
      assert (urls + [url])[1..] == urls[1..] + [url];
      UdpOnlyAppend(urls[1..], url);
    }
  }

  /** Heads of a longer run of non-empty tiers extend the shorter one's. */
  lemma {:induction false} TierHeadsPrefix(tiers: seq<seq<string>>, i: nat)
    requires i < |tiers| && forall k :: 0 <= k <= i ==> |tiers[k]| > 0
    ensures TierHeads(tiers[..i + 1]).Ok? && TierHeads(tiers[..i]).Ok?
    ensures TierHeads(tiers[..i + 1]).value == TierHeads(tiers[..i]).value + [tiers[i][0]]
  {
    var a := TierHeads(tiers[..i + 1]);
    var b := TierHeads(tiers[..i]);
    assert a.Ok? && b.Ok?;
    assert |a.value| == |b.value| + 1;
    assert forall k :: 0 <= k < i ==> a.value[k] == b.value[k];
  }

  lemma {:induction false} TierHeadsThrows(tiers: seq<seq<string>>, i: nat)
    requires i < |tiers| && |tiers[i]| == 0
    ensures TierHeads(tiers).Threw?
  {
  }

  /** Every URL returned is a UDP tracker taken from the metadata, every
      UDP candidate is returned, and the list is never empty. */
  lemma {:induction false} UdpOnlySpec(urls: seq<string>)
    ensures forall u :: u in UdpOnly(urls) <==> u in urls && IsUdp(u)
    ensures |UdpOnly(urls)| <= |urls|
    decreases |urls|
  {
    if |urls| > 0 {
      UdpOnlySpec(urls[1..]);
      assert urls == [urls[0]] + urls[1..];
    }
  }

  /** The result of `getAllTrackers` when it returns: a non-empty list of
      exactly the UDP candidates, or `null` when there are none. */
  lemma {:induction false} AllTrackersMembers(m: TorrentMeta, found: seq<string>)
    requires m.announceList.Some? && TierHeads(m.announceList.value).Ok?
    requires found == UdpOnly((if m.announce.Some? then [m.announce.value] else [])
                              + TierHeads(m.announceList.value).value)
    ensures forall u :: u in found <==>
      IsUdp(u) && ((m.announce.Some? && u == m.announce.value)
                   || exists k :: 0 <= k < |m.announceList.value| && m.announceList.value[k][0] == u)
  {
    var announce := if m.announce.Some? then [m.announce.value] else [];
    var heads := TierHeads(m.announceList.value).value;
    UdpOnlySpec(announce + heads);
    forall u
      ensures u in announce + heads <==>
        (m.announce.Some? && u == m.announce.value)
        || exists k :: 0 <= k < |m.announceList.value| && m.announceList.value[k][0] == u
    {
      if u in heads {
        var k :| 0 <= k < |heads| && heads[k] == u;
        assert m.announceList.value[k][0] == u;
      }
      if exists k :: 0 <= k < |m.announceList.value| && m.announceList.value[k][0] == u {
        var k :| 0 <= k < |m.announceList.value| && m.announceList.value[k][0] == u;
        assert heads[k] == u;
      }
    }
  }

  /** `getFirstRelevantTracker(res)`: with an `announce` entry, that entry
      if it is a UDP tracker and otherwise null, the list unread; without
      one, the first tier head that is a UDP tracker, or null. */
  method FirstRelevantTracker(m: TorrentMeta) returns (r: Result<Option<string>>)
    ensures m.announce.Some? ==> r == Ok(if IsUdp(m.announce.value) then Some(m.announce.value) else None)
    ensures m.announce.None? && m.announceList.None? ==> r.Threw?
    ensures r.Ok? && r.value.Some? && m.announce.None? ==>
      var tiers := m.announceList.value;
      exists k :: 0 <= k < |tiers| && |tiers[k]| > 0 && tiers[k][0] == r.value.value && IsUdp(r.value.value)
        && forall j :: 0 <= j < k ==> |tiers[j]| > 0 && !IsUdp(tiers[j][0])
    ensures r == Ok(None) && m.announce.None? ==>
      var tiers := m.announceList.value;
      forall k :: 0 <= k < |tiers| ==> |tiers[k]| > 0 && !IsUdp(tiers[k][0])
    ensures r.Threw? && m.announce.None? && m.announceList.Some? ==>
      var tiers := m.announceList.value;
      exists k :: 0 <= k < |tiers| && |tiers[k]| == 0
        && forall j :: 0 <= j < k ==> |tiers[j]| > 0 && !IsUdp(tiers[j][0])
  {
    if m.announce.Some? {
      if IsUdp(m.announce.value) {
        return Ok(Some(m.announce.value));
      }
      return Ok(None);
    }
    if m.announceList.None? {
      return Threw("TypeError: announce-list is undefined");
    }
    var tiers := m.announceList.value;
    var i := 0;
    while i < |tiers|
      invariant 0 <= i <= |tiers|
      invariant forall j :: 0 <= j < i ==> |tiers[j]| > 0 && !IsUdp(tiers[j][0])
    {
      if |tiers[i]| == 0 {
        return Threw("TypeError: tracker[0] is undefined");
      }
      if IsUdp(tiers[i][0]) {
        return Ok(Some(tiers[i][0]));
      }
      i := i + 1;
    }
    return Ok(None);
  }

  /** When it finds one, `getFirstRelevantTracker` returns the first
      tracker `getAllTrackers` lists. */
  lemma {:induction false} FirstIsHeadOfAll(heads: seq<string>, k: nat)
    requires k < |heads| && IsUdp(heads[k])
    requires forall j :: 0 <= j < k ==> !IsUdp(heads[j])
    ensures |UdpOnly(heads)| > 0 && UdpOnly(heads)[0] == heads[k]
    decreases k
  {
    if k > 0 {
      FirstIsHeadOfAll(heads[1..], k - 1);
    }
  }
}
